=== FILE: README.md ===
# Advent of Code 2023 solvers — a Dafny model

This project models the puzzle logic of a set of Java Advent-of-Code 2023
solvers and the small `grid` package they share. Each model is a pure
function over already-split input, and the contracts state what the puzzle
asks for:

- the seed **almanac** (day 5): category maps that shift values along a
  fixed eight-category chain;
- **camel cards** (day 7): hand scoring under plain rules and with jacks as
  jokers, card-by-card tie breaks, and rank-weighted bids;
- **scratchcards** (day 4): matches, the doubling score and the copy
  cascade;
- the **boat race** (day 6): counting the winning hold times around the
  midpoint of the race;
- the **cube game** (day 2): parsing rounds of coloured draws, feasibility
  against a bag, and the power of the smallest bag;
- the **trebuchet** calibration (day 1): the first and last digit of a line,
  with and without spelled-out digit words;
- the **network** walk (day 8): stepping left or right through a node map
  along a cyclic direction string, one walker or many at once;
- the **engine schematic** (day 3): a character grid, maximal digit runs,
  part numbers next to symbols, and gear ratios;
- the **grid** package: two- and three-dimensional integer points ordered
  lexicographically, and point-keyed grids that widen a bounding box on
  every `put`.

A Java exception (a `NullPointerException` on a missing map entry,
`orElseThrow` on an empty stream, a `NumberFormatException`, an index out of
bounds) is an `Err` or `None` result rather than a precondition. The shared
modules are `Wrappers` (results, and `Traverse` for a stream map that stops
at the first exception), `Decimal` (Java's `parseInt` and `toString` in
base 10), `JavaText` (`String.trim` and `String.split`), `Ordering`
(comparator chains and a stable sort) and `Folds` (sums and counts and their
independence from order).

## Model

| member | source | states |
|---|---|---|
| Almanac.Next | src/Day05.java:183-208 | the category after `t` exists exactly when `t` has a successor, and it is the next one in declaration order |
| Almanac.StepsToEnd | src/Day05.java:193-208 | from a category, the chain reaches LOCATION after seven steps minus the category's position, so the recursion of `testRecur` ends |
| Almanac.RangeCompare | src/Day05.java:177-180 | ranges compare by start only: negative, zero or positive as the first start is smaller, equal or larger |
| Almanac.EntryFrom | src/Day05.java:165-167 | an entry has source range [src, src+len) and destination range [dest, dest+len), both of length len |
| Almanac.EntryEvalInDest | src/Day05.java:157-163 | a value inside an entry's source range is mapped into the destination range, at the same offset from its start |
| Almanac.AMapFrom | src/Day05.java:148-152 | the map's entries by source and by destination are permutations of the given entries, sorted by source start and destination start, entries with equal starts keep their input order, and its target category is the successor of its source category |
| Almanac.EvalEntriesFirstMatch | src/Day05.java:140-146 | the lookup maps a value with the first entry whose source range holds it, and returns the value unchanged when none does |
| Almanac.AMapEvalDisjoint | src/Day05.java:140-152 | when the source ranges are pairwise disjoint, any entry holding the value gives the lookup's answer |
| Almanac.AlmanacFrom | src/Day05.java:133-135 | building the almanac fails exactly when two maps share a source category; otherwise every map is found under its source category and nothing else is present |
| Almanac.ChainDefinedFromAll | src/Day05.java:112-119 | the walk from a category needs a map for every later category that has a successor |
| Almanac.CompleteIsChain | src/Day05.java:105-119 | an almanac with a map for every non-final category is exactly one the walk from SEED can complete |
| Almanac.ValueFromStep | src/Day05.java:112-119 | the value reached in the next category is the current value passed through the current category's map |
| Almanac.TestRecur | src/Day05.java:112-119 | the walk succeeds exactly when every map it needs exists, and then its map holds the categories already recorded plus every category after `t` |
| Almanac.TestRecurKeeps | src/Day05.java:112-119 | the walk keeps every value recorded for a category before `t` |
| Almanac.TestRecurValue | src/Day05.java:112-119 | the walk records for each category from `t` on the value the chain of maps carries there |
| Almanac.TestSeed | src/Day05.java:105-110 | a seed's trace exists exactly when the almanac is complete, and then holds the chain value of every one of the eight categories |
| Almanac.TraceSteps | src/Day05.java:105-119 | the trace starts with the seed itself, and each category's value is the previous category's value passed through that category's map |
| Almanac.MinOfSeq | src/Day05.java:35-45 | the minimum location is reached by some seed and is no larger than any seed's location |
| Almanac.Part1 | src/Day05.java:35-45 | part 1 fails on an empty seed list or an incomplete almanac; otherwise it is the lowest location any listed seed reaches |
| Almanac.SeedRanges | src/Day05.java:47-50 | consecutive numbers (start, length) become the ranges [start, start+length), and a trailing unpaired number is dropped |
| Almanac.MinOverRange | src/Day05.java:54-61 | a range has a minimum exactly when it is non-empty; the minimum is attained in it and is no larger than any value in it |
| Almanac.MinOverRanges | src/Day05.java:54-61 | over a list of ranges the minimum exists exactly when some range is non-empty, and it is attained and least |
| Almanac.Part2 | src/Day05.java:47-69 | part 2 succeeds exactly when some seed lies in a range and the almanac is complete, and then is the lowest location of any seed in the ranges |
| BoatRace.GetBest | src/Day06.java:57-61 | the best hold is half the race time rounded down, and the best distance is what that hold travels |
| BoatRace.CountSplit | src/Day06.java:71-79 | the number of winning holds in an interval is the sum over the two halves of any split of it |
| BoatRace.HoldSymmetric | src/Day06.java:75-79 | holding for h and holding for time − h travel equally far |
| BoatRace.CountMirror | src/Day06.java:75-79 | an interval of holds and its mirror image about the middle of the race hold equally many winners |
| BoatRace.HoldMonotone | src/Day06.java:71-73 | up to the middle of the race, holding longer never travels less |
| BoatRace.BestIsMaximum | src/Day06.java:57-61 | no hold travels further than the hold `getBest` picks |
| BoatRace.CountNone | src/Day06.java:66-69 | an interval in which no hold beats the record holds no winners |
| BoatRace.CountLeftIsCount | src/Day06.java:71-73 | counting down from the middle while holds beat the record counts every winning hold from 1 to the middle |
| BoatRace.NumWinsFixedCounts | src/Day06.java:63-80 | with the record-tie case handled, the count is the number of holds from 0 to the race time that beat the record |
| BoatRace.NumWinsDiffersOnlyOnTie | src/Day06.java:63-80 | the program's count agrees with the corrected one except when the time is even and the best distance equals the record |
| BoatRace.NumWinsTieIsNegative | src/Day06.java:66-77 | a race of time 4 with record 4 gives −1 as written, although no hold wins it |
| BoatRace.NumWins | src/Day06.java:63-80 | no contract of its own: `BoatRace.NumWinsAsWritten` states what it counts |
| BoatRace.WinsAgree | src/Day06.java:38-40 | for races with non-negative time and record, the per-race counts part 1 multiplies are the numbers of winning holds, except −1 for a race whose time is even and whose best hold only ties the record |
| BoatRace.Part1 | src/Day06.java:38-40 | for races with non-negative time and record, part 1 is the product over the races of the number of winning holds, with −1 in place of it for every even-time tie |
| BoatRace.Part1Fixed | src/Day06.java:38-40 | with the corrected count, part 1 is the product of the races' numbers of winning holds |
| BoatRace.Part1NoTie | src/Day06.java:38-40 | when no race is an even-time tie, part 1 as written equals the corrected product |
| BoatRace.Part1TieExample | src/Day06.java:38-40 | the races (4, 4) and (7, 9) give −4 as written, where the corrected product is 0 |
| BoatRace.LongRace | src/Day06.java:42-54 | with no times or no records the joined text does not parse; for natural times and records the long race's time and record are the juxtaposed numbers and the answer is `numWins` of them |
| BoatRace.JoinDecimalDigits | src/Day06.java:43-49 | appending the decimal texts of natural numbers gives a digit string whose value is the numbers written one after another |
| BoatRace.JoinDecimalParses | src/Day06.java:43-51 | that text parses back as the juxtaposed number |
| BoatRace.NumWinsAsWritten | src/Day06.java:63-80 | the program's count is the number of winning holds, except when the time is even and the best distance ties the record, where it is −1 |
| BoatRace.Part2 | src/Day06.java:42-54 | with no races the long race cannot be parsed; otherwise its time and record are the juxtaposed times and records, and the answer is its number of winning holds, or −1 when the time is even and the best hold ties the record |
| CamelCards.Ordinal | src/Day07.java:232-245 | each card's ordinal is its position in the declaration order |
| CamelCards.FromPip | src/Day07.java:258-266 | reading a pip succeeds exactly when some card is written that way, and then gives that card |
| CamelCards.PipRoundTrip | src/Day07.java:258-271 | reading the text a card is written as gives the card back |
| CamelCards.StdIsDeclarationOrder | src/Day07.java:247 | the standard order ranks the cards in declaration order, two lowest and ace highest |
| CamelCards.AsJokerOrder | src/Day07.java:249-250 | the joker order puts the jack below every other card and otherwise agrees with the standard order |
| CamelCards.StatsFrom | src/Day07.java:219-228 | each card present is counted with its number of occurrences, and a card is listed under a count exactly when it occurs that many times |
| CamelCards.StatsQueries | src/Day07.java:195-217 | each query of the statistics answers the corresponding question about the multiset of cards, e.g. at least `count` distinct cards occur exactly `key` times |
| CamelCards.FirstApplying | src/Day07.java:295-301 | the search returns the first score in the list that applies to the hand, and nothing only when none applies |
| CamelCards.Evaluate | src/Day07.java:276-301 | evaluation never fails, and gives a score that applies with no higher score applying |
| CamelCards.Part1DependsOnProfile | src/Day07.java:93-130 | with plain rules, whether a score applies depends only on how many cards occur how often |
| CamelCards.Part1FullHouse | src/Day07.java:111-113 | with plain rules a full house is a card occurring three times together with a card occurring twice |
| CamelCards.Part2JackPair | src/Day07.java:135-137 | with jokers any hand holding a jack has at least a pair |
| CamelCards.Part2FourJacksFull | src/Day07.java:150-168 | with jokers four or more jacks make a full house |
| CamelCards.Part2FullWithoutJacks | src/Day07.java:150-168 | without jacks the joker full house is the plain full house |
| CamelCards.Part2Extends | src/Day07.java:132-190 | every score that applies under plain rules also applies with jokers |
| CamelCards.JokersNeverLower | src/Day07.java:93-190 | jokers never lower a hand's score |
| CamelCards.PlayKeyOrder | src/Day07.java:68-74 | one play sorts below another when its score is lower, or when the scores are equal and its first differing card ranks lower |
| CamelCards.WinningsRanked | src/Day07.java:47-56 | on plays sorted strongest first with no ties, the decreasing multiplier pays each bid times its ascending rank |
| CamelCards.SortStrictlyDescending | src/Day07.java:47-56 | sorting by the reversed comparator leaves plays with distinct keys strictly strongest first |
| CamelCards.RankedPermutation | src/Day07.java:47-56 | the rank-weighted total does not depend on the order of the plays |
| CamelCards.DoPart | src/Day07.java:47-56 | no contract of its own: `CamelCards.DoPartRanks` gives its value when no two plays tie, and `CamelCards.RankedPermutation` shows that value does not depend on the input order |
| CamelCards.DoPartRanks | src/Day07.java:47-56 | when no two plays tie, the result is every bid times the play's rank, the weakest play having rank 1 |
| CubeGame.ParseDraw | src/Day02.java:99-103 | a draw with fewer than two words fails, and a draw that parses had at least two words |
| CubeGame.PutAllUnnamed | src/Day02.java:95-104 | a colour that no draw names keeps its starting amount |
| CubeGame.PutAllLastDraw | src/Day02.java:95-104 | a colour ends with the amount of the last draw that names it |
| CubeGame.ProcessRound | src/Day02.java:94-107 | a round parses exactly when every draw does, and it names at least red, green and blue |
| CubeGame.ProcessGame | src/Day02.java:75-92 | a line without a header and a round part fails; a parsed game has the number after the header word as id and one round per `;`-separated piece |
| CubeGame.GamesFrom | src/Day02.java:26-29 | collecting the games fails exactly when some line is not a game or two games share an id; otherwise game i is the parse of line i |
| CubeGame.DrawRoundTrip | src/Day02.java:99-103 | a draw written as " amount colour" parses back to that colour and amount |
| CubeGame.RoundRoundTrip | src/Day02.java:94-107 | a round written as comma-separated draws parses back to zero cubes of every colour overwritten by those draws |
| CubeGame.RoundsRoundTrip | src/Day02.java:87-89 | the rounds of a game written with `;` between them parse back one by one |
| CubeGame.HeaderRoundTrip | src/Day02.java:77-83 | the header "Game id" gives the id back |
| CubeGame.GameRoundTrip | src/Day02.java:75-92 | a game line written in the input's format is processed back into its id and rounds |
| CubeGame.GameNeedsColon | src/Day02.java:77-80 | a line without a colon is not a game |
| CubeGame.WithinLimits | src/Day02.java:46-49 | checking a round fails exactly when it names a colour the bag has no limit for (the source's short-circuit may answer false before it meets that colour) |
| CubeGame.Possible | src/Day02.java:44-49 | a game is checked without failure exactly when all its colours are known, and is then possible exactly when every round is within the bag (with the same short-circuit difference) |
| CubeGame.Part1 | src/Day02.java:35-54 | part 1 fails exactly when some game names an unknown colour |
| CubeGame.PossibleFeasible | src/Day02.java:36-49 | a game is possible exactly when no round shows more than 12 red, 13 green or 14 blue |
| CubeGame.Part1Feasible | src/Day02.java:35-54 | part 1 is the sum of the ids of the feasible games |
| CubeGame.Part1Permutation | src/Day02.java:41-51 | part 1 does not depend on the order in which the games are visited |
| CubeGame.FeasibleSet | src/Day02.java:87-89 | feasibility depends only on the set of rounds, so duplicate rounds change nothing |
| CubeGame.Fewest | src/Day02.java:60-64 | the fewest cubes of a colour is at least that colour's count in every round, is reached by some round or is 0, and is never negative |
| CubeGame.Part2 | src/Day02.java:56-73 | part 2 fails exactly when some game names an unknown colour, and is otherwise the sum of the games' powers |
| CubeGame.FewestSet | src/Day02.java:87-89 | the fewest cubes of a colour depend only on the set of rounds |
| CubeGame.PowerAbsentColour | src/Day02.java:65-68 | a colour that no round shows makes the power 0 |
| CubeGame.Part2Permutation | src/Day02.java:57-70 | part 2 does not depend on the order in which the games are visited |
| Decimal.NatToDigits | src/Day06.java:47-48 | a natural number's decimal text is a digit string without a leading zero whose value is the number |
| Decimal.ParseInt | src/Day06.java:51 | parsing succeeds exactly on an optional sign followed by at least one digit; a digit string parses to its value, and a signed one to the value of its digits, negated after a minus, so "-007" is −7 and "-0" is 0 |
| Decimal.ParseToDecimal | src/Day06.java:47-51 | printing a number in decimal and parsing the text gives the number back |
| Decimal.ParseDigitsAppend | src/Day06.java:43-51 | the value of two digit strings written one after the other is the first shifted by the second's length plus the second |
| JavaText.TrimSound | src/Day02.java:80 | trimming removes the longest prefix and suffix of control characters and spaces, and keeps the middle |
| JavaText.TrimLeadingSpace | src/Day02.java:101-102 | a leading space makes no difference to the trimmed text |
| JavaText.SplitAllJoin | src/Day02.java:87 | splitting pieces joined by a separator gives the pieces back when none holds a separator |
| JavaText.JoinSplitAll | src/Day02.java:98 | joining the pieces of a split gives the text back |
| JavaText.JavaSplit | src/Day02.java:77 | text without a separator splits into itself; no piece holds a separator, and the last piece is empty only when the text itself is empty |
| JavaText.JavaSplitJoinBack | src/Day02.java:77 | with one separator character, joining the pieces gives the text without its trailing separators, and there are no pieces exactly when the text is a non-empty run of separators |
| JavaText.JavaSplitJoin | src/Day02.java:98 | splitting undoes a join whose pieces hold no separator and whose last piece is not empty |
| Network.ParseNode | src/Day08.java:74-84 | a parsed node has three-character word tokens and is exactly the line in the form "KKK = (LLL, RRR)" |
| Network.ParseFormatNode | src/Day08.java:16 | a node with three-character keys written in the input's form parses back to itself |
| Network.NodesFrom | src/Day08.java:25-27 | a node map is built exactly when every line parses and no two lines share a key; its keys are exactly the lines' keys, each node is filed under its own key, and every line's node is present |
| Network.NodeMap | src/Day08.java:27 | collecting nodes gives a map whose keys are the nodes' keys, each filed under its own key, and with distinct keys every node is present |
| Network.NextKey | src/Day08.java:95-101 | "L" takes the left successor and "R" the right; any other direction, or a missing node, fails |
| Network.Step | src/Day08.java:86-93 | a step moves to the successor the direction picks and adds exactly one to the count |
| Network.NextNth | src/Day08.java:106-133 | the k-th direction handed out, counting from 0, is character k mod the path length |
| Network.Walk1 | src/Day08.java:33-41 | an answer of the loop is a count after the starting one and at most the fuel later; `Network.Walk1Reference` says which count |
| Network.Walk1Reference | src/Day08.java:33-41 | the single walk, started on the reference walk from AAA, answers exactly the first later step that arrives at ZZZ, and fails exactly when the reference finds none |
| Network.FirstZZZSound | src/Day08.java:33-41 | the first arrival at ZZZ comes after at least one step, within the fuel, with every earlier step on a node that is not ZZZ |
| Network.FirstZZZComplete | src/Day08.java:33-41 | an arrival at ZZZ within the fuel, with no earlier one, is the first arrival |
| Network.Part1 | src/Day08.java:33-42 | part 1 fails on an empty path, whose only direction "" `nextKey` rejects, and an answer lies between 1 and the fuel; `Network.Part1Sound` and `Network.Part1Complete` show it is the first arrival at ZZZ |
| Network.Part1Sound | src/Day08.java:33-42 | part 1's answer is a step count of at least 1 that reaches ZZZ, with every earlier step on a node that is not ZZZ |
| Network.Part1Complete | src/Day08.java:33-42 | when ZZZ is first reached within the fuel, part 1 returns that number of steps |
| Network.LapCounts | src/Day08.java:54-64 | after a lap every state has taken one more step, so all counts equal the number of laps |
| Network.FollowingOnZ | src/Day08.java:57-68 | after a lap all states stand on keys ending in Z exactly when every reference walk does after that many steps |
| Network.Walk2 | src/Day08.java:54-69 | no contract of its own: `Network.Walk2Reference` states its answer against the reference walks |
| Network.Walk2Reference | src/Day08.java:54-69 | the simultaneous walk, on states that follow the reference walks, answers exactly the first lap on which every walker stands on a key ending in Z, and fails exactly when there is none |
| Network.FirstAllZSound | src/Day08.java:54-69 | the first lap on which every walk stands on a key ending in Z needs at least one walk, comes within the fuel, and every earlier lap has every walk on a node and some walk off a Z key |
| Network.FirstAllZComplete | src/Day08.java:54-69 | a lap within the fuel on which every walk stands on a key ending in Z, with no earlier one, is the first such lap |
| Network.Part2 | src/Day08.java:44-72 | part 2 fails on an empty path, whose only direction "" `nextKey` rejects; `Network.Part2Sound` and `Network.Part2Complete` show it is the first lap on which every walk stands on a key ending in Z |
| Network.Part2Sound | src/Day08.java:44-72 | part 2's answer is a lap count of at least 1 on which every walk stands on a key ending in Z, with no earlier lap doing so |
| Network.Part2Complete | src/Day08.java:44-72 | when every walk first stands on a key ending in Z within the fuel, part 2 returns that lap |
| Ordering.LexCompare | src/grid/TwoDimIntPoint.java:22-28 | a comparator chain answers 0 exactly on equal keys |
| Ordering.LexCompareAntisymmetric | src/grid/ThreeDimIntPoint.java:22-29 | swapping the arguments of a comparator chain flips the sign |
| Ordering.LexLeqTransitive | src/grid/ThreeDimIntPoint.java:22-29 | the order of a comparator chain is transitive |
| Ordering.LexCompareNegate | src/Day07.java:51 | the reversed comparator compares equal-length keys the other way round |
| Ordering.SortBy | src/Day07.java:50-51 | sorting returns a permutation of the input in ascending key order, and it is stable: for every key, the elements carrying it appear in their input order |
| Ordering.InsertByStable | src/Day07.java:50-51 | inserting into a sorted sequence puts the new element after every element with the same key |
| Points.Compare2Lexicographic | src/grid/TwoDimIntPoint.java:22-28 | a point sorts before another when its x is smaller, or the x values tie and its y is smaller |
| Points.Compare2 | src/grid/TwoDimIntPoint.java:22-28 | the comparison answers 0 exactly on equal points |
| Points.Compare2Antisymmetric | src/grid/TwoDimIntPoint.java:22-28 | swapping the points flips the sign of the comparison |
| Points.Compare2Transitive | src/grid/TwoDimIntPoint.java:22-28 | the point order is transitive |
| Points.Compare3Lexicographic | src/grid/ThreeDimIntPoint.java:22-29 | points compare by x, then y, then z |
| Points.Compare3 | src/grid/ThreeDimIntPoint.java:22-29 | the comparison answers 0 exactly on equal points |
| Points.Compare3Antisymmetric | src/grid/ThreeDimIntPoint.java:22-29 | swapping the points flips the sign of the comparison |
| Points.Compare3Transitive | src/grid/ThreeDimIntPoint.java:22-29 | the point order is transitive, so with antisymmetry it is a total order |
| Points.Sorted2 | src/Day03.java:106-108 | sorting a set of points lists every point of the set once, in strictly ascending order |
| Points.AscendingUnique2 | src/Day03.java:143-145 | a set of points has only one strictly ascending listing, so the sorted order is determined |
| Grids.Empty2 | src/grid/TwoDimIntGrid.java:9 | a new grid has no cells, and its bounds, all 0, satisfy the bounding-box invariant |
| Grids.Put2 | src/grid/TwoDimIntGrid.java:54-62 | after a put the key holds the value, every other key keeps its value, the previous value is returned, and each bound widens just enough to hold the key |
| Grids.PutKeepsInv2 | src/grid/TwoDimIntGrid.java:54-62 | a put keeps the box around the origin and every key, each bound being 0 or a key's coordinate |
| Grids.PutAll2Distinct | src/grid/TwoDimIntGrid.java:88-90 | collecting pairs with distinct keys stores every pair's value and leaves other keys alone |
| Grids.GetMinX2 | src/grid/TwoDimIntGrid.java:29-32 | on a grid built by puts, the least x among the origin and the keys |
| Grids.GetMaxX2 | src/grid/TwoDimIntGrid.java:24-27 | on a grid built by puts, the greatest x among the origin and the keys |
| Grids.GetMinY2 | src/grid/TwoDimIntGrid.java:34-37 | on a grid built by puts, the least y among the origin and the keys |
| Grids.GetMaxY2 | src/grid/TwoDimIntGrid.java:39-42 | on a grid built by puts, the greatest y among the origin and the keys |
| Grids.GetMinZ2 | src/grid/TwoDimIntGrid.java:44-47 | every key of a flat grid lies at the depth this bound reports |
| Grids.GetMaxZ2 | src/grid/TwoDimIntGrid.java:49-52 | every key of a flat grid lies at the depth this bound reports |
| Grids.MinRangePoint2 | src/grid/TwoDimIntGrid.java:19-22 | the minimum range point is made of the least x and the least y |
| Grids.MaxRangePoint2 | src/grid/TwoDimIntGrid.java:14-17 | the maximum range point is made of the greatest x and the greatest y |
| Grids.RangePointsBound2 | src/grid/TwoDimIntGrid.java:14-22 | every key lies between the two range points coordinate-wise |
| Grids.PutAt2 | src/grid/TwoDimIntGrid.java:55-66 | put(x, y, v) stores v at (x, y), keeps every other cell, returns the previous value if any, and widens the box just enough to hold (x, y) |
| Grids.GetAt2 | src/grid/TwoDimIntGrid.java:68-74 | get(x, y) and maybeGet(x, y) give a value exactly when (x, y) is a key, and then the value stored there |
| Grids.GridTestTwoDim | test/grid/GridTest.java:29-38 | the grid of (0,0) a, (1,2) b, (−5,3) c has three cells, finds each value, has nothing at (4,3), and has bounds x from −5 to 1 and y from 0 to 3 |
| Grids.Empty3 | src/grid/ThreeDimIntGrid.java:10 | a new grid has no cells and all six bounds 0 |
| Grids.Put3 | src/grid/ThreeDimIntGrid.java:59-69 | after a put the key holds the value, every other key keeps its value, and all six bounds widen just enough to hold the key |
| Grids.PutKeepsInv3 | src/grid/ThreeDimIntGrid.java:59-69 | a put keeps the box around the origin and every key |
| Grids.GetMinX3 | src/grid/ThreeDimIntGrid.java:34-37 | on a grid built by puts, the least x among the origin and the keys |
| Grids.GetMaxX3 | src/grid/ThreeDimIntGrid.java:29-32 | on a grid built by puts, the greatest x among the origin and the keys |
| Grids.GetMinY3 | src/grid/ThreeDimIntGrid.java:39-42 | on a grid built by puts, the least y among the origin and the keys |
| Grids.GetMaxY3 | src/grid/ThreeDimIntGrid.java:44-47 | on a grid built by puts, the greatest y among the origin and the keys |
| Grids.GetMinZ3 | src/grid/ThreeDimIntGrid.java:49-52 | on a grid built by puts, the least z among the origin and the keys |
| Grids.GetMaxZ3 | src/grid/ThreeDimIntGrid.java:54-57 | as written, the greatest x among the origin and the keys, whatever their depths |
| Grids.GetMaxZ3Fixed | src/grid/ThreeDimIntGrid.java:54-57 | no contract of its own: `Grids.GetMaxZ3FixedIsMaxDepth` shows it is the greatest z among the origin and the keys |
| Grids.MinRangePoint3 | src/grid/ThreeDimIntGrid.java:24-27 | the minimum range point is made of the least x, y and z |
| Grids.MaxRangePoint3 | src/grid/ThreeDimIntGrid.java:19-22 | the maximum range point is made of the greatest x and y and the tracked greatest z, not of `getMaxZ` |
| Grids.RangePointsBound3 | src/grid/ThreeDimIntGrid.java:19-27 | every key lies between the two range points coordinate-wise |
| Grids.GetMaxZ3MissesDepth | src/grid/ThreeDimIntGrid.java:54-57 | for a single cell at depth 5, `getMaxZ` as written reports 0 |
| Grids.GetMaxZ3FixedIsMaxDepth | src/grid/ThreeDimIntGrid.java:54-57 | the corrected maximum depth is at least every key's depth, and is either 0 or the depth of some key |
| Grids.PutAt3 | src/grid/ThreeDimIntGrid.java:60-73 | put(x, y, z, v) stores v at (x, y, z), keeps every other cell, returns the previous value if any, and widens all six bounds just enough to hold the point |
| Grids.GetAt3 | src/grid/ThreeDimIntGrid.java:75-81 | get(x, y, z) and maybeGet(x, y, z) give a value exactly when (x, y, z) is a key, and then the value stored there |
| Scratchcards.Matches | src/Day04.java:42-45 | a card's match count is the size of the intersection of its numbers with its winners |
| Scratchcards.Score | src/Day04.java:46 | the score is 2 to the matches divided by 2, so 0 with no matches |
| Scratchcards.ScoreDoubles | src/Day04.java:46 | one match is worth one point and every further match doubles the score |
| Scratchcards.Part1 | src/Day04.java:39-50 | part 1 is the sum of every card's score, so at least the score of each single card |
| Scratchcards.Part1Append | src/Day04.java:39-50 | part 1 adds up card by card |
| Scratchcards.SeedCopies | src/Day04.java:54-62 | before the cascade every card id has exactly one copy |
| Scratchcards.MaxId | src/Day04.java:55-62 | the largest id exists exactly when there are cards, and is an id no other id exceeds |
| Scratchcards.AddCopies | src/Day04.java:67-68 | adding copies fails exactly when a target id or the source id is missing; otherwise exactly the ids in the range gain the source's count and nothing else changes |
| Scratchcards.ProcessCard | src/Day04.java:64-70 | a card with matches and an id below the largest adds its count to each following id it wins, never beyond the largest id |
| Scratchcards.Cascade | src/Day04.java:64-70 | the cascade keeps the set of ids, keeps every count at least 1, and never touches ids beyond the largest |
| Scratchcards.Part2 | src/Day04.java:52-75 | part 2 fails on an empty card list and is otherwise at least the number of distinct ids |
| Scratchcards.Part2ContiguousOk | src/Day04.java:52-75 | part 2 never fails when every id a card can win is present |
| ScratchcardsReference.ProcessStep | src/Day04.java:64-70 | processing a card of a consecutively numbered list passes its final count on to exactly the cards it wins |
| ScratchcardsProof.SeedCounts | src/Day04.java:54-62 | the seeded counts are the puzzle's counts before any card is processed |
| ScratchcardsProof.CascadeCounts | src/Day04.java:64-70 | on consecutively numbered cards the loop leaves each card with the puzzle's number of instances of it |
| ScratchcardsProof.MaxIdConsecutive | src/Day04.java:55-62 | the largest id of consecutively numbered cards is the last one |
| ScratchcardsProof.Part2Reference | src/Day04.java:52-75 | on consecutively numbered cards, part 2 is the puzzle's total number of cards once every copy is counted |
| Trebuchet.LookupSpells | src/Day1.java:12-21 | every digit word maps to the digit it spells, "one" to "1" up to "nine" to "9" |
| Trebuchet.WordsPrefixFree | src/Day1.java:25-30 | no digit word is a prefix of another, so at most one word starts at any position |
| Trebuchet.TokenAt | src/Day1.java:29-30 | a token starts at a position exactly when a digit or a digit word starts there |
| Trebuchet.TokenOrderFree | src/Day1.java:25-30 | the word alternatives may be tried in any order: the word starting at a position is the token there |
| Trebuchet.TokenIsDigit | src/Day1.java:23 | every token, looked up, stands for exactly one digit |
| Trebuchet.FirstToken | src/Day1.java:64-68 | the match from a position is the leftmost token at or after it, and nothing only when there is no token |
| Trebuchet.FoundLast | src/Day1.java:62-69 | the harder mode's list ends with the token at the rightmost position that holds one |
| Trebuchet.Easier | src/Day1.java:50-57 | easier mode succeeds exactly when the line holds a digit character; `Trebuchet.EasierFirstLast` says what it reads |
| Trebuchet.Harder | src/Day1.java:59-73 | harder mode succeeds exactly when some position of the line starts a digit or a digit word; `Trebuchet.HarderFirstLast` says what it reads |
| Trebuchet.EasierFirstLast | src/Day1.java:50-57 | easier mode reads the first digit character followed by the last |
| Trebuchet.EasierSingleDigit | src/Day1.java:50-57 | a line with a single digit reads it twice |
| Trebuchet.EasierNoDigit | src/Day1.java:56 | a line without a digit fails |
| Trebuchet.HarderFirstLast | src/Day1.java:59-73 | harder mode reads the leftmost token and the token at the rightmost position holding one, words replaced by their digits |
| Trebuchet.HarderNoToken | src/Day1.java:70 | a line without a token fails |
| Trebuchet.HarderOverlap | src/Day1.java:59-73 | overlapping words both count: "twone" reads "21" |
| Trebuchet.DoPart | src/Day1.java:41-48 | the sum succeeds only when every line's reading succeeds |
| Trebuchet.ParseTwoDigits | src/Day1.java:44 | two digit characters are worth ten times the first plus the second |
| Trebuchet.DoPartSum | src/Day1.java:41-48 | when every line reads two digits, the result is the sum of the lines' two-digit values |
| Trebuchet.ModesReadTwoDigits | src/Day1.java:50-73 | both modes read exactly two digits whenever they succeed |
| Wrappers.Traverse | src/Day02.java:87-89 | a mapped stream succeeds exactly when every element does, keeping order and length; otherwise it fails with the first element's failure |
| Schematic.Pieces | src/Day03.java:82-95 | splitting a line into characters gives one piece per character, and the empty line gives one empty piece |
| Schematic.PiecesFlatten | src/Day03.java:82-95 | the pieces put back together are the line |
| Schematic.GetGrid | src/Day03.java:82-95 | the grid has a cell at (x, y) exactly when line y has a piece x, and that cell holds the piece |
| Schematic.CharPointsOfLines | src/Day03.java:115-122 | the char points are the characters that are neither a digit nor ".", together with the single cell of each empty line |
| Schematic.ScanComplete | src/Day03.java:174-184 | every digit cell is recorded under the number of non-digit cells before it |
| Schematic.ScanSound | src/Day03.java:174-184 | nothing but digit cells is recorded, each under that number |
| Schematic.SameId | src/Day03.java:174-184 | two digit cells share an id exactly when they lie in the same maximal run |
| Schematic.RowNumbersAreRuns | src/Day03.java:174-209 | the collector splits a sorted row into exactly its maximal runs of digit cells |
| Schematic.SortedRow | src/Day03.java:98-111 | a row of the grid, sorted, is its points from left to right |
| Schematic.RowRuns | src/Day03.java:98-111 | the maximal runs of a grid row are the maximal digit runs of its line |
| Schematic.WideNumbersAreRuns | src/Day03.java:98-112 | the wide numbers are exactly the maximal digit runs of the lines, as sets of points |
| Schematic.RunValue | src/Day03.java:141-148 | a wide number is worth the decimal number its digits spell, read left to right |
| Schematic.WideNumbersValued | src/Day03.java:141-148 | every wide number of the schematic has a value |
| Schematic.PartsAreRuns | src/Day03.java:125-138 | the part numbers are the digit runs with a cell adjacent to some char point |
| Schematic.Part1 | src/Day03.java:42-50 | no contract of its own: `Schematic.Part1Defined` shows it never fails and `Schematic.PartsAreRuns` says which runs it sums |
| Schematic.Part1Defined | src/Day03.java:42-50 | part 1 never fails: every part number has a value to add |
| Schematic.GearPointsOfLines | src/Day03.java:56-59 | the gears are exactly the `*` characters of the input |
| Schematic.GearRatio | src/Day03.java:62-75 | a gear touching a number of part numbers other than two contributes 0; with two it contributes the product of their values |
| Schematic.GearRatioDefined | src/Day03.java:62-75 | a gear's ratio is defined when the part numbers all have values |
| Schematic.Part2 | src/Day03.java:52-78 | no contract of its own: `Schematic.Part2Defined` shows it never fails and `Schematic.GearRatio` says what each gear adds |
| Schematic.Part2Defined | src/Day03.java:52-78 | part 2 never fails: every part number touching a gear has a value |
| Folds.SumOfPermutation | src/Day02.java:41-51 | a sum over a list depends only on the multiset of its elements |
| Folds.SumSetRemove | src/Day03.java:44-47 | a sum over a set does not depend on the order in which the set hands out its elements |

## Left out

- Reading the puzzle input and splitting it into lines (`util/InputUtil` is not part of this model): every model starts from already-split lines or already-parsed records.
- The regular-expression parsing of the day 5 and day 6 inputs: the almanac and the races are given as structured data.
- Printing, and the timing in day 5.
- The `.parallel()` stream of day 5 part 2, which is a sequential minimum here.
- Java `int` and `long` overflow: every integer is unbounded.
- Floating point: `Math.floor(time / 2.0)` in day 6 is integer division of a non-negative time, and `(int) Math.pow(2, count - 1)` in day 4 is an integer power truncated to 0 for no matches.
- The iteration order of hash sets and maps. Day 2 rounds and day 8 walkers are sequences, and lemmas show that the results depend only on their elements. Day 3 works on sets, summed through an arbitrary but fixed choice of element.
- `grid.DelegateMap`, the collector plumbing of `grid.BaseGrid`, the `Optional` wrapper of `grid.Grid` and the factories of `grid.Point`: a grid is a Dafny `map` with a bounding box.
- `grid.PointUtils` (`isOrthogonal`, `minus`) is not part of this model: adjacency in day 3 is a parameter `adj`. Its arguments are in the source's order: number point then char point for part numbers, gear then number point for gears.
- Schematic.Part1: the sum over the part numbers is a ghost definition over sets, so there is no executable day 3 answer, only its characterisation.
- Schematic.Part2: likewise a ghost sum over the set of gears.
- Network.Part1: the walk carries a fuel bound, because the source loops forever when ZZZ is never reached; the lemmas characterise the answer whenever it comes within the fuel.
- Network.Part2: the same fuel bound; the walkers are a sequence of states over the start keys ending in A, and the answer is read from the first walker's count.
- Almanac: the interval-splitting search some descriptions of the puzzle call for does not exist in the code; part 2 takes the minimum over every seed of every range.
- CamelCards.DoPartRanks: stated only when no two plays tie. With ties the stable sort keeps input order, and the result is then one of several rankings.
- CamelCards: plays are required to have at least five cards, since the card comparator reads the first five.
- Scratchcards.Part2: its own contract gives only bounds (failure on no cards, at least one instance per distinct id); the exact total is stated by `ScratchcardsProof.Part2Reference`, for consecutively numbered cards only.
- ScratchcardsProof.Part2Reference: stated for consecutively numbered cards, which is how the puzzle numbers them; for other numberings only `Scratchcards.Part2ContiguousOk` and the bounds of `Scratchcards.Part2` are stated.
- CubeGame.Part1: fails whenever a game names a colour without a limit, while the source's short-circuiting `allMatch` fails only if it reaches that entry.
- CubeGame.WithinLimits: fails on any colour without a limit. The source's `allMatch` walks the round's hash map in an unspecified order and may first meet a known colour over its limit, answering false instead of throwing.
- CubeGame.Possible: the same short-circuit difference, one round after another.
- Decimal.ParseInt: accepts only the ASCII digits '0' to '9'. Java's `Integer.parseInt` and `Long.parseLong` accept every Unicode decimal digit through `Character.digit`, so a draw whose count is written in Arabic-Indic digits parses in the source but not here.

## Findings

| source | as written | input that shows it | evidently intended | confidence | as-written member | corrected member |
|---|---|---|---|---|---|---|
| src/Day06.java:66-77 | the sanity check returns 0 only when the best distance is below the record; a tie with an even time counts no winning hold on the left and returns (0 − 1) × 2 + 1 = −1 | a race of time 4 and record 4 | a tie wins nothing, so the count is 0 | not executed | BoatRace.NumWinsTieIsNegative | BoatRace.NumWinsFixedCounts |
| src/grid/ThreeDimIntGrid.java:54-57 | `getMaxZ` returns the tracked maximum x | a single cell at (0, 0, 5): `getMaxZ` is 0 | the tracked maximum z | not executed | Grids.GetMaxZ3MissesDepth | Grids.GetMaxZ3FixedIsMaxDepth |

=== FILE: almanac.dfy ===
/** Day 5: the seed almanac. Each category's map shifts values that fall in
    one of its source ranges to the matching destination range and lets every
    other value through; the categories form a fixed chain from seed to
    location. Part 2 enumerates every seed of every range; there is no
    interval-splitting shortcut in this program. */
module Almanac {
  import opened Wrappers
  import opened Ordering

  datatype Category = Seed | Soil | Fertilizer | Water | Light | Temperature | Humidity | Location

  /** Declaration order of the enum; distinct categories have distinct
      positions. */
  function Ordinal(t: Category): (n: nat)
    ensures n <= 7 && CategoryAt(n) == t
  {
    match t
    case Seed => 0
    case Soil => 1
    case Fertilizer => 2
    case Water => 3
    case Light => 4
    case Temperature => 5
    case Humidity => 6
    case Location => 7
  }

  /** The category at position `n` of the declaration order. */
  function CategoryAt(n: nat): Category
    requires n <= 7
  {
    if n == 0 then Seed
    else if n == 1 then Soil
    else if n == 2 then Fertilizer
    else if n == 3 then Water
    else if n == 4 then Light
    else if n == 5 then Temperature
    else if n == 6 then Humidity
    else Location
  }

  predicate HasNext(t: Category) {
    t != Location
  }

  /** `Type.next`: the following category, or null after LOCATION. */
  function Next(t: Category): (r: Option<Category>)
    ensures r.Some? <==> HasNext(t)
    ensures r.Some? ==> Ordinal(r.value) == Ordinal(t) + 1
  {
    match t
    case Seed => Some(Soil)
    case Soil => Some(Fertilizer)
    case Fertilizer => Some(Water)
    case Water => Some(Light)
    case Light => Some(Temperature)
    case Temperature => Some(Humidity)
    case Humidity => Some(Location)
    case Location => None
  }

  /** How many `next` steps lead from `t` to the terminal category. */
  function StepsToEnd(t: Category): (n: nat)
    ensures n == 7 - Ordinal(t)
    decreases 7 - Ordinal(t)
  {
    if HasNext(t) then 1 + StepsToEnd(Next(t).value) else 0
  }

  // ------------------------------------------------------------ ranges

  datatype Range = Range(start: int, end: int)

  /** `Range.isValid`: the start is included, the end is not. */
  predicate IsValid(r: Range, v: int) {
    v >= r.start && v < r.end
  }

  function RangeKey(r: Range): seq<int> {
    [r.start]
  }

  /** `Range.compareTo`: by start only. */
  function RangeCompare(a: Range, b: Range): (c: int)
    ensures c < 0 <==> a.start < b.start
    ensures c == 0 <==> a.start == b.start
  {
    LexCompare(RangeKey(a), RangeKey(b))
  }

  // ------------------------------------------------------------ entries

  datatype Entry = Entry(dest: Range, src: Range, length: int)

  /** `Entry.from(dest, src, length)`. */
  function EntryFrom(dest: int, src: int, length: int): (e: Entry)
    ensures e.src.start == src && e.dest.start == dest && e.length == length
    ensures e.src.end - e.src.start == length && e.dest.end - e.dest.start == length
  {
    Entry(Range(dest, dest + length), Range(src, src + length), length)
  }

  predicate Test(e: Entry, v: int) {
    IsValid(e.src, v)
  }

  /** `Entry.eval`: the offset of `v` from the source start, applied to the
      destination start. */
  function EntryEval(e: Entry, v: int): int {
    e.dest.start + v - e.src.start
  }

  /** A value inside an entry's source range lands inside its destination
      range, at the same offset, and neighbouring values stay neighbours. */
  lemma EntryEvalInDest(dest: int, src: int, length: int, v: int)
    requires Test(EntryFrom(dest, src, length), v)
    ensures IsValid(EntryFrom(dest, src, length).dest, EntryEval(EntryFrom(dest, src, length), v))
    ensures EntryEval(EntryFrom(dest, src, length), v) - dest == v - src
  {
  }

  // ------------------------------------------------------------ maps

  datatype AMap = AMap(destType: Option<Category>, entryByDest: seq<Entry>,
                       srcType: Category, entryBySrc: seq<Entry>)

  function SrcKey(e: Entry): seq<int> { RangeKey(e.src) }
  function DestKey(e: Entry): seq<int> { RangeKey(e.dest) }

  /** `AMap.from`: the entries twice, stably sorted by destination start and
      by source start, and the destination category is the next one. */
  function AMapFrom(srcType: Category, entries: seq<Entry>): (m: AMap)
    ensures m.srcType == srcType && m.destType == Next(srcType)
    ensures multiset(m.entryBySrc) == multiset(entries) && SortedBy(m.entryBySrc, SrcKey)
    ensures multiset(m.entryByDest) == multiset(entries) && SortedBy(m.entryByDest, DestKey)
    ensures forall k :: WithKey(m.entryBySrc, SrcKey, k) == WithKey(entries, SrcKey, k)
    ensures forall k :: WithKey(m.entryByDest, DestKey, k) == WithKey(entries, DestKey, k)
  {
    AMap(Next(srcType), SortBy(entries, DestKey), srcType, SortBy(entries, SrcKey))
  }

  /** The search of `AMap.eval`: the first entry holding `v` maps it. */
  function EvalEntries(entries: seq<Entry>, v: int): int {
    if |entries| == 0 then v
    else if Test(entries[0], v) then EntryEval(entries[0], v)
    else EvalEntries(entries[1..], v)
  }

  /** The search answers with the first entry holding `v`, or with `v`
      itself when no entry holds it. */
  lemma {:induction false} EvalEntriesFirstMatch(entries: seq<Entry>, v: int)
    ensures
      || (exists i :: 0 <= i < |entries| && Test(entries[i], v) &&
                      (forall j :: 0 <= j < i ==> !Test(entries[j], v)) &&
                      EvalEntries(entries, v) == EntryEval(entries[i], v))
      || ((forall i :: 0 <= i < |entries| ==> !Test(entries[i], v)) && EvalEntries(entries, v) == v)
  {
    if |entries| > 0 && !Test(entries[0], v) {
      EvalEntriesFirstMatch(entries[1..], v);
      assert forall i :: 1 <= i < |entries| ==> entries[i] == entries[1..][i - 1];
      if exists i :: 0 <= i < |entries[1..]| && Test(entries[1..][i], v) &&
                     (forall j :: 0 <= j < i ==> !Test(entries[1..][j], v)) &&
                     EvalEntries(entries[1..], v) == EntryEval(entries[1..][i], v) {
        var i :| 0 <= i < |entries[1..]| && Test(entries[1..][i], v) &&
                 (forall j :: 0 <= j < i ==> !Test(entries[1..][j], v)) &&
                 EvalEntries(entries[1..], v) == EntryEval(entries[1..][i], v);
        assert Test(entries[i + 1], v);
      }
    }
  }

  /** `AMap.eval`: searched in ascending source-start order. */
  function AMapEval(m: AMap, v: int): int {
    EvalEntries(m.entryBySrc, v)
  }

  ghost predicate DisjointSources(entries: seq<Entry>) {
    forall i, j :: 0 <= i < j < |entries| ==> !(exists v :: Test(entries[i], v) && Test(entries[j], v))
  }

  /** With pairwise disjoint source ranges the search order is irrelevant:
      any entry holding `v` gives the answer. */
  lemma AMapEvalDisjoint(m: AMap, k: nat, v: int)
    requires DisjointSources(m.entryBySrc)
    requires k < |m.entryBySrc| && Test(m.entryBySrc[k], v)
    ensures AMapEval(m, v) == EntryEval(m.entryBySrc[k], v)
  {
    var es := m.entryBySrc;
    EvalEntriesFirstMatch(es, v);
    forall j | 0 <= j < |es| && j != k
      ensures !Test(es[j], v)
    {
      if j < k {
        assert !(exists w :: Test(es[j], w) && Test(es[k], w));
      } else {
        assert !(exists w :: Test(es[k], w) && Test(es[j], w));
      }
    }
  }

  // ------------------------------------------------------------ the almanac

  datatype Almanac = Almanac(maps: map<Category, AMap>)

  /** `Almanac.from`: keyed by source category; `Collectors.toMap` throws on
      a repeated key. */
  function AlmanacFrom(amaps: seq<AMap>): (r: Result<Almanac>)
    ensures r.Ok? <==> forall i, j :: 0 <= i < j < |amaps| ==> amaps[i].srcType != amaps[j].srcType
    ensures r.Ok? ==> forall i :: 0 <= i < |amaps| ==>
      amaps[i].srcType in r.value.maps && r.value.maps[amaps[i].srcType] == amaps[i]
    ensures r.Ok? ==> forall t :: t in r.value.maps ==> exists i :: 0 <= i < |amaps| && amaps[i].srcType == t
  {
    if |amaps| == 0 then Ok(Almanac(map[]))
    else
      var last := amaps[|amaps| - 1];
      var init := amaps[..|amaps| - 1];
      assert forall i :: 0 <= i < |init| ==> init[i] == amaps[i];
      match AlmanacFrom(init)
      case Err(e) => Err(e)
      case Ok(a) =>
        if last.srcType in a.maps then
          RepeatedLast(amaps, init, a.maps);
          Err("duplicate key")
        else
          AddedLast(amaps, init, a.maps, a.maps[last.srcType := last]);
          Ok(Almanac(a.maps[last.srcType := last]))
  }

  /** A last map whose category is already keyed repeats an earlier one. */
  lemma RepeatedLast(amaps: seq<AMap>, init: seq<AMap>, m: map<Category, AMap>)
    requires |amaps| > 0 && init == amaps[..|amaps| - 1]
    requires forall t :: t in m ==> exists i :: 0 <= i < |init| && init[i].srcType == t
    requires amaps[|amaps| - 1].srcType in m
    ensures exists i, j :: 0 <= i < j < |amaps| && amaps[i].srcType == amaps[j].srcType
  {
    var i :| 0 <= i < |init| && init[i].srcType == amaps[|amaps| - 1].srcType;
    assert amaps[i] == init[i];
  }

  /** Keying a last map of a new category keeps the keyed maps right. */
  lemma AddedLast(amaps: seq<AMap>, init: seq<AMap>, m: map<Category, AMap>, m': map<Category, AMap>)
    requires |amaps| > 0 && init == amaps[..|amaps| - 1]
    requires forall i, j :: 0 <= i < j < |init| ==> init[i].srcType != init[j].srcType
    requires forall i :: 0 <= i < |init| ==> init[i].srcType in m && m[init[i].srcType] == init[i]
    requires forall t :: t in m ==> exists i :: 0 <= i < |init| && init[i].srcType == t
    requires amaps[|amaps| - 1].srcType !in m && m' == m[amaps[|amaps| - 1].srcType := amaps[|amaps| - 1]]
    ensures forall i, j :: 0 <= i < j < |amaps| ==> amaps[i].srcType != amaps[j].srcType
    ensures forall i :: 0 <= i < |amaps| ==> amaps[i].srcType in m' && m'[amaps[i].srcType] == amaps[i]
    ensures forall t :: t in m' ==> exists i :: 0 <= i < |amaps| && amaps[i].srcType == t
  {
    var n := |amaps| - 1;
    forall i, j | 0 <= i < j < |amaps| ensures amaps[i].srcType != amaps[j].srcType {
      assert amaps[i] == init[i];
      if j < n {
        assert amaps[j] == init[j];
      }
    }
    forall i | 0 <= i < |amaps| ensures amaps[i].srcType in m' && m'[amaps[i].srcType] == amaps[i] {
      if i < n {
        assert amaps[i] == init[i];
      }
    }
    forall t | t in m' ensures exists i :: 0 <= i < |amaps| && amaps[i].srcType == t {
      if t != amaps[n].srcType {
        var i :| 0 <= i < |init| && init[i].srcType == t;
        assert amaps[i] == init[i];
      } else {
        assert amaps[n].srcType == t;
      }
    }
  }

  /** Every category with a successor has a map. */
  predicate Complete(a: Almanac) {
    forall t :: HasNext(t) ==> t in a.maps
  }

  /** `Almanac.eval`: a missing category map is a NullPointerException. */
  function AlmanacEval(a: Almanac, t: Category, v: int): Result<int> {
    if t in a.maps then Ok(AMapEval(a.maps[t], v)) else Err("no map for category")
  }

  /** Every category from `t` onwards that has a successor has a map. */
  predicate ChainDefinedFrom(a: Almanac, t: Category)
    decreases 7 - Ordinal(t)
  {
    HasNext(t) ==> t in a.maps && ChainDefinedFrom(a, Next(t).value)
  }

  /** The recursive chain condition says the same as the quantified one. */
  lemma {:induction false} ChainDefinedFromAll(a: Almanac, t: Category)
    ensures ChainDefinedFrom(a, t) <==> forall u :: Ordinal(u) >= Ordinal(t) && HasNext(u) ==> u in a.maps
    decreases 7 - Ordinal(t)
  {
    if HasNext(t) {
      ChainDefinedFromAll(a, Next(t).value);
    }
  }

  lemma CompleteIsChain(a: Almanac)
    ensures Complete(a) <==> ChainDefinedFrom(a, Seed)
  {
    ChainDefinedFromAll(a, Seed);
  }

  /** The value category `u` receives when the chain starts at category `t`
      with value `v`: every map from `t` up to the one before `u`, in turn. */
  function ValueFrom(a: Almanac, t: Category, v: int, u: Category): int
    requires Ordinal(t) <= Ordinal(u) && ChainDefinedFrom(a, t)
    decreases 7 - Ordinal(t)
  {
    if u == t then v
    else ValueFrom(a, Next(t).value, AMapEval(a.maps[t], v), u)
  }

  /** One more step along the chain applies the map of the category reached
      so far. */
  lemma {:induction false} ValueFromStep(a: Almanac, t: Category, v: int, u: Category)
    requires Ordinal(t) <= Ordinal(u) && ChainDefinedFrom(a, t) && HasNext(u)
    ensures u in a.maps
    ensures ValueFrom(a, t, v, Next(u).value) == AMapEval(a.maps[u], ValueFrom(a, t, v, u))
    decreases 7 - Ordinal(t)
  {
    if u != t {
      ValueFromStep(a, Next(t).value, AMapEval(a.maps[t], v), u);
    }
  }

  /** `testRecur`: records in `res` the value of every category after `t`. */
  function TestRecur(a: Almanac, t: Category, v: int, res: map<Category, int>): (r: Result<map<Category, int>>)
    requires t in res && res[t] == v
    ensures r.Ok? <==> ChainDefinedFrom(a, t)
    ensures r.Ok? ==> forall u :: u in r.value <==> u in res || Ordinal(u) > Ordinal(t)
    decreases 7 - Ordinal(t)
  {
    if HasNext(t) then
      var next := Next(t).value;
      match AlmanacEval(a, t, v)
      case Err(e) => Err(e)
      case Ok(val) =>
        TestRecur(a, next, val, res[next := val])
    else Ok(res)
  }

  /** `testRecur` keeps the entries recorded before category `t`. */
  lemma {:induction false} TestRecurKeeps(a: Almanac, t: Category, v: int, res: map<Category, int>, w: Category)
    requires t in res && res[t] == v && ChainDefinedFrom(a, t)
    requires w in res && Ordinal(w) < Ordinal(t)
    ensures TestRecur(a, t, v, res).value[w] == res[w]
    decreases 7 - Ordinal(t)
  {
    if HasNext(t) {
      var next := Next(t).value;
      var val := AMapEval(a.maps[t], v);
      TestRecurKeeps(a, next, val, res[next := val], w);
    }
  }

  /** `testRecur` records at every category `u` from `t` on the value the
      chain carries there. */
  lemma {:induction false} TestRecurValue(a: Almanac, t: Category, v: int, res: map<Category, int>, u: Category)
    requires t in res && res[t] == v && ChainDefinedFrom(a, t)
    requires Ordinal(t) <= Ordinal(u)
    ensures TestRecur(a, t, v, res).value[u] == ValueFrom(a, t, v, u)
    decreases 7 - Ordinal(t)
  {
    if HasNext(t) {
      var next := Next(t).value;
      var val := AMapEval(a.maps[t], v);
      if u == t {
        TestRecurKeeps(a, next, val, res[next := val], t);
      } else {
        TestRecurValue(a, next, val, res[next := val], u);
      }
    }
  }

  lemma TestRecurValues(a: Almanac, t: Category, v: int, res: map<Category, int>)
    requires t in res && res[t] == v && ChainDefinedFrom(a, t)
    ensures forall u :: Ordinal(t) <= Ordinal(u) ==>
      u in TestRecur(a, t, v, res).value && TestRecur(a, t, v, res).value[u] == ValueFrom(a, t, v, u)
  {
    forall u | Ordinal(t) <= Ordinal(u)
      ensures u in TestRecur(a, t, v, res).value && TestRecur(a, t, v, res).value[u] == ValueFrom(a, t, v, u)
    {
      TestRecurValue(a, t, v, res, u);
    }
  }

  /** `testSeed`: the trace of one seed through all eight categories. */
  function TestSeed(a: Almanac, seed: int): (r: Result<map<Category, int>>)
    ensures r.Ok? <==> Complete(a)
    ensures r.Ok? ==> forall t :: t in r.value && r.value[t] == ValueFrom(a, Seed, seed, t)
  {
    CompleteIsChain(a);
    var r := TestRecur(a, Seed, seed, map[Seed := seed]);
    if r.Ok? then
      TestRecurValues(a, Seed, seed, map[Seed := seed]);
      r
    else r
  }

  /** Each recorded value is the previous one mapped by that category's map,
      starting from the seed itself. */
  lemma TraceSteps(a: Almanac, seed: int)
    requires Complete(a)
    ensures TestSeed(a, seed).value[Seed] == seed
    ensures forall t :: HasNext(t) ==>
      TestSeed(a, seed).value[Next(t).value] == AMapEval(a.maps[t], TestSeed(a, seed).value[t])
  {
    CompleteIsChain(a);
    forall t | HasNext(t)
      ensures TestSeed(a, seed).value[Next(t).value] == AMapEval(a.maps[t], TestSeed(a, seed).value[t])
    {
      ValueFromStep(a, Seed, seed, t);
    }
  }

  /** The location a seed reaches: the last entry of its trace. */
  function LocationOf(a: Almanac, seed: int): int
    requires Complete(a)
  {
    CompleteIsChain(a);
    ValueFrom(a, Seed, seed, Location)
  }

  /** The smallest value of `f` over a non-empty list. */
  function MinOfSeq(f: int -> int, xs: seq<int>): (m: int)
    requires |xs| > 0
    ensures exists i :: 0 <= i < |xs| && f(xs[i]) == m
    ensures forall i :: 0 <= i < |xs| ==> m <= f(xs[i])
  {
    if |xs| == 1 then f(xs[0])
    else
      var rest := MinOfSeq(f, xs[1..]);
      assert forall i :: 1 <= i < |xs| ==> xs[i] == xs[1..][i - 1];
      if f(xs[0]) <= rest then f(xs[0]) else rest
  }

  /** Part 1: the lowest location of the listed seeds; an empty list or a
      missing category map throws. */
  function Part1(a: Almanac, seeds: seq<int>): (r: Result<int>)
    ensures r.Ok? <==> |seeds| > 0 && Complete(a)
    ensures r.Ok? ==> exists i :: 0 <= i < |seeds| && LocationOf(a, seeds[i]) == r.value
    ensures r.Ok? ==> forall i :: 0 <= i < |seeds| ==> r.value <= LocationOf(a, seeds[i])
  {
    if |seeds| == 0 then Err("no seeds")
    else if !Complete(a) then Err("no map for category")
    else Ok(MinOfSeq(v => LocationOf(a, v), seeds))
  }

  /** Consecutive numbers (start, length) become `[start, start + length)`;
      a trailing unpaired number is ignored. */
  function SeedRanges(seeds: seq<int>): (rs: seq<Range>)
    ensures |rs| == |seeds| / 2
    ensures forall i :: 0 <= i < |rs| ==> rs[i] == Range(seeds[2 * i], seeds[2 * i] + seeds[2 * i + 1])
  {
    if |seeds| < 2 then []
    else
      var rest := SeedRanges(seeds[2..]);
      assert forall i :: 2 <= i < |seeds| ==> seeds[i] == seeds[2..][i - 2];
      [Range(seeds[0], seeds[0] + seeds[1])] + rest
  }

  predicate InRanges(rs: seq<Range>, v: int) {
    exists i :: 0 <= i < |rs| && IsValid(rs[i], v)
  }

  /** The smallest value of `f` over `[lo, hi)`. */
  function MinOverRange(f: int -> int, lo: int, hi: int): (m: Option<int>)
    ensures m.Some? <==> lo < hi
    ensures m.Some? ==> exists v :: lo <= v < hi && f(v) == m.value
    ensures m.Some? ==> forall v :: lo <= v < hi ==> m.value <= f(v)
    decreases hi - lo
  {
    if lo >= hi then None
    else
      match MinOverRange(f, lo + 1, hi)
      case None => Some(f(lo))
      case Some(rest) => Some(if f(lo) <= rest then f(lo) else rest)
  }

  function MinOption(x: Option<int>, y: Option<int>): Option<int> {
    match x
    case None => y
    case Some(a) => match y
      case None => x
      case Some(b) => Some(if a <= b then a else b)
  }

  /** The smallest value of `f` over every member of every range. */
  function MinOverRanges(f: int -> int, rs: seq<Range>): (m: Option<int>)
    ensures m.Some? <==> exists v :: InRanges(rs, v)
    ensures m.Some? ==> exists v :: InRanges(rs, v) && f(v) == m.value
    ensures m.Some? ==> forall v :: InRanges(rs, v) ==> m.value <= f(v)
  {
    if |rs| == 0 then None
    else
      var head := MinOverRange(f, rs[0].start, rs[0].end);
      var tail := MinOverRanges(f, rs[1..]);
      assert forall v :: InRanges(rs, v) <==> IsValid(rs[0], v) || InRanges(rs[1..], v) by {
        forall v ensures InRanges(rs, v) <==> IsValid(rs[0], v) || InRanges(rs[1..], v) {
          if InRanges(rs, v) && !IsValid(rs[0], v) {
            var i :| 0 <= i < |rs| && IsValid(rs[i], v);
            assert IsValid(rs[1..][i - 1], v);
          }
          if InRanges(rs[1..], v) {
            var i :| 0 <= i < |rs[1..]| && IsValid(rs[1..][i], v);
            assert IsValid(rs[i + 1], v);
          }
        }
      }
      assert head.Some? ==> exists v :: IsValid(rs[0], v) && f(v) == head.value;
      assert head.Some? <==> exists v :: IsValid(rs[0], v) by {
        if head.Some? { assert IsValid(rs[0], rs[0].start); }
      }
      MinOption(head, tail)
  }

  /** Part 2: the lowest location over every seed of the (start, length)
      ranges; no seed at all, or a missing category map, throws. */
  function Part2(a: Almanac, seeds: seq<int>): (r: Result<int>)
    ensures var rs := SeedRanges(seeds);
      && (r.Ok? <==> (exists v :: InRanges(rs, v)) && Complete(a))
      && (r.Ok? ==> exists v :: InRanges(rs, v) && LocationOf(a, v) == r.value)
      && (r.Ok? ==> forall v :: InRanges(rs, v) ==> r.value <= LocationOf(a, v))
  {
    var rs := SeedRanges(seeds);
    if !Complete(a) then Err("no map for category")
    else match MinOverRanges(v => LocationOf(a, v), rs)
      case None => Err("no seeds")
      case Some(m) => Ok(m)
  }
}

=== FILE: boat_race.dfy ===
/** Day 6: toy boat races. Holding the button for `h` of the race's `time`
    milliseconds moves the boat `h * (time - h)` millimetres; a hold wins when
    that beats the record `distance`. The program counts winning holds from
    the midpoint outwards and doubles the count by symmetry. */
module BoatRace {
  import opened Wrappers
  import opened Decimal

  datatype Race = Race(time: int, distance: int)

  /** How far the boat travels after holding for `h`. */
  function HoldDistance(time: int, h: int): int {
    h * (time - h)
  }

  /** Reference count: the holds in `[lo, hi)` that beat `distance`. */
  function CountWins(time: int, distance: int, lo: int, hi: int): nat
    decreases hi - lo
  {
    if lo >= hi then 0
    else (if HoldDistance(time, lo) > distance then 1 else 0) + CountWins(time, distance, lo + 1, hi)
  }

  /** The number of ways to win a race: holds anywhere from 0 to `time`. */
  function Wins(r: Race): nat {
    CountWins(r.time, r.distance, 0, r.time + 1)
  }

  /** `Race.getBest`: the hold `floor(time / 2)` and its distance. */
  function GetBest(time: int): (b: (int, int))
    ensures 2 * b.0 <= time < 2 * b.0 + 2
    ensures b.1 == HoldDistance(time, b.0)
  {
    var idx := time / 2;
    (idx, idx * (time - idx))
  }

  /** The takeWhile of `numWins`: how many of `i, i - 1, ..., 1` beat the
      record before the first that does not. */
  function CountLeft(time: int, distance: int, i: int): nat
    decreases i
  {
    if i < 1 then 0
    else if HoldDistance(time, i) > distance then 1 + CountLeft(time, distance, i - 1)
    else 0
  }

  /** `Race.numWins` as the program has it. When the best distance only ties
      the record, the count of winning holds left of the midpoint is 0 and an
      even race time gives `(0 - 1) * 2 + 1`. */
  function NumWins(time: int, distance: int): int {
    var best := GetBest(time);
    if best.1 < distance then 0
    else
      var left := CountLeft(time, distance, best.0);
      if time % 2 == 0 then (left - 1) * 2 + 1 else left * 2
  }

  /** `Race.numWins` with the sanity check rejecting ties as well: a best
      distance that does not beat the record wins nothing. */
  function NumWinsFixed(time: int, distance: int): int {
    var best := GetBest(time);
    if best.1 <= distance then 0
    else
      var left := CountLeft(time, distance, best.0);
      if time % 2 == 0 then (left - 1) * 2 + 1 else left * 2
  }

  // ------------------------------------------------------------ counting

  lemma {:induction false} CountSplit(time: int, distance: int, lo: int, mid: int, hi: int)
    requires lo <= mid <= hi
    ensures CountWins(time, distance, lo, hi) == CountWins(time, distance, lo, mid) + CountWins(time, distance, mid, hi)
    decreases mid - lo
  {
    if lo < mid {
      CountSplit(time, distance, lo + 1, mid, hi);
    }
  }

  /** Holding `h` and holding `time - h` travel equally far. */
  lemma HoldSymmetric(time: int, h: int)
    ensures HoldDistance(time, h) == HoldDistance(time, time - h)
  {
  }

  /** Mirroring the hold interval about the middle of the race keeps the
      count. */
  lemma {:induction false} CountMirror(time: int, distance: int, lo: int, hi: int)
    requires lo <= hi
    ensures CountWins(time, distance, lo, hi) == CountWins(time, distance, time - hi + 1, time - lo + 1)
    decreases hi - lo
  {
    if lo < hi {
      CountMirror(time, distance, lo + 1, hi);
      CountSplit(time, distance, time - hi + 1, time - lo, time - lo + 1);
      HoldSymmetric(time, lo);
    }
  }

  /** Up to the midpoint, holding longer goes further. */
  lemma HoldMonotone(time: int, i: int, j: int)
    requires 0 <= i <= j && 2 * j <= time
    ensures HoldDistance(time, i) <= HoldDistance(time, j)
  {
    assert HoldDistance(time, j) - HoldDistance(time, i) == (j - i) * (time - i - j);
    assert (j - i) * (time - i - j) >= 0;
  }

  /** The best hold of `getBest` goes at least as far as any other hold. */
  lemma BestIsMaximum(time: int, h: int)
    requires 0 <= h <= time
    ensures HoldDistance(time, h) <= GetBest(time).1
  {
    var idx := GetBest(time).0;
    if h <= idx {
      HoldMonotone(time, h, idx);
    } else {
      HoldSymmetric(time, h);
      HoldMonotone(time, time - h, idx);
    }
  }

  lemma {:induction false} CountNone(time: int, distance: int, lo: int, hi: int)
    requires forall h :: lo <= h < hi ==> HoldDistance(time, h) <= distance
    ensures CountWins(time, distance, lo, hi) == 0
    decreases hi - lo
  {
    if lo < hi {
      CountNone(time, distance, lo + 1, hi);
    }
  }

  /** Left of the midpoint the winners form a block ending at the midpoint,
      so the takeWhile from `i` downwards counts every winner in `[1, i]`. */
  lemma {:induction false} CountLeftIsCount(time: int, distance: int, i: int)
    requires 0 <= i && 2 * i <= time
    ensures CountLeft(time, distance, i) == CountWins(time, distance, 1, i + 1)
    decreases i
  {
    if i >= 1 {
      CountSplit(time, distance, 1, i, i + 1);
      if HoldDistance(time, i) > distance {
        CountLeftIsCount(time, distance, i - 1);
      } else {
        forall h | 1 <= h < i ensures HoldDistance(time, h) <= distance {
          HoldMonotone(time, h, i);
        }
        CountNone(time, distance, 1, i);
      }
    }
  }

  /** The corrected count is the number of winning holds of a race with a
      non-negative time and record. */
  lemma NumWinsFixedCounts(time: int, distance: int)
    requires time >= 0 && distance >= 0
    ensures NumWinsFixed(time, distance) == Wins(Race(time, distance))
  {
    var best := GetBest(time);
    var idx := best.0;
    if best.1 <= distance {
      forall h | 0 <= h < time + 1 ensures HoldDistance(time, h) <= distance {
        BestIsMaximum(time, h);
      }
      CountNone(time, distance, 0, time + 1);
    } else {
      assert idx >= 1;
      CountLeftIsCount(time, distance, idx);
      WinsByHalves(time, distance, idx);
    }
  }

  /** When the midpoint hold wins, the winning holds are those in
      `[1, idx]` and their mirror images, the midpoint counted once when the
      race time is even. */
  lemma WinsByHalves(time: int, distance: int, idx: int)
    requires distance >= 0 && 1 <= idx && 2 * idx <= time < 2 * idx + 2
    requires HoldDistance(time, idx) > distance
    ensures var left := CountWins(time, distance, 1, idx + 1);
            Wins(Race(time, distance)) == if time % 2 == 0 then (left - 1) * 2 + 1 else left * 2
  {
    CountSplit(time, distance, 0, 1, time + 1);
    CountSplit(time, distance, 1, time, time + 1);
    if time % 2 == 0 {
      EvenHalves(time, distance, idx);
    } else {
      OddHalves(time, distance, idx);
    }
  }

  lemma EvenHalves(time: int, distance: int, idx: int)
    requires 1 <= idx && time == 2 * idx && HoldDistance(time, idx) > distance
    ensures CountWins(time, distance, 1, time) == 2 * CountWins(time, distance, 1, idx + 1) - 1
  {
    CountSplit(time, distance, 1, idx, time);
    CountSplit(time, distance, idx, idx + 1, time);
    CountSplit(time, distance, 1, idx, idx + 1);
    CountMirror(time, distance, idx + 1, time);
  }

  lemma OddHalves(time: int, distance: int, idx: int)
    requires 1 <= idx && time == 2 * idx + 1
    ensures CountWins(time, distance, 1, time) == 2 * CountWins(time, distance, 1, idx + 1)
  {
    CountSplit(time, distance, 1, idx + 1, time);
    CountMirror(time, distance, idx + 1, time);
  }

  /** The program's count and the corrected one differ only on a tie between
      the best distance and the record. */
  lemma NumWinsDiffersOnlyOnTie(time: int, distance: int)
    requires GetBest(time).1 != distance || time % 2 != 0
    ensures NumWins(time, distance) == NumWinsFixed(time, distance)
  {
  }

  /** The best hold exactly ties the record of a race with an even time:
      the one case in which the program's count is off. */
  predicate EvenTie(time: int, distance: int) {
    GetBest(time).1 == distance && time % 2 == 0
  }

  /** The program's count is the number of winning holds, except on an
      even-time tie, where it is -1. */
  lemma NumWinsAsWritten(time: int, distance: int)
    requires time >= 0 && distance >= 0
    ensures NumWins(time, distance) == if EvenTie(time, distance) then -1 else Wins(Race(time, distance))
  {
    if !EvenTie(time, distance) {
      NumWinsDiffersOnlyOnTie(time, distance);
      NumWinsFixedCounts(time, distance);
    }
  }

  /** A 4 ms race with a 4 mm record cannot be won (the best hold only
      ties it), yet the program reports -1 ways. */
  lemma NumWinsTieIsNegative()
    ensures NumWins(4, 4) == -1
    ensures NumWinsFixed(4, 4) == 0
    ensures Wins(Race(4, 4)) == 0
  {
    TieWinsNothing();
  }

  /** No hold beats a record of 4 in a race of 4 milliseconds. */
  lemma TieWinsNothing()
    ensures CountWins(4, 4, 0, 5) == 0
  {
    forall h | 0 <= h < 5 ensures HoldDistance(4, h) <= 4 {
      BestIsMaximum(4, h);
    }
    CountNone(4, 4, 0, 5);
  }

  // ------------------------------------------------------------ parts

  function Product(xs: seq<int>): int {
    if |xs| == 0 then 1 else Product(xs[..|xs| - 1]) * xs[|xs| - 1]
  }

  /** Every race has a non-negative time and record, as puzzle input does. */
  predicate NonNegative(races: seq<Race>) {
    forall i :: 0 <= i < |races| ==> races[i].time >= 0 && races[i].distance >= 0
  }

  /** `Race::numWins` of every race, in order. */
  function WinsPerRace(races: seq<Race>): (ws: seq<int>)
    ensures |ws| == |races|
    ensures forall i :: 0 <= i < |races| ==> ws[i] == NumWins(races[i].time, races[i].distance)
  {
    if |races| == 0 then []
    else WinsPerRace(races[..|races| - 1]) + [NumWins(races[|races| - 1].time, races[|races| - 1].distance)]
  }

  /** What the program reports for one race: its number of winning holds,
      or -1 when the time is even and the best hold only ties the record. */
  function CountAsWritten(r: Race): int {
    if EvenTie(r.time, r.distance) then -1 else Wins(r)
  }

  /** The reported count of each race, from the reference count. */
  function CountsOf(races: seq<Race>): (ws: seq<int>)
    ensures |ws| == |races|
    ensures forall i :: 0 <= i < |races| ==> ws[i] == CountAsWritten(races[i])
  {
    if |races| == 0 then [] else CountsOf(races[..|races| - 1]) + [CountAsWritten(races[|races| - 1])]
  }

  /** Part 1: the product of every race's `numWins`, the -1 of an even-time
      tie included. */
  function Part1(races: seq<Race>): (r: int)
    ensures NonNegative(races) ==> r == Product(CountsOf(races))
  {
    var ws := WinsPerRace(races);
    WinsAgree(races);
    Product(ws)
  }

  /** The program's per-race counts are the winning holds, except for -1 on
      an even-time tie. */
  lemma WinsAgree(races: seq<Race>)
    ensures NonNegative(races) ==> WinsPerRace(races) == CountsOf(races)
  {
    if NonNegative(races) {
      forall i | 0 <= i < |races| ensures WinsPerRace(races)[i] == CountsOf(races)[i] {
        NumWinsAsWritten(races[i].time, races[i].distance);
      }
    }
  }

  /** The reference number of ways to win of each race. */
  function WinsOf(races: seq<Race>): (ws: seq<int>)
    ensures |ws| == |races|
    ensures forall i :: 0 <= i < |races| ==> ws[i] == Wins(races[i])
  {
    if |races| == 0 then [] else WinsOf(races[..|races| - 1]) + [Wins(races[|races| - 1])]
  }

  /** The corrected count of every race, in order. */
  function FixedPerRace(races: seq<Race>): (ws: seq<int>)
    ensures |ws| == |races|
    ensures forall i :: 0 <= i < |races| ==> ws[i] == NumWinsFixed(races[i].time, races[i].distance)
  {
    if |races| == 0 then []
    else FixedPerRace(races[..|races| - 1]) + [NumWinsFixed(races[|races| - 1].time, races[|races| - 1].distance)]
  }

  /** Part 1 with the corrected count: the product of the numbers of ways
      to win. */
  function Part1Fixed(races: seq<Race>): (r: int)
    ensures NonNegative(races) ==> r == Product(WinsOf(races))
  {
    var ws := FixedPerRace(races);
    FixedAgree(races);
    Product(ws)
  }

  lemma FixedAgree(races: seq<Race>)
    ensures NonNegative(races) ==> FixedPerRace(races) == WinsOf(races)
  {
    if NonNegative(races) {
      forall i | 0 <= i < |races| ensures FixedPerRace(races)[i] == WinsOf(races)[i] {
        NumWinsFixedCounts(races[i].time, races[i].distance);
      }
    }
  }

  /** Without an even-time tie the program's part 1 is the corrected one. */
  lemma Part1NoTie(races: seq<Race>)
    requires NonNegative(races)
    requires forall i :: 0 <= i < |races| ==> !EvenTie(races[i].time, races[i].distance)
    ensures Part1(races) == Part1Fixed(races)
  {
    assert CountsOf(races) == WinsOf(races);
  }

  /** Two races, the first an even-time tie: the program multiplies its -1
      in, so the product is -4 although no hold of the first race wins. */
  lemma Part1TieExample()
    ensures Part1([Race(4, 4), Race(7, 9)]) == -4
    ensures Part1Fixed([Race(4, 4), Race(7, 9)]) == 0
  {
    NumWinsTieIsNegative();
    SevenNineWinsFour();
    Part1OfTwo(Race(4, 4), Race(7, 9));
  }

  lemma Part1OfTwo(a: Race, b: Race)
    ensures Part1([a, b]) == NumWins(a.time, a.distance) * NumWins(b.time, b.distance)
    ensures Part1Fixed([a, b]) == NumWinsFixed(a.time, a.distance) * NumWinsFixed(b.time, b.distance)
  {
    var ws, fs := WinsPerRace([a, b]), FixedPerRace([a, b]);
    assert ws == [ws[0], ws[1]] && fs == [fs[0], fs[1]];
    ProductSmall(ws[0], ws[1]);
    ProductSmall(fs[0], fs[1]);
  }

  lemma ProductSmall(a: int, b: int)
    ensures Product([a, b]) == a * b
  {
    assert [a, b][..1] == [a] && [a][..0] == [];
    assert Product([a]) == Product([]) * a;
  }

  /** A race of 7 milliseconds against a record of 9: holds 2 to 5 win. */
  lemma SevenNineWinsFour()
    ensures NumWins(7, 9) == 4
    ensures NumWinsFixed(7, 9) == 4
  {
    assert GetBest(7) == (3, 12);
    assert HoldDistance(7, 1) == 6;
    assert CountLeft(7, 9, 1) == 0;
    assert HoldDistance(7, 2) == 10;
    assert CountLeft(7, 9, 2) == 1;
    assert HoldDistance(7, 3) == 12;
    assert CountLeft(7, 9, 3) == 2;
  }

  /** The `StringBuilder` of part 2: every number's decimal text, in order. */
  function JoinDecimal(xs: seq<int>): string {
    if |xs| == 0 then "" else JoinDecimal(xs[..|xs| - 1]) + ToDecimal(xs[|xs| - 1])
  }

  predicate AllNatural(xs: seq<int>) {
    forall i :: 0 <= i < |xs| ==> xs[i] >= 0
  }

  /** The number whose digits are those of `xs` written one after another. */
  function Juxtapose(xs: seq<int>): nat
    requires AllNatural(xs)
  {
    if |xs| == 0 then 0
    else Juxtapose(xs[..|xs| - 1]) * Pow10(|NatToDigits(xs[|xs| - 1])|) + xs[|xs| - 1]
  }

  /** Joined decimal texts of natural numbers are digit strings whose value
      is the juxtaposition of the numbers. */
  lemma {:induction false} JoinDecimalDigits(xs: seq<int>)
    requires AllNatural(xs)
    ensures AllDigits(JoinDecimal(xs))
    ensures ParseDigits(JoinDecimal(xs)) == Juxtapose(xs)
    ensures |xs| > 0 ==> |JoinDecimal(xs)| > 0
  {
    if |xs| > 0 {
      var init, x := xs[..|xs| - 1], xs[|xs| - 1];
      assert AllNatural(init) by {
        forall i | 0 <= i < |init| ensures init[i] >= 0 {
          assert init[i] == xs[i];
        }
      }
      JoinDecimalDigits(init);
      var d := NatToDigits(x);
      assert JoinDecimal(xs) == JoinDecimal(init) + d;
      ParseDigitsAppend(JoinDecimal(init), d);
      assert Juxtapose(xs) == Juxtapose(init) * Pow10(|d|) + x;
    }
  }

  function Times(races: seq<Race>): (ts: seq<int>)
    ensures |ts| == |races| && forall i :: 0 <= i < |races| ==> ts[i] == races[i].time
  {
    if |races| == 0 then [] else Times(races[..|races| - 1]) + [races[|races| - 1].time]
  }

  function Distances(races: seq<Race>): (ds: seq<int>)
    ensures |ds| == |races| && forall i :: 0 <= i < |races| ==> ds[i] == races[i].distance
  {
    if |races| == 0 then [] else Distances(races[..|races| - 1]) + [races[|races| - 1].distance]
  }

  /** Joined decimal texts of natural numbers parse to their juxtaposition. */
  lemma JoinDecimalParses(xs: seq<int>)
    requires |xs| > 0 && AllNatural(xs)
    ensures ParseInt(JoinDecimal(xs)) == Some(Juxtapose(xs))
  {
    JoinDecimalDigits(xs);
    ParseAllDigits(JoinDecimal(xs));
  }

  /** Part 2: one long race whose time and record are the digits of all
      times and of all records run together, counted by `numWins` as the
      program has it (so an even-time tie reports -1); `Long.parseLong`
      throws on an empty text or on a stray minus sign. */
  function Part2(races: seq<Race>): (r: Result<int>)
    ensures |races| == 0 ==> r.Err?
    ensures |races| > 0 && AllNatural(Times(races)) && AllNatural(Distances(races)) ==>
      var t := Juxtapose(Times(races));
      var d := Juxtapose(Distances(races));
      r == Ok(if EvenTie(t, d) then -1 else Wins(Race(t, d)))
  {
    var ts := Times(races);
    var ds := Distances(races);
    assert |races| > 0 && AllNatural(ts) && AllNatural(ds) ==>
      var t := Juxtapose(ts);
      var d := Juxtapose(ds);
      NumWins(t, d) == if EvenTie(t, d) then -1 else Wins(Race(t, d)) by {
      if |races| > 0 && AllNatural(ts) && AllNatural(ds) {
        NumWinsAsWritten(Juxtapose(ts), Juxtapose(ds));
      }
    }
    LongRace(ts, ds)
  }

  /** The parsing and counting of part 2 once the texts are joined. */
  function LongRace(ts: seq<int>, ds: seq<int>): (r: Result<int>)
    ensures |ts| == 0 || |ds| == 0 ==> r.Err?
    ensures |ts| > 0 && |ds| > 0 && AllNatural(ts) && AllNatural(ds) ==>
      r == Ok(NumWins(Juxtapose(ts), Juxtapose(ds)))
  {
    assert |ts| > 0 && |ds| > 0 && AllNatural(ts) && AllNatural(ds) ==>
      ParseInt(JoinDecimal(ts)) == Some(Juxtapose(ts)) && ParseInt(JoinDecimal(ds)) == Some(Juxtapose(ds)) by {
      if |ts| > 0 && |ds| > 0 && AllNatural(ts) && AllNatural(ds) {
        JoinDecimalParses(ts);
        JoinDecimalParses(ds);
      }
    }
    match ParseInt(JoinDecimal(ts))
    case None => Err("time is not a number")
    case Some(t) =>
      match ParseInt(JoinDecimal(ds))
      case None => Err("distance is not a number")
      case Some(d) => Ok(NumWins(t, d))
  }
}

=== FILE: camel_cards.dfy ===
/** Camel Cards (`Day07`): the cards and their two orders, the count
    statistics of a hand, the two rule sets that classify a hand, the score
    chosen for it, and the total winnings of a list of plays. */
module CamelCards {
  import opened Wrappers
  import opened Ordering
  import opened Folds

  /** `Card`, in declaration order. */
  datatype Card = Two | Three | Four | Five | Six | Seven | Eight | Nine | Ten | Jack | Queen | King | Ace

  /** `Card.values()`. */
  const AllCards: seq<Card> := [Two, Three, Four, Five, Six, Seven, Eight, Nine, Ten, Jack, Queen, King, Ace]

  /** `Enum.ordinal`: the card's position in `AllCards`. */
  function Ordinal(c: Card): (n: nat)
    ensures n < |AllCards| && AllCards[n] == c
  {
    match c
    case Two => 0
    case Three => 1
    case Four => 2
    case Five => 3
    case Six => 4
    case Seven => 5
    case Eight => 6
    case Nine => 7
    case Ten => 8
    case Jack => 9
    case Queen => 10
    case King => 11
    case Ace => 12
  }

  /** The one-character text a card is written as. */
  function Pip(c: Card): char {
    match c
    case Two => '2'
    case Three => '3'
    case Four => '4'
    case Five => '5'
    case Six => '6'
    case Seven => '7'
    case Eight => '8'
    case Nine => '9'
    case Ten => 'T'
    case Jack => 'J'
    case Queen => 'Q'
    case King => 'K'
    case Ace => 'A'
  }

  lemma PipInjective(c: Card, d: Card)
    ensures Pip(c) == Pip(d) ==> c == d
  {
  }

  /** The first card of `cards` written as `pip`. */
  function FindPip(cards: seq<Card>, pip: string): (r: Option<Card>)
    ensures r.Some? ==> r.value in cards && [Pip(r.value)] == pip
    ensures r.None? ==> forall c :: c in cards ==> [Pip(c)] != pip
  {
    if |cards| == 0 then None
    else if [Pip(cards[0])] == pip then Some(cards[0])
    else FindPip(cards[1..], pip)
  }

  /** `Card.from`: the card whose pip is the text; any other text throws. */
  function FromPip(pip: string): (r: Result<Card>)
    ensures r.Ok? <==> exists c: Card :: [Pip(c)] == pip
    ensures r.Ok? ==> [Pip(r.value)] == pip
  {
    assert forall c: Card :: c in AllCards by {
      forall c: Card ensures c in AllCards {
        assert AllCards[Ordinal(c)] == c;
      }
    }
    match FindPip(AllCards, pip)
    case None => Err("unknown card")
    case Some(c) => Ok(c)
  }

  /** Reading a card's own pip gives the card back. */
  lemma PipRoundTrip(c: Card)
    ensures FromPip([Pip(c)]) == Ok(c)
  {
    PipInjective(FromPip([Pip(c)]).value, c);
  }

  /** The two card comparators, `Card.STD` and `Card.AS_JOKER`. */
  datatype CardOrder = Std | AsJoker

  /** The integer each comparator compares. */
  function Rank(order: CardOrder, c: Card): int {
    match order
    case Std => Ordinal(c)
    case AsJoker => if c == Jack then -1 else Ordinal(c)
  }

  /** `STD` ranks the cards in declaration order, two lowest and ace
      highest. */
  lemma StdIsDeclarationOrder(i: nat, j: nat)
    requires i < j < |AllCards|
    ensures Rank(Std, AllCards[i]) < Rank(Std, AllCards[j])
  {
    assert Ordinal(AllCards[i]) == i && Ordinal(AllCards[j]) == j;
  }

  /** `AS_JOKER` puts the jack below every other card and otherwise agrees
      with `STD`. */
  lemma AsJokerOrder(c: Card, d: Card)
    ensures c != Jack ==> Rank(AsJoker, Jack) < Rank(AsJoker, c)
    ensures c != Jack && d != Jack ==> (Rank(AsJoker, c) < Rank(AsJoker, d) <==> Rank(Std, c) < Rank(Std, d))
  {
  }

  /** `CardStats`: the cards grouped by how often they occur, and each card's
      number of occurrences. */
  datatype CardStats = CardStats(cardsByCounts: map<int, set<Card>>, countPerCard: map<Card, int>)

  /** `CardStats.from`. */
  function StatsFrom(cards: seq<Card>): (s: CardStats)
    ensures forall c :: c in s.countPerCard <==> c in cards
    ensures forall c :: c in s.countPerCard ==> s.countPerCard[c] == multiset(cards)[c]
    ensures forall k :: k in s.cardsByCounts <==> exists c :: c in cards && multiset(cards)[c] == k
    ensures forall k, c :: k in s.cardsByCounts ==>
      (c in s.cardsByCounts[k] <==> c in cards && multiset(cards)[c] == k)
  {
    var tracker := map c | c in cards :: multiset(cards)[c];
    var counter := map k | k in tracker.Values :: set c | c in tracker && tracker[c] == k;
    assert forall k :: k in counter <==> exists c :: c in cards && multiset(cards)[c] == k by {
      forall k ensures (exists c :: c in cards && multiset(cards)[c] == k) ==> k in counter {
        if c :| c in cards && multiset(cards)[c] == k {
          assert tracker[c] == k;
        }
      }
    }
    CardStats(counter, tracker)
  }

  /** `contains(long)`: some card occurs `key` times. */
  predicate HasCount(s: CardStats, key: int) {
    key in s.cardsByCounts
  }

  /** `contains(long, int)`: at least `count` cards occur `key` times. */
  predicate HasCountTimes(s: CardStats, key: int, count: int) {
    HasCount(s, key) && |s.cardsByCounts[key]| >= count
  }

  /** `containsWithout`: a card other than `card` occurs `key` times. */
  predicate HasCountBesides(s: CardStats, key: int, card: Card) {
    var group := if key in s.cardsByCounts then s.cardsByCounts[key] else {};
    exists c :: c in group && c != card
  }

  /** `contains(Card)`. */
  predicate HasCard(s: CardStats, card: Card) {
    card in s.countPerCard
  }

  /** `count`: occurrences of `card`, 0 when absent. */
  function CountOf(s: CardStats, card: Card): int {
    if card in s.countPerCard then s.countPerCard[card] else 0
  }

  /** `contains(Card, int)`: `card` occurs at least `count` times. */
  predicate HasCardTimes(s: CardStats, card: Card, count: int) {
    HasCard(s, card) && CountOf(s, card) >= count
  }

  /** The cards that occur exactly `k` times. */
  function WithCount(cards: seq<Card>, k: int): set<Card> {
    set c | c in cards && multiset(cards)[c] == k
  }

  /** What each query of `CardStats.from(cards)` says about the cards. */
  lemma StatsQueries(cards: seq<Card>, key: int, count: int, card: Card)
    ensures HasCount(StatsFrom(cards), key) <==> exists c :: c in cards && multiset(cards)[c] == key
    ensures HasCountTimes(StatsFrom(cards), key, count) <==>
      HasCount(StatsFrom(cards), key) && |WithCount(cards, key)| >= count
    ensures HasCountBesides(StatsFrom(cards), key, card) <==>
      exists c :: c != card && c in cards && multiset(cards)[c] == key
    ensures HasCard(StatsFrom(cards), card) <==> card in cards
    ensures CountOf(StatsFrom(cards), card) == multiset(cards)[card]
    ensures HasCardTimes(StatsFrom(cards), card, count) <==> card in cards && multiset(cards)[card] >= count
  {
    var s := StatsFrom(cards);
    if key in s.cardsByCounts {
      assert s.cardsByCounts[key] == WithCount(cards, key);
    }
  }

  /** `Hand`: the cards with their statistics. */
  datatype Hand = Hand(cards: seq<Card>, stats: CardStats)

  /** `Hand.from`. */
  function HandFrom(cards: seq<Card>): Hand {
    Hand(cards, StatsFrom(cards))
  }

  /** The two `Evaluator`s: plain rules and jacks as jokers. */
  datatype Rules = Part1 | Part2

  predicate HasPair(rules: Rules, h: Hand) {
    match rules
    case Part1 => HasCount(h.stats, 2)
    case Part2 => HasCount(h.stats, 2) || HasCard(h.stats, Jack)
  }

  predicate HasPairs(rules: Rules, h: Hand) {
    match rules
    case Part1 => HasCountTimes(h.stats, 2, 2)
    case Part2 => HasCountTimes(h.stats, 2, 2) || HasCardTimes(h.stats, Jack, 2)
  }

  /** `hasJackSupplement`: the jacks and some other card's count together
      reach `thresh`. */
  predicate HasJackSupplement(h: Hand, thresh: int) {
    HasCard(h.stats, Jack) && HasCountBesides(h.stats, thresh - CountOf(h.stats, Jack), Jack)
  }

  predicate HasThree(rules: Rules, h: Hand) {
    match rules
    case Part1 => HasCount(h.stats, 3)
    case Part2 => HasCount(h.stats, 3) || HasJackSupplement(h, 3)
  }

  predicate HasFull(rules: Rules, h: Hand) {
    match rules
    case Part1 => HasThree(Part1, h) && HasPair(Part1, h)
    case Part2 =>
      var jacks := CountOf(h.stats, Jack);
      if jacks == 0 then HasCount(h.stats, 2) && HasCount(h.stats, 3)
      else if jacks >= 4 then true
      else if jacks >= 2 && HasCountBesides(h.stats, 2, Jack) then true
      else HasCount(h.stats, 3) || HasCountTimes(h.stats, 2, 2)
  }

  predicate HasFour(rules: Rules, h: Hand) {
    match rules
    case Part1 => HasCount(h.stats, 4)
    case Part2 => HasCount(h.stats, 4) || HasJackSupplement(h, 4)
  }

  predicate HasFive(rules: Rules, h: Hand) {
    match rules
    case Part1 => HasCount(h.stats, 5)
    case Part2 => HasCount(h.stats, 5) || HasJackSupplement(h, 5)
  }

  /** `Score`, in declaration order. */
  datatype Score = High | Pair | Pairs | ThreeKind | Full | FourKind | FiveKind

  function ScoreOrdinal(s: Score): nat {
    match s
    case High => 0
    case Pair => 1
    case Pairs => 2
    case ThreeKind => 3
    case Full => 4
    case FourKind => 5
    case FiveKind => 6
  }

  /** `Score.applies`: `HIGH` applies to every hand. */
  predicate Applies(rules: Rules, score: Score, h: Hand) {
    match score
    case High => true
    case Pair => HasPair(rules, h)
    case Pairs => HasPairs(rules, h)
    case ThreeKind => HasThree(rules, h)
    case Full => HasFull(rules, h)
    case FourKind => HasFour(rules, h)
    case FiveKind => HasFive(rules, h)
  }

  /** `Score.values()` sorted by descending ordinal. */
  const ByStrength: seq<Score> := [FiveKind, FourKind, Full, ThreeKind, Pairs, Pair, High]

  /** `filter(applies).findFirst()`. */
  function FirstApplying(rules: Rules, h: Hand, scores: seq<Score>): (r: Option<Score>)
    ensures r.None? <==> forall i :: 0 <= i < |scores| ==> !Applies(rules, scores[i], h)
    ensures r.Some? ==> exists i :: 0 <= i < |scores| && scores[i] == r.value && Applies(rules, r.value, h) &&
                                    (forall j :: 0 <= j < i ==> !Applies(rules, scores[j], h))
  {
    if |scores| == 0 then None
    else if Applies(rules, scores[0], h) then Some(scores[0])
    else
      var r := FirstApplying(rules, h, scores[1..]);
      assert r.Some? ==> exists i :: 0 <= i < |scores| && scores[i] == r.value && Applies(rules, r.value, h) &&
                                      (forall j :: 0 <= j < i ==> !Applies(rules, scores[j], h)) by {
        if r.Some? {
          var i :| 0 <= i < |scores[1..]| && scores[1..][i] == r.value && Applies(rules, r.value, h) &&
                   (forall j :: 0 <= j < i ==> !Applies(rules, scores[1..][j], h));
          assert scores[i + 1] == r.value;
          assert forall j :: 0 <= j < i + 1 ==> !Applies(rules, scores[j], h) by {
            forall j | 0 <= j < i + 1 ensures !Applies(rules, scores[j], h) {
              if j > 0 {
                assert scores[j] == scores[1..][j - 1];
              }
            }
          }
        }
      }
      r
  }

  /** `Score.evaluate`: the strongest score that applies. `HIGH` always
      applies, so the `orElseThrow` never throws. */
  function Evaluate(rules: Rules, h: Hand): (r: Result<Score>)
    ensures r.Ok?
    ensures Applies(rules, r.value, h)
    ensures forall s :: ScoreOrdinal(s) > ScoreOrdinal(r.value) ==> !Applies(rules, s, h)
  {
    assert ByStrength[6] == High;
    match FirstApplying(rules, h, ByStrength)
    case None => Err("no score applies")
    case Some(s) =>
      assert forall t :: ByStrength[6 - ScoreOrdinal(t)] == t;
      Ok(s)
  }

  /** The score of a hand as a number. */
  function Strength(rules: Rules, h: Hand): nat {
    ScoreOrdinal(Evaluate(rules, h).value)
  }

  /** With plain rules every score depends on the cards only through how many
      cards occur how often. */
  function Profile(s: CardStats): map<int, int> {
    map k | k in s.cardsByCounts :: |s.cardsByCounts[k]|
  }

  lemma Part1DependsOnProfile(h1: Hand, h2: Hand, score: Score)
    requires Profile(h1.stats) == Profile(h2.stats)
    ensures Applies(Part1, score, h1) <==> Applies(Part1, score, h2)
  {
    assert forall k :: HasCount(h1.stats, k) <==> k in Profile(h1.stats);
    assert forall k :: HasCount(h2.stats, k) <==> k in Profile(h2.stats);
    assert forall k | k in h1.stats.cardsByCounts :: |h1.stats.cardsByCounts[k]| == Profile(h1.stats)[k];
    assert forall k | k in h2.stats.cardsByCounts :: |h2.stats.cardsByCounts[k]| == Profile(h2.stats)[k];
  }

  /** With plain rules a full house is a card occurring three times and a
      card occurring twice. */
  lemma Part1FullHouse(cards: seq<Card>)
    ensures HasFull(Part1, HandFrom(cards)) <==>
      (exists c :: c in cards && multiset(cards)[c] == 3) && (exists d :: d in cards && multiset(cards)[d] == 2)
  {
    StatsQueries(cards, 3, 0, Jack);
    StatsQueries(cards, 2, 0, Jack);
  }

  /** With jokers any hand holding a jack has at least a pair. */
  lemma Part2JackPair(cards: seq<Card>)
    requires Jack in cards
    ensures HasPair(Part2, HandFrom(cards))
  {
    StatsQueries(cards, 2, 0, Jack);
  }

  /** With jokers four or more jacks always make a full house. */
  lemma Part2FourJacksFull(cards: seq<Card>)
    requires multiset(cards)[Jack] >= 4
    ensures HasFull(Part2, HandFrom(cards))
  {
    StatsQueries(cards, 2, 0, Jack);
  }

  /** Without jacks the joker full house is the plain one. */
  lemma Part2FullWithoutJacks(cards: seq<Card>)
    requires Jack !in cards
    ensures HasFull(Part2, HandFrom(cards)) <==> HasFull(Part1, HandFrom(cards))
  {
    StatsQueries(cards, 2, 0, Jack);
  }

  /** Every plain score that applies also applies with jokers. */
  lemma Part2Extends(cards: seq<Card>, score: Score)
    requires Applies(Part1, score, HandFrom(cards))
    ensures Applies(Part2, score, HandFrom(cards))
  {
    var h := HandFrom(cards);
    if score == Full {
      StatsQueries(cards, 3, 0, Jack);
      StatsQueries(cards, 2, 0, Jack);
      var c :| c in cards && multiset(cards)[c] == 3;
      if CountOf(h.stats, Jack) > 0 && CountOf(h.stats, Jack) < 4 {
        assert HasCount(h.stats, 3);
      }
    }
  }

  /** Jokers never lower a hand's score. */
  lemma JokersNeverLower(cards: seq<Card>)
    ensures Strength(Part2, HandFrom(cards)) >= Strength(Part1, HandFrom(cards))
  {
    var h := HandFrom(cards);
    Part2Extends(cards, Evaluate(Part1, h).value);
  }

  /** `Play`: a hand and its bid. */
  datatype Play = Play(hand: Hand, bid: int)

  /** The card comparator reads the first five cards, so every play the
      model ranks holds at least five. */
  type FiveCardPlay = p: Play | |p.hand.cards| >= 5
    witness Play(Hand([Two, Two, Two, Two, Two], CardStats(map[], map[])), 0)

  function OrderOf(rules: Rules): CardOrder {
    match rules
    case Part1 => Std
    case Part2 => AsJoker
  }

  /** `Hand.getCardComp`: the ranks of the first five cards. */
  function CardsKey(order: CardOrder, cards: seq<Card>): seq<int>
    requires |cards| >= 5
  {
    [Rank(order, cards[0]), Rank(order, cards[1]), Rank(order, cards[2]), Rank(order, cards[3]), Rank(order, cards[4])]
  }

  /** The keys of `getComparator`: the score, then the five card ranks. */
  function PlayKey(rules: Rules, p: FiveCardPlay): seq<int> {
    [Strength(rules, p.hand)] + CardsKey(OrderOf(rules), p.hand.cards)
  }

  /** A stronger score wins; equal scores go to the first differing card. */
  lemma PlayKeyOrder(rules: Rules, a: FiveCardPlay, b: FiveCardPlay)
    ensures LexCompare(PlayKey(rules, a), PlayKey(rules, b)) < 0 <==>
      Strength(rules, a.hand) < Strength(rules, b.hand) ||
      (Strength(rules, a.hand) == Strength(rules, b.hand) &&
       LexCompare(CardsKey(OrderOf(rules), a.hand.cards), CardsKey(OrderOf(rules), b.hand.cards)) < 0)
  {
    assert PlayKey(rules, a)[1..] == CardsKey(OrderOf(rules), a.hand.cards);
    assert PlayKey(rules, b)[1..] == CardsKey(OrderOf(rules), b.hand.cards);
  }

  /** Bids multiplied by a counter that starts at the number of plays and
      goes down by one per play, in list order. */
  function Winnings(sorted: seq<FiveCardPlay>): int {
    if |sorted| == 0 then 0 else sorted[0].bid * |sorted| + Winnings(sorted[1..])
  }

  /** `getComparator()` as a key function. */
  function KeyOf(rules: Rules): FiveCardPlay -> seq<int> {
    (p: FiveCardPlay) => PlayKey(rules, p)
  }

  /** The key of the `reversed()` comparator. */
  function Descending(key: FiveCardPlay -> seq<int>): FiveCardPlay -> seq<int> {
    (p: FiveCardPlay) => Negate(key(p))
  }

  /** `doPart`: sort the plays strongest first, then weigh the bids. */
  function DoPart(rules: Rules, plays: seq<FiveCardPlay>): int {
    Winnings(SortBy(plays, Descending(KeyOf(rules))))
  }

  /** The number of plays of `s` whose key is below that of `p`. */
  function CountWeaker(key: FiveCardPlay -> seq<int>, s: seq<FiveCardPlay>, p: FiveCardPlay): int {
    CountWhere(s, q => LexCompare(key(q), key(p)) < 0)
  }

  /** A play's bid times its rank among `s`, the weakest play having rank 1. */
  function RankWeight(key: FiveCardPlay -> seq<int>, s: seq<FiveCardPlay>): FiveCardPlay -> int {
    (p: FiveCardPlay) => p.bid * (1 + CountWeaker(key, s, p))
  }

  /** The puzzle's total: each bid times its rank. */
  function RankedWinnings(rules: Rules, plays: seq<FiveCardPlay>): int {
    SumOf(plays, RankWeight(KeyOf(rules), plays))
  }

  predicate StrictlyDescending(key: FiveCardPlay -> seq<int>, s: seq<FiveCardPlay>) {
    forall i, j :: 0 <= i < j < |s| ==> LexCompare(key(s[j]), key(s[i])) < 0
  }

  /** The first of strictly descending plays is stronger than the rest. */
  lemma CountWeakerFirst(key: FiveCardPlay -> seq<int>, s: seq<FiveCardPlay>)
    requires StrictlyDescending(key, s) && |s| > 0
    ensures CountWeaker(key, s, s[0]) == |s| - 1
  {
    var weaker := (q: FiveCardPlay) => LexCompare(key(q), key(s[0])) < 0;
    CountWhereAll(s[1..], weaker);
  }

  /** A play weaker than the first counts the same weaker plays with or
      without the first. */
  lemma CountWeakerTail(key: FiveCardPlay -> seq<int>, s: seq<FiveCardPlay>, p: FiveCardPlay)
    requires |s| > 0 && LexCompare(key(p), key(s[0])) < 0
    ensures CountWeaker(key, s, p) == CountWeaker(key, s[1..], p)
  {
    LexCompareAntisymmetric(key(p), key(s[0]));
  }

  /** On strictly descending plays the counter is one more than the number
      of weaker plays. */
  lemma {:induction false} WinningsRanked(key: FiveCardPlay -> seq<int>, s: seq<FiveCardPlay>)
    requires StrictlyDescending(key, s)
    ensures Winnings(s) == SumOf(s, RankWeight(key, s))
  {
    if |s| > 0 {
      var rest := s[1..];
      WinningsRanked(key, rest);
      CountWeakerFirst(key, s);
      forall i | 0 <= i < |rest|
        ensures RankWeight(key, s)(rest[i]) == RankWeight(key, rest)(rest[i])
      {
        CountWeakerTail(key, s, rest[i]);
      }
      SumOfCongruent(rest, RankWeight(key, s), RankWeight(key, rest));
    }
  }

  /** Sorting by descending distinct keys leaves the plays strictly
      descending. */
  lemma SortStrictlyDescending(key: FiveCardPlay -> seq<int>, plays: seq<FiveCardPlay>, n: nat)
    requires forall p :: |key(p)| == n
    requires KeysDistinct(plays, key)
    ensures StrictlyDescending(key, SortBy(plays, Descending(key)))
  {
    var sorted := SortBy(plays, Descending(key));
    KeysDistinctPermutation(plays, sorted, key);
    forall i, j | 0 <= i < j < |sorted|
      ensures LexCompare(key(sorted[j]), key(sorted[i])) < 0
    {
      LexCompareNegate(key(sorted[i]), key(sorted[j]));
    }
  }

  /** The number of weaker plays depends only on the multiset of plays. */
  lemma CountWeakerPermutation(key: FiveCardPlay -> seq<int>, a: seq<FiveCardPlay>, b: seq<FiveCardPlay>, p: FiveCardPlay)
    requires multiset(a) == multiset(b)
    ensures CountWeaker(key, a, p) == CountWeaker(key, b, p)
  {
    CountWherePermutation(a, b, q => LexCompare(key(q), key(p)) < 0);
  }

  /** The ranked total depends only on the multiset of plays. */
  lemma RankedPermutation(key: FiveCardPlay -> seq<int>, a: seq<FiveCardPlay>, b: seq<FiveCardPlay>)
    requires multiset(a) == multiset(b)
    ensures SumOf(a, RankWeight(key, a)) == SumOf(b, RankWeight(key, b))
  {
    forall i | 0 <= i < |a|
      ensures RankWeight(key, a)(a[i]) == RankWeight(key, b)(a[i])
    {
      CountWeakerPermutation(key, a, b, a[i]);
    }
    SumOfCongruent(a, RankWeight(key, a), RankWeight(key, b));
    SumOfPermutation(a, b, RankWeight(key, b));
  }

  /** Sorting by descending distinct keys and weighing the bids pays every
      bid times its rank. */
  lemma SortedWinningsRanked(key: FiveCardPlay -> seq<int>, plays: seq<FiveCardPlay>, n: nat)
    requires forall p :: |key(p)| == n
    requires KeysDistinct(plays, key)
    ensures Winnings(SortBy(plays, Descending(key))) == SumOf(plays, RankWeight(key, plays))
  {
    var sorted := SortBy(plays, Descending(key));
    SortStrictlyDescending(key, plays, n);
    WinningsRanked(key, sorted);
    RankedPermutation(key, sorted, plays);
  }

  /** When no two plays tie, `doPart` pays every bid times its rank. */
  lemma DoPartRanks(rules: Rules, plays: seq<FiveCardPlay>)
    requires KeysDistinct(plays, KeyOf(rules))
    ensures DoPart(rules, plays) == RankedWinnings(rules, plays)
  {
    SortedWinningsRanked(KeyOf(rules), plays, 6);
  }
}

=== FILE: cube_game.dfy ===
/** The cube game: each line names a game and the rounds in which handfuls
    of red, green and blue cubes were drawn from a bag. Part 1 sums the ids
    of the games possible with 12 red, 13 green and 14 blue cubes; part 2
    sums the products of the fewest cubes of each colour every game needs. */
module CubeGame {
  import opened Wrappers
  import opened Decimal
  import opened JavaText
  import opened Folds

  const Red := "red"
  const Green := "green"
  const Blue := "blue"

  /** Every colour the game knows, each with no cubes yet. */
  const StartingDraws: map<string, int> := map[Red := 0, Green := 0, Blue := 0]

  /** The bag of part 1. */
  const Limits: map<string, int> := map[Red := 12, Green := 13, Blue := 14]

  /** One round: the number of cubes drawn per colour. */
  datatype Round = Round(draws: map<string, int>)

  /** The rounds form a set in the source; here a sequence, and the lemmas
      below show that only its set of elements matters. */
  datatype Game = Game(id: int, rounds: seq<Round>)

  function GameId(g: Game): int {
    g.id
  }

  // ---------------------------------------------------------------- parsing

  /** `{amount} {colour}`, trimmed, split on whitespace: the colour and the
      amount of one draw. */
  function ParseDraw(draw: string): (r: Result<(string, int)>)
    ensures r.Ok? ==> |JavaSplit(Trim(draw), Whitespace)| >= 2
    ensures |JavaSplit(Trim(draw), Whitespace)| < 2 ==> r.Err?
  {
    var words := JavaSplit(Trim(draw), Whitespace);
    if |words| < 2 then Err("ArrayIndexOutOfBoundsException")
    else
      match ParseInt(Trim(words[0]))
      case None => Err("NumberFormatException")
      case Some(n) => Ok((Trim(words[1]), n))
  }

  /** The draws put into the map one after another. */
  function PutAll(m: map<string, int>, ds: seq<(string, int)>): (r: map<string, int>)
    ensures r.Keys == m.Keys + set i | 0 <= i < |ds| :: ds[i].0
    decreases |ds|
  {
    if |ds| == 0 then m
    else
      var r := PutAll(m[ds[0].0 := ds[0].1], ds[1..]);
      assert (set i | 0 <= i < |ds| :: ds[i].0) == {ds[0].0} + set i | 0 <= i < |ds[1..]| :: ds[1..][i].0 by {
        forall i | 0 <= i < |ds| ensures ds[i].0 in {ds[0].0} + set i | 0 <= i < |ds[1..]| :: ds[1..][i].0 {
          if i > 0 {
            assert ds[i] == ds[1..][i - 1];
          }
        }
      }
      r
  }

  /** A colour no draw names keeps its old amount. */
  lemma {:induction false} PutAllUnnamed(m: map<string, int>, ds: seq<(string, int)>, k: string)
    requires forall j :: 0 <= j < |ds| ==> ds[j].0 != k
    requires k in m
    ensures k in PutAll(m, ds) && PutAll(m, ds)[k] == m[k]
    decreases |ds|
  {
    if |ds| > 0 {
      PutAllUnnamed(m[ds[0].0 := ds[0].1], ds[1..], k);
    }
  }

  /** A colour ends with the amount of the last draw that names it. */
  lemma {:induction false} PutAllLastDraw(m: map<string, int>, ds: seq<(string, int)>, k: string, i: nat)
    requires i < |ds| && ds[i].0 == k
    requires forall j :: i < j < |ds| ==> ds[j].0 != k
    ensures k in PutAll(m, ds) && PutAll(m, ds)[k] == ds[i].1
    decreases |ds|
  {
    var m' := m[ds[0].0 := ds[0].1];
    if i == 0 {
      PutAllUnnamed(m', ds[1..], k);
    } else {
      PutAllLastDraw(m', ds[1..], k, i - 1);
    }
  }

  /** `{draw}, {draw}, ...` on top of zero cubes of every colour. */
  function ProcessRound(round: string): (r: Result<Round>)
    ensures r.Ok? <==> Traverse(JavaSplit(round, {','}), ParseDraw).Ok?
    ensures r.Ok? ==> StartingDraws.Keys <= r.value.draws.Keys
  {
    match Traverse(JavaSplit(round, {','}), ParseDraw)
    case Err(m) => Err(m)
    case Ok(ds) => Ok(Round(PutAll(StartingDraws, ds)))
  }

  /** `Game {id}: {round}; {round}; ...`. The header is the text before the
      first colon, the rounds are the text between the first and the second. */
  function ProcessGame(line: string): (r: Result<Game>)
    ensures |JavaSplit(line, {':'})| < 2 ==> r.Err?
    ensures r.Ok? ==>
      var split := JavaSplit(line, {':'});
      var header := JavaSplit(Trim(split[0]), Whitespace);
      |header| >= 2 && ParseInt(header[1]) == Some(r.value.id) &&
      Traverse(JavaSplit(split[1], {';'}), ProcessRound) == Ok(r.value.rounds)
  {
    var split := JavaSplit(line, {':'});
    if |split| < 1 then Err("ArrayIndexOutOfBoundsException")
    else
      var header := JavaSplit(Trim(split[0]), Whitespace);
      if |header| < 2 then Err("ArrayIndexOutOfBoundsException")
      else
        match ParseInt(header[1])
        case None => Err("NumberFormatException")
        case Some(id) =>
          if |split| < 2 then Err("ArrayIndexOutOfBoundsException")
          else
            match Traverse(JavaSplit(split[1], {';'}), ProcessRound)
            case Err(m) => Err(m)
            case Ok(rounds) => Ok(Game(id, rounds))
  }

  /** No two lines that are games share an id. */
  predicate IdsDistinct(lines: seq<string>) {
    forall i, j :: 0 <= i < j < |lines| && ProcessGame(lines[i]).Ok? && ProcessGame(lines[j]).Ok? ==>
      ProcessGame(lines[i]).value.id != ProcessGame(lines[j]).value.id
  }

  /** The games of the input keyed by id: a repeated id is an error, as
      collecting into a map with a duplicate key is. */
  function GamesFrom(lines: seq<string>): (r: Result<seq<Game>>)
    ensures r.Ok? <==> (forall i :: 0 <= i < |lines| ==> ProcessGame(lines[i]).Ok?) && IdsDistinct(lines)
    ensures r.Ok? ==> |r.value| == |lines| && KeysDistinct(r.value, GameId)
    ensures r.Ok? ==> forall i :: 0 <= i < |lines| ==> ProcessGame(lines[i]) == Ok(r.value[i])
  {
    match Traverse(lines, ProcessGame)
    case Err(m) => Err(m)
    case Ok(games) =>
      if KeysDistinct(games, GameId) then Ok(games) else Err("IllegalStateException")
  }

  // ------------------------------------------------------------- formatting

  /** Text of at least one visible character without any of the input's
      separators. */
  predicate Plain(s: string) {
    forall i :: 0 <= i < |s| ==> !Trimmable(s[i]) && s[i] != ',' && s[i] != ';' && s[i] != ':'
  }

  predicate ValidColour(c: string) {
    |c| > 0 && Plain(c)
  }

  function FormatDraw(d: (string, int)): string {
    " " + ToDecimal(d.1) + " " + d.0
  }

  function FormatRound(ds: seq<(string, int)>): string
    requires |ds| >= 1
  {
    Join(FormatDraws(ds), ',')
  }

  /** A game line as the puzzle input writes it. */
  function FormatGame(id: int, rounds: seq<seq<(string, int)>>): string
    requires |rounds| >= 1 && forall i :: 0 <= i < |rounds| ==> |rounds[i]| >= 1
  {
    "Game " + ToDecimal(id) + ":" + Join(FormatRounds(rounds), ';')
  }

  predicate ValidDraws(ds: seq<(string, int)>) {
    |ds| >= 1 && forall i :: 0 <= i < |ds| ==> ValidColour(ds[i].0)
  }

  lemma DecimalPlain(n: int)
    ensures |ToDecimal(n)| > 0 && Plain(ToDecimal(n))
  {
    var d := ToDecimal(n);
    var digits := NatToDigits(if n < 0 then -n else n);
    forall i | 0 <= i < |d|
      ensures !Trimmable(d[i]) && d[i] != ',' && d[i] != ';' && d[i] != ':'
    {
      if n < 0 && i > 0 {
        assert d[i] == digits[i - 1];
      }
    }
  }

  lemma PlainNoWhitespace(s: string)
    requires Plain(s)
    ensures NoneIn(s, Whitespace)
  {
  }

  lemma {:induction false} JoinNoneIn(pieces: seq<string>, c: char, seps: set<char>)
    requires |pieces| >= 1 && c !in seps
    requires forall i :: 0 <= i < |pieces| ==> NoneIn(pieces[i], seps)
    ensures NoneIn(Join(pieces, c), seps)
  {
    if |pieces| > 1 {
      JoinNoneIn(pieces[1..], c, seps);
    }
  }

  /** Trimming a formatted draw drops its leading space only. */
  lemma DrawTrim(digits: string, colour: string)
    requires |digits| > 0 && Plain(digits) && ValidColour(colour)
    ensures Trim(" " + digits + " " + colour) == digits + " " + colour
  {
    var inner := digits + " " + colour;
    assert " " + digits + " " + colour == " " + inner;
    DrawEnds(digits, colour, inner);
    TrimSpaceVisible(inner);
  }

  lemma DrawEnds(digits: string, colour: string, inner: string)
    requires |digits| > 0 && Plain(digits) && ValidColour(colour) && inner == digits + " " + colour
    ensures |inner| > 0 && !Trimmable(inner[0]) && !Trimmable(inner[|inner| - 1])
  {
    assert inner[0] == digits[0] && inner[|inner| - 1] == colour[|colour| - 1];
  }

  /** The amount and the colour are the two words of a trimmed draw. */
  lemma DrawWords(digits: string, colour: string)
    requires |digits| > 0 && Plain(digits) && ValidColour(colour)
    ensures JavaSplit(digits + " " + colour, Whitespace) == [digits, colour]
  {
    PlainNoWhitespace(digits);
    PlainNoWhitespace(colour);
    assert Join([digits, colour], ' ') == digits + " " + colour;
    JavaSplitJoin([digits, colour], ' ', Whitespace);
  }

  /** A formatted draw parses back to its colour and amount. */
  lemma DrawRoundTrip(d: (string, int))
    requires ValidColour(d.0)
    ensures ParseDraw(FormatDraw(d)) == Ok(d)
  {
    var digits := ToDecimal(d.1);
    DecimalPlain(d.1);
    DrawTrim(digits, d.0);
    DrawWords(digits, d.0);
    TrimVisible(digits);
    TrimVisible(d.0);
    ParseToDecimal(d.1);
  }

  function FormatDraws(ds: seq<(string, int)>): (r: seq<string>)
    ensures |r| == |ds|
  {
    seq(|ds|, i requires 0 <= i < |ds| => FormatDraw(ds[i]))
  }

  /** A formatted draw starts with a space and holds no comma, semicolon
      or colon. */
  lemma DrawText(d: (string, int))
    requires ValidColour(d.0)
    ensures |FormatDraw(d)| > 0 && FormatDraw(d)[0] == ' '
    ensures NoneIn(FormatDraw(d), {','}) && NoneIn(FormatDraw(d), {';', ':'})
  {
    var digits := ToDecimal(d.1);
    DecimalPlain(d.1);
    var s := FormatDraw(d);
    assert s == " " + digits + " " + d.0;
    forall i | 0 <= i < |s|
      ensures s[i] != ',' && s[i] != ';' && s[i] != ':'
    {
      if 0 < i < |digits| + 1 {
        assert s[i] == digits[i - 1];
      } else if i > |digits| + 1 {
        assert s[i] == d.0[i - |digits| - 2];
      }
    }
  }

  /** The formatted draws of a round are the pieces between its commas. */
  lemma RoundPieces(ds: seq<(string, int)>)
    requires ValidDraws(ds)
    ensures JavaSplit(FormatRound(ds), {','}) == FormatDraws(ds)
    ensures forall i :: 0 <= i < |ds| ==> NoneIn(FormatDraws(ds)[i], {';', ':'})
  {
    var pieces := FormatDraws(ds);
    forall i | 0 <= i < |ds|
      ensures NoneIn(pieces[i], {','}) && NoneIn(pieces[i], {';', ':'}) && pieces[i] != ""
    {
      DrawText(ds[i]);
    }
    JavaSplitJoin(pieces, ',', {','});
  }

  /** Every formatted draw parses back. */
  lemma DrawsRoundTrip(ds: seq<(string, int)>)
    requires ValidDraws(ds)
    ensures Traverse(FormatDraws(ds), ParseDraw) == Ok(ds)
  {
    var pieces := FormatDraws(ds);
    forall i | 0 <= i < |ds|
      ensures ParseDraw(pieces[i]) == Ok(ds[i])
    {
      DrawRoundTrip(ds[i]);
    }
    assert Traverse(pieces, ParseDraw).value == ds;
  }

  /** A formatted round parses back to the draws on top of zero cubes. */
  lemma RoundRoundTrip(ds: seq<(string, int)>)
    requires ValidDraws(ds)
    ensures ProcessRound(FormatRound(ds)) == Ok(Round(PutAll(StartingDraws, ds)))
  {
    RoundPieces(ds);
    DrawsRoundTrip(ds);
  }

  /** A formatted round holds no round or header separator. */
  lemma RoundText(ds: seq<(string, int)>)
    requires ValidDraws(ds)
    ensures NoneIn(FormatRound(ds), {';', ':'}) && |FormatRound(ds)| > 0 && FormatRound(ds)[0] == ' '
  {
    RoundPieces(ds);
    JoinNoneIn(FormatDraws(ds), ',', {';', ':'});
  }

  predicate ValidRounds(rounds: seq<seq<(string, int)>>) {
    |rounds| >= 1 && forall i :: 0 <= i < |rounds| ==> |rounds[i]| >= 1 && ValidDraws(rounds[i])
  }

  function FormatRounds(rounds: seq<seq<(string, int)>>): (r: seq<string>)
    requires forall i :: 0 <= i < |rounds| ==> |rounds[i]| >= 1
    ensures |r| == |rounds|
  {
    seq(|rounds|, i requires 0 <= i < |rounds| => FormatRound(rounds[i]))
  }

  function ParsedRounds(rounds: seq<seq<(string, int)>>): seq<Round> {
    seq(|rounds|, i requires 0 <= i < |rounds| => Round(PutAll(StartingDraws, rounds[i])))
  }

  /** The formatted rounds are the pieces between the semicolons. */
  lemma RoundsPieces(rounds: seq<seq<(string, int)>>)
    requires ValidRounds(rounds)
    ensures JavaSplit(Join(FormatRounds(rounds), ';'), {';'}) == FormatRounds(rounds)
    ensures NoneIn(Join(FormatRounds(rounds), ';'), {':'})
    ensures |Join(FormatRounds(rounds), ';')| > 0 && Join(FormatRounds(rounds), ';')[0] == ' '
  {
    var pieces := FormatRounds(rounds);
    forall i | 0 <= i < |rounds|
      ensures NoneIn(pieces[i], {';'}) && NoneIn(pieces[i], {':'}) && pieces[i][0] == ' '
    {
      RoundText(rounds[i]);
    }
    JavaSplitJoin(pieces, ';', {';'});
    JoinNoneIn(pieces, ';', {':'});
  }

  /** The rounds of a formatted game line parse back one by one. */
  lemma RoundsRoundTrip(rounds: seq<seq<(string, int)>>)
    requires ValidRounds(rounds)
    ensures Traverse(FormatRounds(rounds), ProcessRound) == Ok(ParsedRounds(rounds))
  {
    var pieces := FormatRounds(rounds);
    forall i | 0 <= i < |rounds|
      ensures ProcessRound(pieces[i]) == Ok(ParsedRounds(rounds)[i])
    {
      RoundRoundTrip(rounds[i]);
    }
    assert Traverse(pieces, ProcessRound).value == ParsedRounds(rounds);
  }

  /** The header of a formatted game line gives the id back. */
  lemma HeaderRoundTrip(id: int)
    ensures NoneIn("Game " + ToDecimal(id), {':'})
    ensures var words := JavaSplit(Trim("Game " + ToDecimal(id)), Whitespace);
            |words| >= 2 && ParseInt(words[1]) == Some(id)
  {
    var digits := ToDecimal(id);
    DecimalPlain(id);
    var header := "Game " + digits;
    assert header[0] == 'G' && header[|header| - 1] == digits[|digits| - 1];
    TrimVisible(header);
    PlainNoWhitespace(digits);
    assert Join(["Game", digits], ' ') == header;
    JavaSplitJoin(["Game", digits], ' ', Whitespace);
    ParseToDecimal(id);
  }

  /** A formatted game line is processed back into its id and rounds. */
  lemma GameRoundTrip(id: int, rounds: seq<seq<(string, int)>>)
    requires ValidRounds(rounds)
    ensures ProcessGame(FormatGame(id, rounds)) == Ok(Game(id, ParsedRounds(rounds)))
  {
    var header := "Game " + ToDecimal(id);
    var body := Join(FormatRounds(rounds), ';');
    HeaderRoundTrip(id);
    RoundsPieces(rounds);
    JavaSplitTwo(header, body, ':', {':'});
    assert FormatGame(id, rounds) == header + [':'] + body;
    RoundsRoundTrip(rounds);
  }

  /** A line without a colon is not a game. */
  lemma GameNeedsColon(line: string)
    requires NoneIn(line, {':'})
    ensures ProcessGame(line).Err?
  {
  }

  // ------------------------------------------------------------------ part 1

  /** A round that names only the three colours. */
  predicate KnownColours(r: Round) {
    r.draws.Keys <= Limits.Keys
  }

  predicate AllKnown(g: Game) {
    forall i :: 0 <= i < |g.rounds| ==> KnownColours(g.rounds[i])
  }

  /** Every entry of the round within the bag; an unknown colour has no
      limit, and comparing with the missing limit is a NullPointerException. */
  function WithinLimits(r: Round): (res: Result<bool>)
    ensures res.Ok? <==> KnownColours(r)
  {
    if exists k :: k in r.draws && k !in Limits then Err("NullPointerException")
    else Ok(forall k :: k in r.draws ==> r.draws[k] <= Limits[k])
  }

  /** Every round of the game within the bag. */
  function Possible(g: Game): (res: Result<bool>)
    ensures res.Ok? <==> AllKnown(g)
  {
    if exists i :: 0 <= i < |g.rounds| && !KnownColours(g.rounds[i]) then Err("NullPointerException")
    else Ok(forall i :: 0 <= i < |g.rounds| ==> WithinLimits(g.rounds[i]).value)
  }

  /** Part 1: the sum of the ids of the possible games. */
  function Part1(games: seq<Game>): (r: Result<int>)
    ensures r.Ok? <==> forall i :: 0 <= i < |games| ==> AllKnown(games[i])
  {
    if |games| == 0 then Ok(0)
    else
      match Possible(games[0])
      case Err(m) => Err(m)
      case Ok(ok) =>
        match Part1(games[1..])
        case Err(m) => Err(m)
        case Ok(rest) => Ok((if ok then games[0].id else 0) + rest)
  }

  /** The number of cubes of colour `c` in a round; none when not named. */
  function Amount(r: Round, c: string): int {
    if c in r.draws then r.draws[c] else 0
  }

  /** The puzzle's definition: no round shows more than 12 red, 13 green or
      14 blue cubes. */
  predicate Feasible(g: Game) {
    forall i :: 0 <= i < |g.rounds| ==>
      Amount(g.rounds[i], Red) <= 12 && Amount(g.rounds[i], Green) <= 13 && Amount(g.rounds[i], Blue) <= 14
  }

  function PossibleId(g: Game): int {
    if Feasible(g) then g.id else 0
  }

  /** Checking each entry against the bag decides the puzzle's definition. */
  lemma PossibleFeasible(g: Game)
    requires AllKnown(g)
    ensures Possible(g) == Ok(Feasible(g))
  {
    if Feasible(g) {
      forall i | 0 <= i < |g.rounds|
        ensures WithinLimits(g.rounds[i]).value
      {
        var r := g.rounds[i];
        forall k | k in r.draws
          ensures r.draws[k] <= Limits[k]
        {
          assert Amount(r, k) == r.draws[k];
        }
      }
    } else {
      var i :| 0 <= i < |g.rounds| && !(Amount(g.rounds[i], Red) <= 12 && Amount(g.rounds[i], Green) <= 13 && Amount(g.rounds[i], Blue) <= 14);
      assert !WithinLimits(g.rounds[i]).value;
    }
  }

  /** Part 1 is the sum of the ids of the feasible games. */
  lemma {:induction false} Part1Feasible(games: seq<Game>)
    requires forall i :: 0 <= i < |games| ==> AllKnown(games[i])
    ensures Part1(games) == Ok(SumOf(games, PossibleId))
  {
    if |games| > 0 {
      PossibleFeasible(games[0]);
      Part1Feasible(games[1..]);
    }
  }

  /** Part 1 does not depend on the order in which the games are visited. */
  lemma Part1Permutation(a: seq<Game>, b: seq<Game>)
    requires multiset(a) == multiset(b)
    requires forall i :: 0 <= i < |a| ==> AllKnown(a[i])
    ensures Part1(a) == Part1(b)
  {
    forall i | 0 <= i < |b|
      ensures AllKnown(b[i])
    {
      assert b[i] in multiset(a);
    }
    Part1Feasible(a);
    Part1Feasible(b);
    SumOfPermutation(a, b, PossibleId);
  }

  /** The rounds as the set the source collects them into. */
  function RoundSet(rounds: seq<Round>): set<Round> {
    set r | r in rounds
  }

  /** Feasibility depends only on the set of rounds. */
  lemma FeasibleSet(g: Game, h: Game)
    requires RoundSet(g.rounds) == RoundSet(h.rounds)
    ensures Feasible(g) <==> Feasible(h)
  {
    if Feasible(g) {
      forall j | 0 <= j < |h.rounds|
        ensures Amount(h.rounds[j], Red) <= 12 && Amount(h.rounds[j], Green) <= 13 && Amount(h.rounds[j], Blue) <= 14
      {
        assert h.rounds[j] in RoundSet(h.rounds);
        var i :| 0 <= i < |g.rounds| && g.rounds[i] == h.rounds[j];
      }
    }
    if Feasible(h) {
      forall j | 0 <= j < |g.rounds|
        ensures Amount(g.rounds[j], Red) <= 12 && Amount(g.rounds[j], Green) <= 13 && Amount(g.rounds[j], Blue) <= 14
      {
        assert g.rounds[j] in RoundSet(g.rounds);
        var i :| 0 <= i < |h.rounds| && h.rounds[i] == g.rounds[j];
      }
    }
  }

  // ------------------------------------------------------------------ part 2

  /** The most cubes of colour `c` any round shows, starting from none. */
  function Fewest(rounds: seq<Round>, c: string): (n: int)
    ensures n >= 0
    ensures forall i :: 0 <= i < |rounds| ==> Amount(rounds[i], c) <= n
    ensures n == 0 || exists i :: 0 <= i < |rounds| && Amount(rounds[i], c) == n
  {
    if |rounds| == 0 then 0
    else
      var prev := Fewest(rounds[..|rounds| - 1], c);
      assert forall i :: 0 <= i < |rounds| - 1 ==> rounds[..|rounds| - 1][i] == rounds[i];
      if c in rounds[|rounds| - 1].draws && rounds[|rounds| - 1].draws[c] > prev
      then rounds[|rounds| - 1].draws[c] else prev
  }

  /** The power of a game: the product of the fewest cubes of each colour. */
  function Power(g: Game): int {
    Fewest(g.rounds, Red) * Fewest(g.rounds, Green) * Fewest(g.rounds, Blue)
  }

  /** Part 2: the sum of the powers; an unknown colour has no running
      maximum, and taking the maximum with it is a NullPointerException. */
  function Part2(games: seq<Game>): (r: Result<int>)
    ensures r.Ok? <==> forall i :: 0 <= i < |games| ==> AllKnown(games[i])
    ensures r.Ok? ==> r.value == SumOf(games, Power)
    ensures r.Err? ==> r == Err("NullPointerException")
  {
    if |games| == 0 then Ok(0)
    else if !AllKnown(games[0]) then Err("NullPointerException")
    else
      match Part2(games[1..])
      case Err(m) => Err(m)
      case Ok(rest) => Ok(Power(games[0]) + rest)
  }

  /** The fewest cubes depend only on the set of rounds. */
  lemma FewestSet(a: seq<Round>, b: seq<Round>, c: string)
    requires RoundSet(a) == RoundSet(b)
    ensures Fewest(a, c) == Fewest(b, c)
  {
    var fa, fb := Fewest(a, c), Fewest(b, c);
    if fa != 0 {
      var i :| 0 <= i < |a| && Amount(a[i], c) == fa;
      assert a[i] in RoundSet(a);
      var j :| 0 <= j < |b| && b[j] == a[i];
      assert fa <= fb;
    }
    if fb != 0 {
      var j :| 0 <= j < |b| && Amount(b[j], c) == fb;
      assert b[j] in RoundSet(b);
      var i :| 0 <= i < |a| && a[i] == b[j];
      assert fb <= fa;
    }
  }

  /** A colour no round shows makes the power zero. */
  lemma PowerAbsentColour(g: Game, c: string)
    requires c == Red || c == Green || c == Blue
    requires forall i :: 0 <= i < |g.rounds| ==> Amount(g.rounds[i], c) <= 0
    ensures Power(g) == 0
  {
    var r, gr, b := Fewest(g.rounds, Red), Fewest(g.rounds, Green), Fewest(g.rounds, Blue);
    assert Fewest(g.rounds, c) == 0;
    if c == Red {
      assert r == 0;
    } else if c == Green {
      assert gr == 0;
    } else {
      assert b == 0;
    }
    assert Power(g) == r * gr * b;
  }

  /** Part 2 does not depend on the order in which the games are visited. */
  lemma Part2Permutation(a: seq<Game>, b: seq<Game>)
    requires multiset(a) == multiset(b)
    ensures Part2(a) == Part2(b)
  {
    if forall i :: 0 <= i < |a| ==> AllKnown(a[i]) {
      forall i | 0 <= i < |b|
        ensures AllKnown(b[i])
      {
        assert b[i] in multiset(a);
      }
      SumOfPermutation(a, b, Power);
    } else {
      var i :| 0 <= i < |a| && !AllKnown(a[i]);
      assert a[i] in multiset(b);
      var j :| 0 <= j < |b| && b[j] == a[i];
    }
  }
}

=== FILE: decimal.dfy ===
/** Base-10 text: Java's `Integer.parseInt` / `Long.parseLong` and
    `Long.toString`, restricted to ASCII digits and unbounded integers. */
module Decimal {
  import opened Wrappers

  predicate IsDigit(c: char) {
    '0' <= c <= '9'
  }

  predicate AllDigits(s: string) {
    forall i :: 0 <= i < |s| ==> IsDigit(s[i])
  }

  function DigitValue(c: char): (d: nat)
    requires IsDigit(c)
    ensures d < 10
  {
    c as int - '0' as int
  }

  function DigitChar(d: nat): (c: char)
    requires d < 10
    ensures IsDigit(c) && DigitValue(c) == d
  {
    ('0' as int + d) as char
  }

  function Pow10(k: nat): (p: nat)
    ensures p >= 1
  {
    if k == 0 then 1 else 10 * Pow10(k - 1)
  }

  /** The value of a string of digits, most significant first. */
  function ParseDigits(s: string): nat
    requires AllDigits(s)
  {
    if |s| == 0 then 0 else 10 * ParseDigits(s[..|s| - 1]) + DigitValue(s[|s| - 1])
  }

  /** Parsing the concatenation of two digit strings shifts the first by the
      length of the second. */
  lemma {:induction false} ParseDigitsAppend(a: string, b: string)
    requires AllDigits(a) && AllDigits(b)
    ensures AllDigits(a + b)
    ensures ParseDigits(a + b) == ParseDigits(a) * Pow10(|b|) + ParseDigits(b)
  {
    if |b| == 0 {
      assert a + b == a;
    } else {
      var ab := a + b;
      var b' := b[..|b| - 1];
      assert ab[..|ab| - 1] == a + b';
      assert ab[|ab| - 1] == b[|b| - 1];
      ParseDigitsAppend(a, b');
      var d := DigitValue(b[|b| - 1]);
      assert ParseDigits(ab) == 10 * ParseDigits(a + b') + d;
      assert ParseDigits(b) == 10 * ParseDigits(b') + d;
      ShiftStep(ParseDigits(a), ParseDigits(b'), Pow10(|b'|), d);
    }
  }

  lemma ShiftStep(pa: int, pb: int, q: int, d: int)
    ensures 10 * (pa * q + pb) + d == pa * (10 * q) + (10 * pb + d)
  {
  }

  /** The shortest digit string of a natural number (no leading zero). */
  function NatToDigits(n: nat): (s: string)
    ensures |s| >= 1 && AllDigits(s)
    ensures ParseDigits(s) == n
    ensures |s| > 1 ==> s[0] != '0'
  {
    if n < 10 then [DigitChar(n)]
    else
      var prefix := NatToDigits(n / 10);
      var s := prefix + [DigitChar(n % 10)];
      assert s[..|s| - 1] == prefix;
      s
  }

  /** `Long.toString`: a minus sign for negative values. */
  function ToDecimal(n: int): string {
    if n < 0 then "-" + NatToDigits(-n) else NatToDigits(n)
  }

  /** `Long.parseLong` / `Integer.parseInt`: an optional sign followed by at
      least one digit; anything else is a NumberFormatException. */
  function ParseInt(s: string): (r: Option<int>)
    ensures r.Some? <==>
      (|s| >= 1 && AllDigits(s)) ||
      (|s| >= 2 && (s[0] == '-' || s[0] == '+') && AllDigits(s[1..]))
    ensures r.Some? && |s| >= 1 && AllDigits(s) ==> r.value == ParseDigits(s)
    ensures r.Some? && (s[0] == '-' || s[0] == '+') ==>
      r.value == (if s[0] == '-' then -(ParseDigits(s[1..]) as int) else ParseDigits(s[1..]) as int)
  {
    if |s| == 0 then None
    else if s[0] == '-' || s[0] == '+' then
      if |s| >= 2 && AllDigits(s[1..]) then
        var v: int := ParseDigits(s[1..]);
        Some(if s[0] == '-' then -v else v)
      else None
    else if AllDigits(s) then Some(ParseDigits(s))
    else None
  }

  /** Printing then parsing gives the number back. */
  lemma ParseToDecimal(n: int)
    ensures ParseInt(ToDecimal(n)) == Some(n)
  {
    if n < 0 {
      assert ToDecimal(n)[1..] == NatToDigits(-n);
    }
  }

  /** Every digit string parses to its digit value. */
  lemma ParseAllDigits(s: string)
    requires |s| >= 1 && AllDigits(s)
    ensures ParseInt(s) == Some(ParseDigits(s))
  {
  }
}

=== FILE: folds.dfy ===
/** Sums and counts over sequences — a stream's `mapToLong(..).sum()` and
    `filter(..).count()` — and their independence from element order. */
module Folds {

  function SumOf<T>(s: seq<T>, f: T -> int): int {
    if |s| == 0 then 0 else f(s[0]) + SumOf(s[1..], f)
  }

  lemma ConcatAssoc<T>(a: seq<T>, b: seq<T>, c: seq<T>)
    ensures a + (b + c) == (a + b) + c
  {
  }

  /** The number of elements satisfying `p`. */
  function CountWhere<T>(s: seq<T>, p: T -> bool): int {
    SumOf(s, x => if p(x) then 1 else 0)
  }

  /** Two functions that agree on the elements give the same sum. */
  lemma {:induction false} SumOfCongruent<T>(s: seq<T>, f: T -> int, g: T -> int)
    requires forall i :: 0 <= i < |s| ==> f(s[i]) == g(s[i])
    ensures SumOf(s, f) == SumOf(s, g)
  {
    if |s| > 0 {
      SumOfCongruent(s[1..], f, g);
    }
  }

  /** Taking one element out of the middle of the sum. */
  lemma {:induction false} SumOfRemove<T>(s: seq<T>, k: nat, f: T -> int)
    requires k < |s|
    ensures SumOf(s, f) == f(s[k]) + SumOf(s[..k] + s[k + 1..], f)
  {
    if k > 0 {
      SumOfRemove(s[1..], k - 1, f);
      assert s[1..][..k - 1] + s[1..][k..] == (s[..k] + s[k + 1..])[1..];
    } else {
      assert s[..k] + s[k + 1..] == s[1..];
    }
  }

  /** Taking the element at `k` out of a sequence takes one copy of it out
      of the multiset. */
  lemma MultisetRemove<T>(s: seq<T>, k: nat)
    requires k < |s|
    ensures multiset(s[..k] + s[k + 1..]) == multiset(s) - multiset{s[k]}
  {
    assert s == s[..k] + [s[k]] + s[k + 1..];
  }

  /** The first element of `a` sits somewhere in a permutation `b`, and
      the rests are permutations of each other. */
  lemma MatchFirst<T>(a: seq<T>, b: seq<T>) returns (k: nat)
    requires multiset(a) == multiset(b) && |a| > 0
    ensures k < |b| && b[k] == a[0] && multiset(a[1..]) == multiset(b[..k] + b[k + 1..])
  {
    assert a[0] in multiset(b);
    k :| 0 <= k < |b| && b[k] == a[0];
    assert multiset(a[1..]) == multiset(a) - multiset{a[0]} by {
      MultisetRemove(a, 0);
      assert a[..0] + a[1..] == a[1..];
    }
    MultisetRemove(b, k);
  }

  /** A sum depends only on the multiset of the elements. */
  lemma {:induction false} SumOfPermutation<T>(a: seq<T>, b: seq<T>, f: T -> int)
    requires multiset(a) == multiset(b)
    ensures SumOf(a, f) == SumOf(b, f)
    decreases |a|
  {
    if |a| > 0 {
      var k := MatchFirst(a, b);
      SumOfPermutation(a[1..], b[..k] + b[k + 1..], f);
      SumOfRemove(b, k, f);
    } else {
      assert |b| == |multiset(b)| == 0;
    }
  }

  /** A count depends only on the multiset of the elements. */
  lemma CountWherePermutation<T>(a: seq<T>, b: seq<T>, p: T -> bool)
    requires multiset(a) == multiset(b)
    ensures CountWhere(a, p) == CountWhere(b, p)
  {
    SumOfPermutation(a, b, x => if p(x) then 1 else 0);
  }

  /** Every element satisfies `p`: the count is the length. */
  lemma {:induction false} CountWhereAll<T>(s: seq<T>, p: T -> bool)
    requires forall i :: 0 <= i < |s| ==> p(s[i])
    ensures CountWhere(s, p) == |s|
  {
    if |s| > 0 {
      CountWhereAll(s[1..], p);
    }
  }

  /** The same value at two positions occurs at least twice. */
  lemma DuplicateMultiplicity<T>(s: seq<T>, i: nat, j: nat)
    requires i < j < |s| && s[i] == s[j]
    ensures multiset(s)[s[i]] >= 2
  {
    assert s == s[..j] + [s[j]] + s[j + 1..];
    assert s[i] in s[..j];
  }

  /** A value occurring at least twice sits at two positions. */
  lemma {:induction false} MultiplicityDuplicate<T>(s: seq<T>, x: T)
    requires multiset(s)[x] >= 2
    ensures exists i, j :: 0 <= i < j < |s| && s[i] == x && s[j] == x
  {
    assert s == [s[0]] + s[1..];
    if s[0] == x {
      assert x in multiset(s[1..]);
      var k :| 0 <= k < |s[1..]| && s[1..][k] == x;
      assert s[0] == x && s[k + 1] == x;
    } else {
      MultiplicityDuplicate(s[1..], x);
      var i, j :| 0 <= i < j < |s[1..]| && s[1..][i] == x && s[1..][j] == x;
      assert s[i + 1] == x && s[j + 1] == x;
    }
  }

  /** No two positions share a key. */
  predicate KeysDistinct<T, K(==)>(s: seq<T>, key: T -> K) {
    forall i, j :: 0 <= i < j < |s| ==> key(s[i]) != key(s[j])
  }

  /** Distinct keys survive reordering. */
  lemma KeysDistinctPermutation<T, K>(a: seq<T>, b: seq<T>, key: T -> K)
    requires multiset(a) == multiset(b) && KeysDistinct(a, key)
    ensures KeysDistinct(b, key)
  {
    forall i, j | 0 <= i < j < |b|
      ensures key(b[i]) != key(b[j])
    {
      if b[i] == b[j] {
        DuplicateMultiplicity(b, i, j);
        MultiplicityDuplicate(a, b[i]);
      } else {
        assert b[i] in multiset(a) && b[j] in multiset(a);
        var p :| 0 <= p < |a| && a[p] == b[i];
        var q :| 0 <= q < |a| && a[q] == b[j];
        if p < q {
          assert key(a[p]) != key(a[q]);
        } else {
          assert key(a[q]) != key(a[p]);
        }
      }
    }
  }

  /** Some element of a non-empty set: the first one its stream hands out. */
  ghost function Pick<T>(s: set<T>): (x: T)
    requires s != {}
    ensures x in s
  {
    var x :| x in s; x
  }

  /** `stream().mapToInt(f).sum()` over a set, in the set's own order. */
  ghost function SumSet<T>(s: set<T>, f: T -> int): int
    decreases |s|
  {
    if s == {} then 0 else f(Pick(s)) + SumSet(s - {Pick(s)}, f)
  }

  /** Any element may come first: the sum does not depend on the order in
      which the set is streamed. */
  lemma {:induction false} SumSetRemove<T>(s: set<T>, f: T -> int, y: T)
    requires y in s
    ensures SumSet(s, f) == f(y) + SumSet(s - {y}, f)
    decreases |s|
  {
    var x := Pick(s);
    if x != y {
      SumSetRemove(s - {x}, f, y);
      SumSetRemove(s - {y}, f, x);
      assert s - {x} - {y} == s - {y} - {x};
    }
  }
}

=== FILE: grids.dfy ===
/** `grid.TwoDimIntGrid` and `grid.ThreeDimIntGrid`: a map from points to
    values together with a bounding box that starts as the single point 0 and
    widens on every `put`. The Java `get` returns null for an absent key and
    `maybeGet` wraps the same lookup in an Optional; both are `Option` here. */
module Grids {
  import opened Wrappers
  import opened Points

  function Min(a: int, b: int): int { if a <= b then a else b }
  function Max(a: int, b: int): int { if a >= b then a else b }

  // ---------------------------------------------------------------- 2D

  datatype Grid2<V> = Grid2(cells: map<Point2, V>, minX: int, maxX: int, minY: int, maxY: int)

  /** `TwoDimIntGrid.of()`: no cells, all bounds 0. */
  function Empty2<V>(): (g: Grid2<V>)
    ensures |g.cells| == 0
    ensures GridInv2(g)
  {
    Grid2(map[], 0, 0, 0, 0)
  }

  predicate InBox2<V>(g: Grid2<V>, p: Point2) {
    g.minX <= p.x <= g.maxX && g.minY <= p.y <= g.maxY
  }

  /** The box holds the origin and every key, and each bound is 0 or the
      coordinate of some key. */
  predicate GridInv2<V>(g: Grid2<V>) {
    && InBox2(g, Point2(0, 0))
    && (forall p :: p in g.cells ==> InBox2(g, p))
    && (g.minX == 0 || exists p :: p in g.cells && p.x == g.minX)
    && (g.maxX == 0 || exists p :: p in g.cells && p.x == g.maxX)
    && (g.minY == 0 || exists p :: p in g.cells && p.y == g.minY)
    && (g.maxY == 0 || exists p :: p in g.cells && p.y == g.maxY)
  }

  function Get2<V>(g: Grid2<V>, p: Point2): Option<V> {
    if p in g.cells then Some(g.cells[p]) else None
  }

  /** `put(key, value)`: stores the value, returns the previous one, and
      widens the box by exactly as much as the key needs. */
  function Put2<V>(g: Grid2<V>, p: Point2, v: V): (r: (Grid2<V>, Option<V>))
    ensures Get2(r.0, p) == Some(v)
    ensures forall q :: q != p ==> Get2(r.0, q) == Get2(g, q)
    ensures r.1 == Get2(g, p)
    ensures InBox2(r.0, p)
    ensures r.0.minX <= g.minX && g.maxX <= r.0.maxX && r.0.minY <= g.minY && g.maxY <= r.0.maxY
    ensures r.0.minX <= p.x && (r.0.minX == g.minX || r.0.minX == p.x)
    ensures p.x <= r.0.maxX && (r.0.maxX == g.maxX || r.0.maxX == p.x)
    ensures r.0.minY <= p.y && (r.0.minY == g.minY || r.0.minY == p.y)
    ensures p.y <= r.0.maxY && (r.0.maxY == g.maxY || r.0.maxY == p.y)
  {
    (Grid2(g.cells[p := v], Min(p.x, g.minX), Max(p.x, g.maxX), Min(p.y, g.minY), Max(p.y, g.maxY)),
     Get2(g, p))
  }

  lemma PutKeepsInv2<V>(g: Grid2<V>, p: Point2, v: V)
    requires GridInv2(g)
    ensures GridInv2(Put2(g, p, v).0)
  {
    var g' := Put2(g, p, v).0;
    assert p in g'.cells;
    forall q | q in g.cells
      ensures q in g'.cells
    {
      assert Get2(g', q).Some?;
    }
  }

  /** The pair collector: puts every (point, value) pair in order. */
  function PutAll2<V>(g: Grid2<V>, pairs: seq<(Point2, V)>): (r: Grid2<V>)
    ensures GridInv2(g) ==> GridInv2(r)
    ensures g.cells.Keys <= r.cells.Keys
    ensures forall i :: 0 <= i < |pairs| ==> pairs[i].0 in r.cells
    decreases |pairs|
  {
    if |pairs| == 0 then g
    else
      var next := Put2(g, pairs[0].0, pairs[0].1).0;
      assert GridInv2(g) ==> GridInv2(next) by {
        if GridInv2(g) { PutKeepsInv2(g, pairs[0].0, pairs[0].1); }
      }
      var r := PutAll2(next, pairs[1..]);
      assert forall i :: 1 <= i < |pairs| ==> pairs[i] == pairs[1..][i - 1];
      assert g.cells.Keys <= next.cells.Keys by {
        forall q | q in g.cells ensures q in next.cells { assert Get2(next, q).Some?; }
      }
      assert pairs[0].0 in next.cells by { assert Get2(next, pairs[0].0).Some?; }
      r
  }

  /** With distinct keys, every pair's value is what the grid ends up
      holding at its key, and every other key keeps its value. */
  lemma {:induction false} PutAll2Distinct<V>(g: Grid2<V>, pairs: seq<(Point2, V)>)
    requires forall i, j :: 0 <= i < j < |pairs| ==> pairs[i].0 != pairs[j].0
    ensures forall i :: 0 <= i < |pairs| ==> Get2(PutAll2(g, pairs), pairs[i].0) == Some(pairs[i].1)
    ensures forall q :: (forall i :: 0 <= i < |pairs| ==> pairs[i].0 != q) ==>
      Get2(PutAll2(g, pairs), q) == Get2(g, q)
    decreases |pairs|
  {
    if |pairs| > 0 {
      var next := Put2(g, pairs[0].0, pairs[0].1).0;
      var rest := pairs[1..];
      assert forall j :: 0 <= j < |rest| ==> rest[j] == pairs[j + 1];
      PutAll2Distinct(next, rest);
      assert PutAll2(g, pairs) == PutAll2(next, rest);
      forall i | 0 <= i < |pairs|
        ensures Get2(PutAll2(g, pairs), pairs[i].0) == Some(pairs[i].1)
      {
        if i > 0 {
          assert pairs[i] == rest[i - 1];
        } else {
          assert forall j :: 0 <= j < |rest| ==> rest[j].0 != pairs[0].0;
        }
      }
    }
  }

  // The bound getters: on a grid built by puts, each bound is the least or
  // greatest coordinate among the origin and the keys.

  function GetMinX2<V>(g: Grid2<V>): (r: int)
    ensures GridInv2(g) ==> r <= 0 && forall p :: p in g.cells ==> r <= p.x
    ensures GridInv2(g) ==> r == 0 || exists p :: p in g.cells && p.x == r
  {
    g.minX
  }

  function GetMaxX2<V>(g: Grid2<V>): (r: int)
    ensures GridInv2(g) ==> r >= 0 && forall p :: p in g.cells ==> p.x <= r
    ensures GridInv2(g) ==> r == 0 || exists p :: p in g.cells && p.x == r
  {
    g.maxX
  }

  function GetMinY2<V>(g: Grid2<V>): (r: int)
    ensures GridInv2(g) ==> r <= 0 && forall p :: p in g.cells ==> r <= p.y
    ensures GridInv2(g) ==> r == 0 || exists p :: p in g.cells && p.y == r
  {
    g.minY
  }

  function GetMaxY2<V>(g: Grid2<V>): (r: int)
    ensures GridInv2(g) ==> r >= 0 && forall p :: p in g.cells ==> p.y <= r
    ensures GridInv2(g) ==> r == 0 || exists p :: p in g.cells && p.y == r
  {
    g.maxY
  }

  /** A flat grid: every key sits at the depth both z bounds report. */
  function GetMinZ2<V>(g: Grid2<V>): (r: int)
    ensures forall p :: p in g.cells ==> p.GetZ() == r
  {
    0
  }

  function GetMaxZ2<V>(g: Grid2<V>): (r: int)
    ensures forall p :: p in g.cells ==> p.GetZ() == r
  {
    0
  }

  function MinRangePoint2<V>(g: Grid2<V>): (r: Point2)
    ensures r.x == GetMinX2(g) && r.y == GetMinY2(g)
  {
    Point2(g.minX, g.minY)
  }

  function MaxRangePoint2<V>(g: Grid2<V>): (r: Point2)
    ensures r.x == GetMaxX2(g) && r.y == GetMaxY2(g)
  {
    Point2(g.maxX, g.maxY)
  }

  /** Every key lies between the two range points coordinate-wise, and its
      depth (always 0 in two dimensions) between the z bounds. */
  lemma RangePointsBound2<V>(g: Grid2<V>)
    requires GridInv2(g)
    ensures forall p :: p in g.cells ==>
      MinRangePoint2(g).x <= p.x <= MaxRangePoint2(g).x &&
      MinRangePoint2(g).y <= p.y <= MaxRangePoint2(g).y &&
      GetMinZ2(g) <= p.GetZ() <= GetMaxZ2(g)
  {
  }

  /** `put(x, y, value)`: the point (x, y) now holds the value, every other
      cell is kept, the previous value comes back, and the box grows just
      enough to hold (x, y). */
  function PutAt2<V>(g: Grid2<V>, x: int, y: int, v: V): (r: (Grid2<V>, Option<V>))
    ensures r.0.cells.Keys == g.cells.Keys + {Point2(x, y)}
    ensures r.0.cells[Point2(x, y)] == v
    ensures forall q :: q in g.cells && q != Point2(x, y) ==> r.0.cells[q] == g.cells[q]
    ensures r.1.Some? <==> Point2(x, y) in g.cells
    ensures r.1.Some? ==> r.1.value == g.cells[Point2(x, y)]
    ensures r.0.minX <= x <= r.0.maxX && r.0.minY <= y <= r.0.maxY
    ensures r.0.minX <= g.minX && (r.0.minX == g.minX || r.0.minX == x)
    ensures g.maxX <= r.0.maxX && (r.0.maxX == g.maxX || r.0.maxX == x)
    ensures r.0.minY <= g.minY && (r.0.minY == g.minY || r.0.minY == y)
    ensures g.maxY <= r.0.maxY && (r.0.maxY == g.maxY || r.0.maxY == y)
  {
    var r := Put2(g, Point2(x, y), v);
    assert forall q :: q in r.0.cells <==> Get2(r.0, q).Some?;
    r
  }

  /** `get(x, y)` and `maybeGet(x, y)`: a value exactly when (x, y) is a
      key, and then the value stored there. */
  function GetAt2<V>(g: Grid2<V>, x: int, y: int): (r: Option<V>)
    ensures r.Some? <==> Point2(x, y) in g.cells
    ensures r.Some? ==> r.value == g.cells[Point2(x, y)]
  {
    Get2(g, Point2(x, y))
  }

  /** The grid of the source's unit test: three cells, one at a negative x. */
  lemma GridTestTwoDim()
    ensures var g := PutAll2(Empty2(), [(Point2(0, 0), "a"), (Point2(1, 2), "b"), (Point2(-5, 3), "c")]);
      && |g.cells| == 3
      && GetAt2(g, 0, 0) == Some("a") && GetAt2(g, 1, 2) == Some("b") && GetAt2(g, -5, 3) == Some("c")
      && GetAt2(g, 4, 3) == None
      && GetMinX2(g) == -5 && GetMaxX2(g) == 1 && GetMinY2(g) == 0 && GetMaxY2(g) == 3
  {
    var g0: Grid2<string> := Empty2();
    var g1 := Put2(g0, Point2(0, 0), "a").0;
    var g2 := Put2(g1, Point2(1, 2), "b").0;
    var g3 := Put2(g2, Point2(-5, 3), "c").0;
    assert g3.cells == map[Point2(0, 0) := "a", Point2(1, 2) := "b", Point2(-5, 3) := "c"];
  }

  // ---------------------------------------------------------------- 3D

  datatype Grid3<V> = Grid3(cells: map<Point3, V>,
                            minX: int, maxX: int, minY: int, maxY: int, minZ: int, maxZ: int)

  function Empty3<V>(): (g: Grid3<V>)
    ensures |g.cells| == 0
    ensures GridInv3(g)
  {
    Grid3(map[], 0, 0, 0, 0, 0, 0)
  }

  predicate InBox3<V>(g: Grid3<V>, p: Point3) {
    g.minX <= p.x <= g.maxX && g.minY <= p.y <= g.maxY && g.minZ <= p.z <= g.maxZ
  }

  predicate GridInv3<V>(g: Grid3<V>) {
    && InBox3(g, Point3(0, 0, 0))
    && (forall p :: p in g.cells ==> InBox3(g, p))
    && (g.minX == 0 || exists p :: p in g.cells && p.x == g.minX)
    && (g.maxX == 0 || exists p :: p in g.cells && p.x == g.maxX)
    && (g.minY == 0 || exists p :: p in g.cells && p.y == g.minY)
    && (g.maxY == 0 || exists p :: p in g.cells && p.y == g.maxY)
    && (g.minZ == 0 || exists p :: p in g.cells && p.z == g.minZ)
    && (g.maxZ == 0 || exists p :: p in g.cells && p.z == g.maxZ)
  }

  function Get3<V>(g: Grid3<V>, p: Point3): Option<V> {
    if p in g.cells then Some(g.cells[p]) else None
  }

  /** `put(key, value)`: all six bounds widen just enough to hold the key. */
  function Put3<V>(g: Grid3<V>, p: Point3, v: V): (r: (Grid3<V>, Option<V>))
    ensures Get3(r.0, p) == Some(v)
    ensures forall q :: q != p ==> Get3(r.0, q) == Get3(g, q)
    ensures r.1 == Get3(g, p)
    ensures InBox3(r.0, p)
    ensures r.0.minX <= g.minX && g.maxX <= r.0.maxX && r.0.minY <= g.minY && g.maxY <= r.0.maxY
    ensures r.0.minZ <= g.minZ && g.maxZ <= r.0.maxZ
    ensures r.0.minX <= p.x && (r.0.minX == g.minX || r.0.minX == p.x)
    ensures p.x <= r.0.maxX && (r.0.maxX == g.maxX || r.0.maxX == p.x)
    ensures r.0.minY <= p.y && (r.0.minY == g.minY || r.0.minY == p.y)
    ensures p.y <= r.0.maxY && (r.0.maxY == g.maxY || r.0.maxY == p.y)
    ensures r.0.minZ <= p.z && (r.0.minZ == g.minZ || r.0.minZ == p.z)
    ensures p.z <= r.0.maxZ && (r.0.maxZ == g.maxZ || r.0.maxZ == p.z)
  {
    (Grid3(g.cells[p := v], Min(p.x, g.minX), Max(p.x, g.maxX), Min(p.y, g.minY), Max(p.y, g.maxY),
           Min(p.z, g.minZ), Max(p.z, g.maxZ)),
     Get3(g, p))
  }

  lemma PutKeepsInv3<V>(g: Grid3<V>, p: Point3, v: V)
    requires GridInv3(g)
    ensures GridInv3(Put3(g, p, v).0)
  {
    var g' := Put3(g, p, v).0;
    assert p in g'.cells;
    forall q | q in g.cells
      ensures q in g'.cells
    {
      assert Get3(g', q).Some?;
    }
  }

  function GetMinX3<V>(g: Grid3<V>): (r: int)
    ensures GridInv3(g) ==> r <= 0 && forall p :: p in g.cells ==> r <= p.x
    ensures GridInv3(g) ==> r == 0 || exists p :: p in g.cells && p.x == r
  {
    g.minX
  }

  function GetMaxX3<V>(g: Grid3<V>): (r: int)
    ensures GridInv3(g) ==> r >= 0 && forall p :: p in g.cells ==> p.x <= r
    ensures GridInv3(g) ==> r == 0 || exists p :: p in g.cells && p.x == r
  {
    g.maxX
  }

  function GetMinY3<V>(g: Grid3<V>): (r: int)
    ensures GridInv3(g) ==> r <= 0 && forall p :: p in g.cells ==> r <= p.y
    ensures GridInv3(g) ==> r == 0 || exists p :: p in g.cells && p.y == r
  {
    g.minY
  }

  function GetMaxY3<V>(g: Grid3<V>): (r: int)
    ensures GridInv3(g) ==> r >= 0 && forall p :: p in g.cells ==> p.y <= r
    ensures GridInv3(g) ==> r == 0 || exists p :: p in g.cells && p.y == r
  {
    g.maxY
  }

  function GetMinZ3<V>(g: Grid3<V>): (r: int)
    ensures GridInv3(g) ==> r <= 0 && forall p :: p in g.cells ==> r <= p.z
    ensures GridInv3(g) ==> r == 0 || exists p :: p in g.cells && p.z == r
  {
    g.minZ
  }

  /** `getMaxZ` as written: it answers the tracked maximum x, the greatest
      x among the origin and the keys, whatever their depths. */
  function GetMaxZ3<V>(g: Grid3<V>): (r: int)
    ensures GridInv3(g) ==> r >= 0 && forall p :: p in g.cells ==> p.x <= r
    ensures GridInv3(g) ==> r == 0 || exists p :: p in g.cells && p.x == r
  {
    g.maxX
  }

  /** `getMaxZ` as evidently intended: the tracked maximum z. */
  function GetMaxZ3Fixed<V>(g: Grid3<V>): int { g.maxZ }

  function MinRangePoint3<V>(g: Grid3<V>): (r: Point3)
    ensures r.x == GetMinX3(g) && r.y == GetMinY3(g) && r.z == GetMinZ3(g)
  {
    Point3(g.minX, g.minY, g.minZ)
  }

  function MaxRangePoint3<V>(g: Grid3<V>): (r: Point3)
    ensures r.x == GetMaxX3(g) && r.y == GetMaxY3(g) && r.z == GetMaxZ3Fixed(g)
  {
    Point3(g.maxX, g.maxY, g.maxZ)
  }

  lemma RangePointsBound3<V>(g: Grid3<V>)
    requires GridInv3(g)
    ensures forall p :: p in g.cells ==>
      MinRangePoint3(g).x <= p.x <= MaxRangePoint3(g).x &&
      MinRangePoint3(g).y <= p.y <= MaxRangePoint3(g).y &&
      MinRangePoint3(g).z <= p.z <= MaxRangePoint3(g).z
  {
  }

  /** A single cell at depth 5: the as-written `getMaxZ` reports 0, below
      the depth of a stored key. */
  lemma GetMaxZ3MissesDepth()
    ensures var g := Put3(Empty3<int>(), Point3(0, 0, 5), 7).0;
      Point3(0, 0, 5) in g.cells && GetMaxZ3(g) == 0 && GetMaxZ3(g) < Point3(0, 0, 5).z
  {
  }

  /** The corrected `getMaxZ` is the largest depth among the origin and all
      keys. */
  lemma GetMaxZ3FixedIsMaxDepth<V>(g: Grid3<V>)
    requires GridInv3(g)
    ensures forall p :: p in g.cells ==> p.z <= GetMaxZ3Fixed(g)
    ensures GetMaxZ3Fixed(g) == 0 || exists p :: p in g.cells && p.z == GetMaxZ3Fixed(g)
  {
  }

  /** `put(x, y, z, value)`: as in two dimensions, with the depth bounds
      growing as well. */
  function PutAt3<V>(g: Grid3<V>, x: int, y: int, z: int, v: V): (r: (Grid3<V>, Option<V>))
    ensures r.0.cells.Keys == g.cells.Keys + {Point3(x, y, z)}
    ensures r.0.cells[Point3(x, y, z)] == v
    ensures forall q :: q in g.cells && q != Point3(x, y, z) ==> r.0.cells[q] == g.cells[q]
    ensures r.1.Some? <==> Point3(x, y, z) in g.cells
    ensures r.1.Some? ==> r.1.value == g.cells[Point3(x, y, z)]
    ensures r.0.minX <= x <= r.0.maxX && r.0.minY <= y <= r.0.maxY && r.0.minZ <= z <= r.0.maxZ
    ensures r.0.minX <= g.minX && (r.0.minX == g.minX || r.0.minX == x)
    ensures g.maxX <= r.0.maxX && (r.0.maxX == g.maxX || r.0.maxX == x)
    ensures r.0.minY <= g.minY && (r.0.minY == g.minY || r.0.minY == y)
    ensures g.maxY <= r.0.maxY && (r.0.maxY == g.maxY || r.0.maxY == y)
    ensures r.0.minZ <= g.minZ && (r.0.minZ == g.minZ || r.0.minZ == z)
    ensures g.maxZ <= r.0.maxZ && (r.0.maxZ == g.maxZ || r.0.maxZ == z)
  {
    var r := Put3(g, Point3(x, y, z), v);
    assert forall q :: q in r.0.cells <==> Get3(r.0, q).Some?;
    r
  }

  /** `get(x, y, z)` and `maybeGet(x, y, z)`. */
  function GetAt3<V>(g: Grid3<V>, x: int, y: int, z: int): (r: Option<V>)
    ensures r.Some? <==> Point3(x, y, z) in g.cells
    ensures r.Some? ==> r.value == g.cells[Point3(x, y, z)]
  {
    Get3(g, Point3(x, y, z))
  }
}

=== FILE: java_text.dfy ===
/** Java's `String.trim` and `String.split` on single-character separators
    (a literal character or the class `\s`). */
module JavaText {
  import opened Folds

  /** The characters of the regular-expression class `\s`. */
  const Whitespace: set<char> := {' ', '\t', '\n', 11 as char, 12 as char, '\r'}

  /** `trim` drops the characters up to and including the space. */
  predicate Trimmable(c: char) {
    c <= ' '
  }

  function TrimStart(s: string): (r: string)
    ensures |r| <= |s| && r == s[|s| - |r|..]
    ensures |r| > 0 ==> !Trimmable(r[0])
    ensures forall i :: 0 <= i < |s| - |r| ==> Trimmable(s[i])
  {
    if |s| > 0 && Trimmable(s[0]) then
      var r := TrimStart(s[1..]);
      assert r == s[|s| - |r|..];
      assert forall i :: 1 <= i < |s| - |r| ==> s[i] == s[1..][i - 1];
      r
    else s
  }

  function TrimEnd(s: string): (r: string)
    ensures |r| <= |s| && r == s[..|r|]
    ensures |r| > 0 ==> !Trimmable(r[|r| - 1])
    ensures forall i :: |r| <= i < |s| ==> Trimmable(s[i])
  {
    if |s| > 0 && Trimmable(s[|s| - 1]) then TrimEnd(s[..|s| - 1]) else s
  }

  /** `r` is the slice of `s` from `i` with only trimmable characters
      around it. */
  predicate TrimmedAt(s: string, r: string, i: int) {
    0 <= i <= i + |r| <= |s| && r == s[i..i + |r|] &&
    (forall k :: 0 <= k < i ==> Trimmable(s[k])) &&
    (forall k :: i + |r| <= k < |s| ==> Trimmable(s[k]))
  }

  /** `String.trim`: the longest middle slice that neither starts nor ends
      with a control character or space. */
  function Trim(s: string): string {
    TrimEnd(TrimStart(s))
  }

  /** What trimming keeps is a middle slice with only control characters
      and spaces around it, and it neither starts nor ends with one. */
  lemma TrimSound(s: string)
    ensures exists i :: TrimmedAt(s, Trim(s), i)
    ensures var r := Trim(s); |r| > 0 ==> !Trimmable(r[0]) && !Trimmable(r[|r| - 1])
  {
    TrimSlices(s, TrimStart(s), Trim(s));
  }

  /** Trimming the end of a trimmed start leaves a middle slice. */
  lemma TrimSlices(s: string, t: string, r: string)
    requires |t| <= |s| && t == s[|s| - |t|..]
    requires |t| > 0 ==> !Trimmable(t[0])
    requires forall i :: 0 <= i < |s| - |t| ==> Trimmable(s[i])
    requires |r| <= |t| && r == t[..|r|]
    requires |r| > 0 ==> !Trimmable(r[|r| - 1])
    requires forall i :: |r| <= i < |t| ==> Trimmable(t[i])
    ensures TrimmedAt(s, r, |s| - |t|)
    ensures |r| > 0 ==> !Trimmable(r[0]) && !Trimmable(r[|r| - 1])
  {
    var i := |s| - |t|;
    assert r == s[i..i + |r|];
    forall k | i + |r| <= k < |s|
      ensures Trimmable(s[k])
    {
      assert s[k] == t[k - i];
    }
    if |r| > 0 {
      assert r[0] == t[0];
    }
    assert TrimmedAt(s, r, i);
  }

  /** Text that already starts and ends with a visible character is left
      alone. */
  lemma TrimVisible(s: string)
    requires |s| > 0 && !Trimmable(s[0]) && !Trimmable(s[|s| - 1])
    ensures Trim(s) == s
  {
  }

  /** Leading spaces make no difference. */
  lemma TrimLeadingSpace(s: string)
    ensures Trim(" " + s) == Trim(s)
  {
    assert (" " + s)[1..] == s;
  }

  /** One leading space before visible ends is all that trimming drops. */
  lemma TrimSpaceVisible(s: string)
    requires |s| > 0 && !Trimmable(s[0]) && !Trimmable(s[|s| - 1])
    ensures Trim(" " + s) == s
  {
    TrimLeadingSpace(s);
    TrimVisible(s);
  }

  /** Every piece between separators, including empty ones: one more piece
      than there are separators. */
  function SplitAll(s: string, seps: set<char>): (r: seq<string>)
    ensures |r| >= 1
    ensures forall i, j :: 0 <= i < |r| && 0 <= j < |r[i]| ==> r[i][j] !in seps
  {
    if |s| == 0 then [""]
    else
      var rest := SplitAll(s[1..], seps);
      if s[0] in seps then [""] + rest
      else
        var r := [[s[0]] + rest[0]] + rest[1..];
        assert forall i :: 1 <= i < |r| ==> r[i] == rest[i];
        r
  }

  /** `String.join` with a one-character separator. */
  function Join(pieces: seq<string>, c: char): string
    requires |pieces| >= 1
  {
    if |pieces| == 1 then pieces[0] else pieces[0] + [c] + Join(pieces[1..], c)
  }

  predicate NoneIn(s: string, seps: set<char>) {
    forall i :: 0 <= i < |s| ==> s[i] !in seps
  }

  /** Text without a separator is one piece. */
  lemma {:induction false} SplitAllNone(s: string, seps: set<char>)
    requires NoneIn(s, seps)
    ensures SplitAll(s, seps) == [s]
  {
    if |s| > 0 {
      SplitAllNone(s[1..], seps);
      assert [s[0]] + s[1..] == s;
    }
  }

  /** Splitting around one separator splits the two sides. */
  lemma {:induction false} SplitAllConcat(a: string, c: char, b: string, seps: set<char>)
    requires c in seps
    ensures SplitAll(a + [c] + b, seps) == SplitAll(a, seps) + SplitAll(b, seps)
  {
    var rb := SplitAll(b, seps);
    if |a| == 0 {
      assert a + [c] + b == [c] + b;
      SplitAllSep(c, b, seps);
    } else {
      var x := a[0];
      var t := a[1..] + [c] + b;
      var ra := SplitAll(a[1..], seps);
      assert a + [c] + b == [x] + t;
      assert a == [x] + a[1..];
      SplitAllConcat(a[1..], c, b, seps);
      assert SplitAll(t, seps) == ra + rb;
      if x in seps {
        SplitAllSep(x, t, seps);
        SplitAllSep(x, a[1..], seps);
        ConcatAssoc([""], ra, rb);
      } else {
        SplitAllChar(x, t, seps);
        SplitAllChar(x, a[1..], seps);
        ConsPiece(x, ra, rb);
      }
    }
  }

  /** A leading separator starts a new piece. */
  lemma SplitAllSep(x: char, t: string, seps: set<char>)
    requires x in seps
    ensures SplitAll([x] + t, seps) == [""] + SplitAll(t, seps)
  {
    assert ([x] + t)[0] == x && ([x] + t)[1..] == t;
  }

  /** Any other leading character joins the first piece. */
  lemma SplitAllChar(x: char, t: string, seps: set<char>)
    requires x !in seps
    ensures var rest := SplitAll(t, seps); SplitAll([x] + t, seps) == [[x] + rest[0]] + rest[1..]
  {
    assert ([x] + t)[0] == x && ([x] + t)[1..] == t;
  }

  lemma ConsPiece(x: char, ra: seq<string>, rb: seq<string>)
    requires |ra| >= 1
    ensures [[x] + (ra + rb)[0]] + (ra + rb)[1..] == ([[x] + ra[0]] + ra[1..]) + rb
  {
    assert (ra + rb)[0] == ra[0];
    assert (ra + rb)[1..] == ra[1..] + rb;
  }

  /** Joining the pieces of a split gives the text back. */
  lemma {:induction false} JoinSplitAll(s: string, c: char)
    ensures Join(SplitAll(s, {c}), c) == s
  {
    if |s| > 0 {
      JoinSplitAll(s[1..], c);
      var rest := SplitAll(s[1..], {c});
      if s[0] != c {
        var r := SplitAll(s, {c});
        assert r[1..] == rest[1..];
        if |rest| > 1 {
          assert Join(r, c) == [s[0]] + rest[0] + [c] + Join(rest[1..], c);
        }
        assert s == [s[0]] + s[1..];
      }
    }
  }

  /** Splitting joined pieces gives the pieces back when none holds a
      separator. */
  lemma {:induction false} SplitAllJoin(pieces: seq<string>, c: char, seps: set<char>)
    requires |pieces| >= 1 && c in seps
    requires forall i :: 0 <= i < |pieces| ==> NoneIn(pieces[i], seps)
    ensures SplitAll(Join(pieces, c), seps) == pieces
  {
    SplitAllNone(pieces[0], seps);
    if |pieces| > 1 {
      SplitAllJoin(pieces[1..], c, seps);
      SplitAllConcat(pieces[0], c, Join(pieces[1..], c), seps);
      assert pieces == [pieces[0]] + pieces[1..];
    }
  }

  /** Trailing empty pieces removed. */
  function DropTrailingEmpty(pieces: seq<string>): (r: seq<string>)
    ensures |r| <= |pieces| && r == pieces[..|r|]
    ensures |r| > 0 ==> r[|r| - 1] != ""
    ensures forall i :: |r| <= i < |pieces| ==> pieces[i] == ""
  {
    if |pieces| > 0 && pieces[|pieces| - 1] == "" then DropTrailingEmpty(pieces[..|pieces| - 1]) else pieces
  }

  /** `String.split`: text without a separator is returned whole; otherwise
      the pieces between separators with trailing empty pieces removed. */
  function JavaSplit(s: string, seps: set<char>): (r: seq<string>)
    ensures NoneIn(s, seps) ==> r == [s]
    ensures forall i :: 0 <= i < |r| ==> NoneIn(r[i], seps)
    ensures |r| > 0 && r[|r| - 1] == "" ==> s == "" && r == [""]
  {
    if NoneIn(s, seps) then [s] else DropTrailingEmpty(SplitAll(s, seps))
  }

  /** Trailing separators removed. */
  function TrimSeps(s: string, seps: set<char>): (r: string)
    ensures |r| <= |s| && r == s[..|r|]
    ensures |r| > 0 ==> r[|r| - 1] !in seps
    ensures forall i :: |r| <= i < |s| ==> s[i] in seps
  {
    if |s| > 0 && s[|s| - 1] in seps then TrimSeps(s[..|s| - 1], seps) else s
  }

  /** A join ends with its last piece. */
  lemma {:induction false} JoinSnoc(pieces: seq<string>, c: char)
    requires |pieces| >= 2
    ensures Join(pieces, c) == Join(pieces[..|pieces| - 1], c) + [c] + pieces[|pieces| - 1]
  {
    var n := |pieces|;
    var init := pieces[..n - 1];
    if n > 2 {
      JoinSnoc(pieces[1..], c);
      assert pieces[1..][..n - 2] == init[1..];
      assert Join(init, c) == pieces[0] + [c] + Join(init[1..], c);
    }
  }

  /** A join whose last piece is not empty ends with that piece's last
      character. */
  lemma JoinEnd(pieces: seq<string>, c: char)
    requires |pieces| >= 1 && pieces[|pieces| - 1] != ""
    ensures var j := Join(pieces, c); var last := pieces[|pieces| - 1];
      |j| > 0 && j[|j| - 1] == last[|last| - 1]
  {
    if |pieces| >= 2 {
      JoinSnoc(pieces, c);
    }
  }

  /** Dropping trailing empty pieces before a join drops the trailing
      separators after it. */
  lemma {:induction false} TrimSepsJoin(pieces: seq<string>, c: char)
    requires |pieces| >= 1 && forall i :: 0 <= i < |pieces| ==> NoneIn(pieces[i], {c})
    ensures var d := DropTrailingEmpty(pieces);
      TrimSeps(Join(pieces, c), {c}) == if |d| == 0 then "" else Join(d, c)
    decreases |pieces|
  {
    var n := |pieces|;
    var last := pieces[n - 1];
    if last != "" {
      JoinEnd(pieces, c);
      assert last[|last| - 1] !in {c};
    } else if n >= 2 {
      var init := pieces[..n - 1];
      var j := Join(init, c);
      JoinSnoc(pieces, c);
      assert Join(pieces, c) == j + [c];
      assert (j + [c])[..|j|] == j;
      assert DropTrailingEmpty(pieces) == DropTrailingEmpty(init);
      TrimSepsJoin(init, c);
    }
  }

  /** With one separator character, joining what `split` returns gives the
      text without its trailing separators; nothing comes back exactly when
      the text is a non-empty run of separators. */
  lemma JavaSplitJoinBack(s: string, c: char)
    ensures var r := JavaSplit(s, {c});
      && (|r| == 0 <==> s != "" && TrimSeps(s, {c}) == "")
      && (|r| > 0 ==> Join(r, c) == TrimSeps(s, {c}))
  {
    var r := JavaSplit(s, {c});
    if NoneIn(s, {c}) {
      if |s| > 0 {
        assert s[|s| - 1] !in {c};
      }
    } else {
      var pieces := SplitAll(s, {c});
      JoinSplitAll(s, c);
      assert forall i :: 0 <= i < |pieces| ==> NoneIn(pieces[i], {c});
      TrimSepsJoin(pieces, c);
      if |r| > 0 {
        JoinEnd(r, c);
      }
    }
  }

  /** Two pieces joined by a separator split back into the two. */
  lemma JavaSplitTwo(a: string, b: string, c: char, seps: set<char>)
    requires c in seps && NoneIn(a, seps) && NoneIn(b, seps) && b != ""
    ensures JavaSplit(a + [c] + b, seps) == [a, b]
  {
    var pieces := [a, b];
    forall i | 0 <= i < |pieces|
      ensures NoneIn(pieces[i], seps)
    {
      if i == 1 {
        assert pieces[i] == b;
      }
    }
    JavaSplitJoin(pieces, c, seps);
    assert Join(pieces, c) == a + [c] + Join([b], c);
  }

  /** `split` undoes a join whose pieces hold no separator and whose last
      piece is not empty. */
  lemma JavaSplitJoin(pieces: seq<string>, c: char, seps: set<char>)
    requires |pieces| >= 1 && c in seps
    requires forall i :: 0 <= i < |pieces| ==> NoneIn(pieces[i], seps)
    requires |pieces| == 1 || pieces[|pieces| - 1] != ""
    ensures JavaSplit(Join(pieces, c), seps) == pieces
  {
    SplitAllJoin(pieces, c, seps);
    if |pieces| > 1 {
      var s := Join(pieces, c);
      assert s == pieces[0] + [c] + Join(pieces[1..], c);
      assert s[|pieces[0]|] == c;
    }
  }
}

=== FILE: network.dfy ===
/** The desert network (`Day08`): nodes with a left and a right successor,
    a list of L/R directions repeated forever, and walks that follow it —
    one walk from AAA to ZZZ, and simultaneous walks from every node ending
    in A until all of them stand on nodes ending in Z. */
module Network {
  import opened Wrappers
  import opened Folds

  /** `Node`: a key and its left and right successors. */
  datatype Node = Node(key: string, left: string, right: string)

  /** `State`: the node a walk stands on and the steps it has taken. */
  datatype State = State(key: string, count: int)

  predicate EndsWith(s: string, suffix: string) {
    |suffix| <= |s| && s[|s| - |suffix|..] == suffix
  }

  /** `Map.get`: the node of a key, or null. */
  function Get(nodes: map<string, Node>, key: string): Option<Node> {
    if key in nodes then Some(nodes[key]) else None
  }

  // ----------------------------------------------------------------- parsing

  /** A character of the class `[\d\w]`: letter, digit or underscore. */
  predicate IsWordChar(c: char) {
    'a' <= c <= 'z' || 'A' <= c <= 'Z' || '0' <= c <= '9' || c == '_'
  }

  /** Three word characters. */
  predicate IsToken(s: string) {
    |s| == 3 && IsWordChar(s[0]) && IsWordChar(s[1]) && IsWordChar(s[2])
  }

  /** A node as the input writes it: `KKK = (LLL, RRR)`. */
  function FormatNode(n: Node): string {
    n.key + " = (" + n.left + ", " + n.right + ")"
  }

  /** `parseNode`: the whole line must match `KKK = (LLL, RRR)` with three
      word characters per key; any other line is an IllegalStateException. */
  function ParseNode(line: string): (r: Result<Node>)
    ensures r.Ok? ==> IsToken(r.value.key) && IsToken(r.value.left) && IsToken(r.value.right)
    ensures r.Ok? ==> FormatNode(r.value) == line
  {
    if |line| == 16 && IsToken(line[0..3]) && line[3..7] == " = (" && IsToken(line[7..10]) &&
       line[10..12] == ", " && IsToken(line[12..15]) && line[15] == ')'
    then
      var n := Node(line[0..3], line[7..10], line[12..15]);
      assert FormatNode(n) == line;
      Ok(n)
    else Err("IllegalStateException")
  }

  /** A node with three-character keys survives printing and parsing. */
  lemma ParseFormatNode(n: Node)
    requires IsToken(n.key) && IsToken(n.left) && IsToken(n.right)
    ensures ParseNode(FormatNode(n)) == Ok(n)
  {
    var line := FormatNode(n);
    assert line[0..3] == n.key && line[3..7] == " = (" && line[7..10] == n.left;
    assert line[10..12] == ", " && line[12..15] == n.right && line[15] == ')';
  }

  /** Every line is a node. */
  predicate AllNodes(lines: seq<string>) {
    forall i :: 0 <= i < |lines| ==> ParseNode(lines[i]).Ok?
  }

  /** No two lines name the same node. */
  predicate DistinctKeys(lines: seq<string>) {
    forall i, j :: 0 <= i < j < |lines| && ParseNode(lines[i]).Ok? && ParseNode(lines[j]).Ok? ==>
      ParseNode(lines[i]).value.key != ParseNode(lines[j]).value.key
  }

  /** The keys the lines name. */
  function KeysOf(lines: seq<string>): set<string> {
    set i | 0 <= i < |lines| && ParseNode(lines[i]).Ok? :: ParseNode(lines[i]).value.key
  }

  function NodeKey(n: Node): string {
    n.key
  }

  /** The nodes put into a map one after another under their keys. */
  function NodeMap(ns: seq<Node>): (m: map<string, Node>)
    ensures m.Keys == set i | 0 <= i < |ns| :: ns[i].key
    ensures forall k :: k in m ==> m[k].key == k
    ensures KeysDistinct(ns, NodeKey) ==> forall i :: 0 <= i < |ns| ==> m[ns[i].key] == ns[i]
  {
    if |ns| == 0 then map[]
    else
      var init := ns[..|ns| - 1];
      var last := ns[|ns| - 1];
      var m := NodeMap(init)[last.key := last];
      assert forall i :: 0 <= i < |init| ==> init[i] == ns[i];
      assert KeysDistinct(ns, NodeKey) ==> KeysDistinct(init, NodeKey);
      m
  }

  /** The node map keyed by node key: every line must parse, and a repeated
      key is an error, as collecting into a map with a duplicate key is. */
  function NodesFrom(lines: seq<string>): (r: Result<map<string, Node>>)
    ensures r.Ok? <==> AllNodes(lines) && DistinctKeys(lines)
    ensures r.Ok? ==> r.value.Keys == KeysOf(lines)
    ensures r.Ok? ==> forall k :: k in r.value ==> r.value[k].key == k
    ensures r.Ok? ==> forall i :: 0 <= i < |lines| ==>
              var n := ParseNode(lines[i]).value; n.key in r.value && r.value[n.key] == n
  {
    match Traverse(lines, ParseNode)
    case Err(m) => Err(m)
    case Ok(ns) =>
      NodesOfLines(lines, ns);
      if KeysDistinct(ns, NodeKey) then Ok(NodeMap(ns)) else Err("IllegalStateException")
  }

  /** The parsed nodes carry exactly the lines' keys. */
  lemma NodesOfLines(lines: seq<string>, ns: seq<Node>)
    requires |ns| == |lines| && forall i :: 0 <= i < |lines| ==> ParseNode(lines[i]) == Ok(ns[i])
    ensures KeysDistinct(ns, NodeKey) <==> DistinctKeys(lines)
    ensures (set i | 0 <= i < |ns| :: ns[i].key) == KeysOf(lines)
  {
  }

  // ------------------------------------------------------------------ steps

  /** `nextKey`: "L" takes the left successor and "R" the right one; any
      other direction is an IllegalArgumentException, and a missing node a
      NullPointerException. */
  function NextKey(node: Option<Node>, dir: string): (r: Result<string>)
    ensures r.Ok? <==> node.Some? && (dir == "L" || dir == "R")
    ensures r.Ok? && dir == "L" ==> r.value == node.value.left
    ensures r.Ok? && dir == "R" ==> r.value == node.value.right
    ensures dir != "L" && dir != "R" ==> r == Err("IllegalArgumentException")
  {
    if dir == "L" then
      if node.None? then Err("NullPointerException") else Ok(node.value.left)
    else if dir == "R" then
      if node.None? then Err("NullPointerException") else Ok(node.value.right)
    else Err("IllegalArgumentException")
  }

  /** `step`: one more step, onto the successor the direction picks. */
  function Step(nodes: map<string, Node>, s: State, dir: string): (r: Result<State>)
    ensures r.Ok? <==> NextKey(Get(nodes, s.key), dir).Ok?
    ensures r.Ok? ==> r.value == State(NextKey(Get(nodes, s.key), dir).value, s.count + 1)
  {
    match NextKey(Get(nodes, s.key), dir)
    case Err(m) => Err(m)
    case Ok(k) => Ok(State(k, s.count + 1))
  }

  // -------------------------------------------------------------- directions

  /** `InfiniteIterator`: the path and how many of its directions the
      current pass has handed out. */
  datatype Directions = Directions(path: string, pos: nat)

  predicate Valid(it: Directions) {
    |it.path| > 0 && it.pos <= |it.path|
  }

  function Fresh(path: string): Directions {
    Directions(path, 0)
  }

  /** `next`: a used-up pass starts over; then the next direction, as a
      one-character string. There is always a next one. */
  function Next(it: Directions): (r: (string, Directions))
    requires Valid(it)
    ensures Valid(r.1) && r.1.path == it.path && r.1.pos >= 1
  {
    var p := if it.pos == |it.path| then 0 else it.pos;
    ([it.path[p]], Directions(it.path, p + 1))
  }

  /** The iterator after `k` directions. */
  function Advance(it: Directions, k: nat): (r: Directions)
    requires Valid(it)
    ensures Valid(r) && r.path == it.path
    decreases k
  {
    if k == 0 then it else Advance(Next(it).1, k - 1)
  }

  /** How many directions of the current pass are used after `k`. */
  function PosAfter(k: nat, p: nat): nat
    requires p > 0
  {
    if k == 0 then 0 else (k - 1) % p + 1
  }

  /** After `k` directions the iterator hands out character `k mod p` and
      moves on to the position for `k + 1`. */
  lemma NextPos(k: nat, p: nat)
    requires p > 0
    ensures PosAfter(k, p) <= p
    ensures (if PosAfter(k, p) == p then 0 else PosAfter(k, p)) == k % p
    ensures (if PosAfter(k, p) == p then 0 else PosAfter(k, p)) + 1 == PosAfter(k + 1, p)
  {
    if k > 0 {
      ModSuccessor(k - 1, p);
    }
  }

  /** The `k`-th direction (from 0) is character `k mod |path|` of the
      path. */
  lemma {:induction false} NextNth(path: string, k: nat)
    requires |path| > 0
    ensures Advance(Fresh(path), k).pos == PosAfter(k, |path|)
    ensures Next(Advance(Fresh(path), k)).0 == [path[k % |path|]]
  {
    NextPos(k, |path|);
    if k > 0 {
      NextNth(path, k - 1);
      AdvanceLast(Fresh(path), k - 1);
      NextPos(k - 1, |path|);
    }
  }

  /** Counting on by one wraps around to 0 at the modulus. */
  lemma ModSuccessor(m: nat, p: nat)
    requires p > 0
    ensures m % p + 1 == p ==> (m + 1) % p == 0
    ensures m % p + 1 < p ==> (m + 1) % p == m % p + 1
  {
    var q, r := m / p, m % p;
    assert m == q * p + r;
    if r + 1 == p {
      assert m + 1 == (q + 1) * p;
      ModUnique(m + 1, p, q + 1, 0);
    } else {
      ModUnique(m + 1, p, q, r + 1);
    }
  }

  /** The remainder is the one `b` with `a = q * p + b` and `0 <= b < p`. */
  lemma ModUnique(a: nat, p: nat, q: int, b: int)
    requires p > 0 && 0 <= b < p && a == q * p + b
    ensures a % p == b
  {
    var q', b' := a / p, a % p;
    assert a == q' * p + b';
    assert (q - q') * p == b' - b;
    MulLower(q - q', p);
    MulLower(q' - q, p);
    assert (q' - q) * p == -((q - q') * p);
  }

  lemma {:induction false} MulLower(x: int, p: nat)
    ensures x >= 1 ==> x * p >= p
    decreases if x < 0 then 0 else x
  {
    if x > 1 {
      MulLower(x - 1, p);
      assert x * p == (x - 1) * p + p;
    }
  }

  lemma {:induction false} AdvanceLast(it: Directions, k: nat)
    requires Valid(it)
    ensures Advance(it, k + 1) == Next(Advance(it, k)).1
    decreases k
  {
    if k > 0 {
      AdvanceLast(Next(it).1, k - 1);
    }
  }

  // ------------------------------------------------------------- reference

  /** The key reached from `start` after `n` steps, direction `m` being
      character `m mod |path|`; the first failing step fails it. */
  function KeyAfter(nodes: map<string, Node>, path: string, start: string, n: nat): Result<string>
    requires |path| > 0
  {
    if n == 0 then Ok(start)
    else
      match KeyAfter(nodes, path, start, n - 1)
      case Err(m) => Err(m)
      case Ok(k) => NextKey(Get(nodes, k), [path[(n - 1) % |path|]])
  }

  /** Stepping with the iterator follows the reference walk. */
  lemma StepFollows(nodes: map<string, Node>, path: string, start: string, s: State)
    requires |path| > 0 && s.count >= 0
    requires KeyAfter(nodes, path, start, s.count) == Ok(s.key)
    ensures var dir := Next(Advance(Fresh(path), s.count)).0;
            var r := Step(nodes, s, dir);
            (r.Ok? <==> KeyAfter(nodes, path, start, s.count + 1).Ok?) &&
            (r.Ok? ==> r.value == State(KeyAfter(nodes, path, start, s.count + 1).value, s.count + 1))
  {
    NextNth(path, s.count);
  }

  // ------------------------------------------------------------------ part 1

  /** The part 1 loop: step, then stop once on "ZZZ". The source loops
      forever when it never gets there; here the walk gives up after `fuel`
      steps. */
  function Walk1(nodes: map<string, Node>, s: State, it: Directions, fuel: nat): (r: Result<int>)
    requires Valid(it)
    ensures r.Ok? ==> s.count < r.value <= s.count + fuel
    decreases fuel
  {
    if fuel == 0 then Err("no end within the fuel")
    else
      var (dir, it') := Next(it);
      match Step(nodes, s, dir)
      case Err(m) => Err(m)
      case Ok(s') => if s'.key == "ZZZ" then Ok(s'.count) else Walk1(nodes, s', it', fuel - 1)
  }

  /** Part 1: the number of steps from AAA to the first arrival at ZZZ.
      Splitting an empty path into characters gives the one direction "",
      which `nextKey` rejects on the first step. */
  function Part1(nodes: map<string, Node>, path: string, fuel: nat): (r: Result<int>)
    ensures |path| == 0 ==> r.Err?
    ensures r.Ok? ==> 1 <= r.value <= fuel
  {
    if |path| == 0 then Err("IllegalArgumentException")
    else Walk1(nodes, State("AAA", 0), Fresh(path), fuel)
  }

  /** The reference walk from `start` stands on a node at every step up to
      `n`, and on "ZZZ" at none of the steps after `from` and before `n`. */
  predicate ClearUntil(nodes: map<string, Node>, path: string, start: string, from: nat, n: nat)
    requires |path| > 0
  {
    forall m :: from < m < n ==> KeyAfter(nodes, path, start, m).Ok? && KeyAfter(nodes, path, start, m).value != "ZZZ"
  }

  /** A loop result agrees with a reference answer: both found the same
      lap, or neither found one. */
  predicate Agrees(w: Result<int>, f: Option<nat>) {
    (w.Ok? <==> f.Some?) && (w.Ok? ==> w.value == f.value)
  }

  /** The reference for the part 1 loop, on the reference walk alone: the
      first step after `from`, and at most `fuel` steps later, that
      arrives at ZZZ; None when the walk leaves the network first or the
      fuel runs out. */
  ghost function FirstZZZ(nodes: map<string, Node>, path: string, from: nat, fuel: nat): Option<nat>
    requires |path| > 0
    decreases fuel
  {
    if fuel == 0 || KeyAfter(nodes, path, "AAA", from + 1).Err? then None
    else if KeyAfter(nodes, path, "AAA", from + 1).value == "ZZZ" then Some(from + 1)
    else FirstZZZ(nodes, path, from + 1, fuel - 1)
  }

  /** The part 1 loop, run from a state on the reference walk, answers
      exactly what the reference answers. */
  lemma Walk1Reference(nodes: map<string, Node>, path: string, s: State, fuel: nat)
    requires |path| > 0 && s.count >= 0
    requires KeyAfter(nodes, path, "AAA", s.count) == Ok(s.key)
    ensures Agrees(Walk1(nodes, s, Advance(Fresh(path), s.count), fuel), FirstZZZ(nodes, path, s.count, fuel))
    decreases fuel
  {
    if fuel > 0 {
      var s', more := StepOne(nodes, path, s, fuel);
      if more {
        Walk1Reference(nodes, path, s', fuel - 1);
      }
    }
  }

  /** One round of the part 1 loop against the reference: either both
      settle now, or both go on from the next step. */
  lemma StepOne(nodes: map<string, Node>, path: string, s: State, fuel: nat) returns (s': State, more: bool)
    requires |path| > 0 && s.count >= 0 && fuel > 0
    requires KeyAfter(nodes, path, "AAA", s.count) == Ok(s.key)
    ensures !more ==> Agrees(Walk1(nodes, s, Advance(Fresh(path), s.count), fuel),
                             FirstZZZ(nodes, path, s.count, fuel))
    ensures more ==> s'.count == s.count + 1 && KeyAfter(nodes, path, "AAA", s'.count) == Ok(s'.key)
    ensures more ==> Walk1(nodes, s, Advance(Fresh(path), s.count), fuel) ==
                     Walk1(nodes, s', Advance(Fresh(path), s'.count), fuel - 1)
    ensures more ==> FirstZZZ(nodes, path, s.count, fuel) == FirstZZZ(nodes, path, s'.count, fuel - 1)
  {
    var dir := Next(Advance(Fresh(path), s.count)).0;
    var r := Step(nodes, s, dir);
    if r.Ok? && r.value.key != "ZZZ" {
      s', more := r.value, true;
      StepOneMore(nodes, path, s, fuel);
    } else {
      s', more := s, false;
      StepOneStop(nodes, path, s, fuel);
    }
  }

  /** The step fails or arrives at ZZZ: the loop and the reference settle
      on the same answer. */
  lemma StepOneStop(nodes: map<string, Node>, path: string, s: State, fuel: nat)
    requires |path| > 0 && s.count >= 0 && fuel > 0
    requires KeyAfter(nodes, path, "AAA", s.count) == Ok(s.key)
    requires var r := Step(nodes, s, Next(Advance(Fresh(path), s.count)).0);
             r.Err? || r.value.key == "ZZZ"
    ensures Agrees(Walk1(nodes, s, Advance(Fresh(path), s.count), fuel), FirstZZZ(nodes, path, s.count, fuel))
  {
    StepFollows(nodes, path, "AAA", s);
  }

  /** The step lands elsewhere: both go on from the next step. */
  lemma StepOneMore(nodes: map<string, Node>, path: string, s: State, fuel: nat)
    requires |path| > 0 && s.count >= 0 && fuel > 0
    requires KeyAfter(nodes, path, "AAA", s.count) == Ok(s.key)
    requires var r := Step(nodes, s, Next(Advance(Fresh(path), s.count)).0);
             r.Ok? && r.value.key != "ZZZ"
    ensures var s' := Step(nodes, s, Next(Advance(Fresh(path), s.count)).0).value;
            && s'.count == s.count + 1 && KeyAfter(nodes, path, "AAA", s'.count) == Ok(s'.key)
            && Walk1(nodes, s, Advance(Fresh(path), s.count), fuel) == Walk1(nodes, s', Advance(Fresh(path), s'.count), fuel - 1)
            && FirstZZZ(nodes, path, s.count, fuel) == FirstZZZ(nodes, path, s'.count, fuel - 1)
  {
    StepFollows(nodes, path, "AAA", s);
    AdvanceLast(Fresh(path), s.count);
  }

  /** What the reference finds is the first arrival at ZZZ. */
  lemma {:induction false} FirstZZZSound(nodes: map<string, Node>, path: string, from: nat, fuel: nat)
    requires |path| > 0 && FirstZZZ(nodes, path, from, fuel).Some?
    ensures var c := FirstZZZ(nodes, path, from, fuel).value;
            from < c <= from + fuel && KeyAfter(nodes, path, "AAA", c) == Ok("ZZZ") &&
            ClearUntil(nodes, path, "AAA", from, c)
    decreases fuel
  {
    if KeyAfter(nodes, path, "AAA", from + 1).value != "ZZZ" {
      FirstZZZSound(nodes, path, from + 1, fuel - 1);
    }
  }

  /** The reference finds the first arrival at ZZZ when it comes within
      the fuel. */
  lemma {:induction false} FirstZZZComplete(nodes: map<string, Node>, path: string, from: nat, fuel: nat, n: nat)
    requires |path| > 0 && from < n <= from + fuel
    requires KeyAfter(nodes, path, "AAA", n) == Ok("ZZZ") && ClearUntil(nodes, path, "AAA", from, n)
    ensures FirstZZZ(nodes, path, from, fuel) == Some(n)
    decreases fuel
  {
    if from + 1 < n {
      assert KeyAfter(nodes, path, "AAA", from + 1).Ok?;
      FirstZZZComplete(nodes, path, from + 1, fuel - 1, n);
    }
  }

  /** Part 1 is the number of steps of the first arrival at ZZZ, at least
      one: the start is never checked. */
  lemma Part1Sound(nodes: map<string, Node>, path: string, fuel: nat)
    requires Part1(nodes, path, fuel).Ok?
    ensures |path| > 0
    ensures var c := Part1(nodes, path, fuel).value;
            1 <= c <= fuel && KeyAfter(nodes, path, "AAA", c) == Ok("ZZZ") && ClearUntil(nodes, path, "AAA", 0, c)
  {
    Walk1Reference(nodes, path, State("AAA", 0), fuel);
    FirstZZZSound(nodes, path, 0, fuel);
  }

  /** Part 1 finds the first arrival at ZZZ when it comes within the fuel. */
  lemma Part1Complete(nodes: map<string, Node>, path: string, fuel: nat, n: nat)
    requires |path| > 0 && 1 <= n <= fuel
    requires KeyAfter(nodes, path, "AAA", n) == Ok("ZZZ") && ClearUntil(nodes, path, "AAA", 0, n)
    ensures Part1(nodes, path, fuel) == Ok(n)
  {
    FirstZZZComplete(nodes, path, 0, fuel, n);
    Walk1Reference(nodes, path, State("AAA", 0), fuel);
  }

  // ------------------------------------------------------------------ part 2

  function StepWith(nodes: map<string, Node>, dir: string): State -> Result<State> {
    s => Step(nodes, s, dir)
  }

  /** Every state has taken `laps` steps. */
  predicate AllCounts(states: seq<State>, laps: int) {
    forall i :: 0 <= i < |states| ==> states[i].count == laps
  }

  predicate AllOnZ(states: seq<State>) {
    forall i :: 0 <= i < |states| ==> EndsWith(states[i].key, "Z")
  }

  /** One lap steps every state once, so all counts grow together. */
  lemma LapCounts(nodes: map<string, Node>, dir: string, states: seq<State>, laps: int)
    requires AllCounts(states, laps)
    requires Traverse(states, StepWith(nodes, dir)).Ok?
    ensures AllCounts(Traverse(states, StepWith(nodes, dir)).value, laps + 1)
  {
  }

  /** One lap: every state steps with the next direction. */
  function Lap(nodes: map<string, Node>, states: seq<State>, it: Directions): Result<seq<State>>
    requires Valid(it)
  {
    Traverse(states, StepWith(nodes, Next(it).0))
  }

  /** The part 2 loop: one lap steps every state with the same direction;
      it stops after the first lap that leaves every state on a key ending
      in Z, and answers the count of the first state. The source loops
      forever when that lap never comes; here the walk gives up after `fuel`
      laps. */
  function Walk2(nodes: map<string, Node>, states: seq<State>, it: Directions, fuel: nat): Result<int>
    requires Valid(it)
    decreases fuel
  {
    if fuel == 0 then Err("no end within the fuel")
    else
      match Lap(nodes, states, it)
      case Err(m) => Err(m)
      case Ok(states') =>
        if AllOnZ(states') then
          if |states'| == 0 then Err("NoSuchElementException") else Ok(states'[0].count)
        else Walk2(nodes, states', Next(it).1, fuel - 1)
  }

  /** The keys the simultaneous walks start from: every key ending in A,
      each once, in the (unspecified) iteration order of the source's
      hash set. */
  predicate StartKeys(nodes: map<string, Node>, starts: seq<string>) {
    (forall i, j :: 0 <= i < j < |starts| ==> starts[i] != starts[j]) &&
    (forall k :: k in starts ==> k in nodes && EndsWith(k, "A")) &&
    (forall k :: k in nodes && EndsWith(k, "A") ==> k in starts)
  }

  function StartStates(starts: seq<string>): (r: seq<State>)
    ensures |r| == |starts|
  {
    seq(|starts|, i requires 0 <= i < |starts| => State(starts[i], 0))
  }

  /** Part 2: the number of laps until every walk stands on a key ending
      in Z at the same time. On an empty path the first walker to step
      meets the direction "" and fails; with no walkers the first lap steps
      nobody and reading the first walker's count fails instead. */
  function Part2(nodes: map<string, Node>, starts: seq<string>, path: string, fuel: nat): (r: Result<int>)
    requires StartKeys(nodes, starts)
    ensures |path| == 0 ==> r.Err?
  {
    if |path| == 0 then
      if |starts| == 0 then Err("NoSuchElementException") else Err("IllegalArgumentException")
    else Walk2(nodes, StartStates(starts), Fresh(path), fuel)
  }

  /** The states follow the reference walks of their start keys. */
  predicate Following(nodes: map<string, Node>, path: string, starts: seq<string>, states: seq<State>, laps: nat)
    requires |path| > 0
  {
    |states| == |starts| &&
    forall i :: 0 <= i < |states| ==>
      KeyAfter(nodes, path, starts[i], laps).Ok? && states[i] == State(KeyAfter(nodes, path, starts[i], laps).value, laps)
  }

  /** Every reference walk stands on a node after `m` steps. */
  predicate AllOk(nodes: map<string, Node>, path: string, starts: seq<string>, m: nat)
    requires |path| > 0
  {
    forall i :: 0 <= i < |starts| ==> KeyAfter(nodes, path, starts[i], m).Ok?
  }

  /** Every reference walk stands on a key ending in Z after `m` steps. */
  predicate AllZAfter(nodes: map<string, Node>, path: string, starts: seq<string>, m: nat)
    requires |path| > 0
  {
    AllOk(nodes, path, starts, m) &&
    forall i :: 0 <= i < |starts| ==> EndsWith(KeyAfter(nodes, path, starts[i], m).value, "Z")
  }

  /** One lap moves every following state one step along its walk. */
  lemma LapFollows(nodes: map<string, Node>, path: string, starts: seq<string>, states: seq<State>, laps: nat)
    requires |path| > 0 && Following(nodes, path, starts, states, laps)
    ensures var r := Lap(nodes, states, Advance(Fresh(path), laps));
            (r.Ok? <==> AllOk(nodes, path, starts, laps + 1)) &&
            (r.Ok? ==> Following(nodes, path, starts, r.value, laps + 1))
  {
    var dir := Next(Advance(Fresh(path), laps)).0;
    forall i | 0 <= i < |states|
      ensures var r := StepWith(nodes, dir)(states[i]);
              (r.Ok? <==> KeyAfter(nodes, path, starts[i], laps + 1).Ok?) &&
              (r.Ok? ==> r.value == State(KeyAfter(nodes, path, starts[i], laps + 1).value, laps + 1))
    {
      StepFollows(nodes, path, starts[i], states[i]);
    }
  }

  /** After a lap the states stand on keys ending in Z exactly when the
      reference walks do. */
  lemma FollowingOnZ(nodes: map<string, Node>, path: string, starts: seq<string>, states: seq<State>, laps: nat)
    requires |path| > 0 && Following(nodes, path, starts, states, laps)
    ensures AllOnZ(states) <==> AllZAfter(nodes, path, starts, laps)
    ensures |states| > 0 ==> states[0].count == laps
  {
    if !AllOnZ(states) {
      var i :| 0 <= i < |states| && !EndsWith(states[i].key, "Z");
      assert !EndsWith(KeyAfter(nodes, path, starts[i], laps).value, "Z");
    }
  }

  /** One round of the part 2 loop. */
  lemma Walk2Unfold(nodes: map<string, Node>, states: seq<State>, it: Directions, fuel: nat)
    requires Valid(it)
    ensures fuel == 0 || Lap(nodes, states, it).Err? ==> Walk2(nodes, states, it, fuel).Err?
    ensures fuel > 0 && Lap(nodes, states, it).Ok? && AllOnZ(Lap(nodes, states, it).value) ==>
              Walk2(nodes, states, it, fuel) ==
                (if |states| == 0 then Err("NoSuchElementException") else Ok(Lap(nodes, states, it).value[0].count))
    ensures fuel > 0 && Lap(nodes, states, it).Ok? && !AllOnZ(Lap(nodes, states, it).value) ==>
              Walk2(nodes, states, it, fuel) == Walk2(nodes, Lap(nodes, states, it).value, Next(it).1, fuel - 1)
  {
  }

  /** The reference for the part 2 loop, on the reference walks alone:
      the first lap after `laps`, and at most `fuel` laps later, on which
      every walk stands on a key ending in Z; None when some walk leaves
      the network first, when there are no walks, or when the fuel runs
      out. */
  ghost function FirstAllZ(nodes: map<string, Node>, path: string, starts: seq<string>, laps: nat, fuel: nat): Option<nat>
    requires |path| > 0
    decreases fuel
  {
    if fuel == 0 || !AllOk(nodes, path, starts, laps + 1) then None
    else if AllZAfter(nodes, path, starts, laps + 1) then
      if |starts| == 0 then None else Some(laps + 1)
    else FirstAllZ(nodes, path, starts, laps + 1, fuel - 1)
  }

  /** The part 2 loop, run on states that follow the reference walks,
      answers exactly what the reference answers. */
  lemma Walk2Reference(nodes: map<string, Node>, path: string, starts: seq<string>,
                                          states: seq<State>, laps: nat, fuel: nat)
    requires |path| > 0 && Following(nodes, path, starts, states, laps)
    ensures Agrees(Walk2(nodes, states, Advance(Fresh(path), laps), fuel), FirstAllZ(nodes, path, starts, laps, fuel))
    decreases fuel
  {
    if fuel > 0 {
      var states', more := LapStep(nodes, path, starts, states, laps, fuel);
      if more {
        Walk2Reference(nodes, path, starts, states', laps + 1, fuel - 1);
      }
    }
  }

  /** One round of the part 2 loop against the reference: either both
      settle now, or both go on with the following lap. */
  lemma LapStep(nodes: map<string, Node>, path: string, starts: seq<string>,
                states: seq<State>, laps: nat, fuel: nat) returns (states': seq<State>, more: bool)
    requires |path| > 0 && Following(nodes, path, starts, states, laps) && fuel > 0
    ensures !more ==> Agrees(Walk2(nodes, states, Advance(Fresh(path), laps), fuel),
                             FirstAllZ(nodes, path, starts, laps, fuel))
    ensures more ==> Following(nodes, path, starts, states', laps + 1)
    ensures more ==> Walk2(nodes, states, Advance(Fresh(path), laps), fuel) ==
                     Walk2(nodes, states', Advance(Fresh(path), laps + 1), fuel - 1)
    ensures more ==> FirstAllZ(nodes, path, starts, laps, fuel) == FirstAllZ(nodes, path, starts, laps + 1, fuel - 1)
  {
    var it := Advance(Fresh(path), laps);
    Walk2Unfold(nodes, states, it, fuel);
    LapFollows(nodes, path, starts, states, laps);
    more := false;
    states' := states;
    if AllOk(nodes, path, starts, laps + 1) {
      states' := Lap(nodes, states, it).value;
      FollowingOnZ(nodes, path, starts, states', laps + 1);
      if !AllOnZ(states') {
        AdvanceLast(Fresh(path), laps);
        assert Advance(Fresh(path), laps + 1) == Next(it).1;
        more := true;
      } else if |starts| > 0 {
        assert states'[0].count == laps + 1;
      }
    }
  }

  /** A lap that is not the last one extends the laps that are not. */
  lemma NotYet(nodes: map<string, Node>, path: string, starts: seq<string>, laps: nat, c: nat)
    requires |path| > 0
    requires AllOk(nodes, path, starts, laps + 1) && !AllZAfter(nodes, path, starts, laps + 1)
    requires forall m :: laps + 1 < m < c ==> AllOk(nodes, path, starts, m) && !AllZAfter(nodes, path, starts, m)
    ensures forall m :: laps < m < c ==> AllOk(nodes, path, starts, m) && !AllZAfter(nodes, path, starts, m)
  {
  }

  /** What the reference finds is the first lap on which every walk stands
      on a key ending in Z. */
  lemma {:induction false} FirstAllZSound(nodes: map<string, Node>, path: string, starts: seq<string>, laps: nat, fuel: nat)
    requires |path| > 0 && FirstAllZ(nodes, path, starts, laps, fuel).Some?
    ensures var c := FirstAllZ(nodes, path, starts, laps, fuel).value;
            |starts| > 0 && laps < c <= laps + fuel && AllZAfter(nodes, path, starts, c) &&
            forall m :: laps < m < c ==> AllOk(nodes, path, starts, m) && !AllZAfter(nodes, path, starts, m)
    decreases fuel
  {
    if !AllZAfter(nodes, path, starts, laps + 1) {
      var c := FirstAllZ(nodes, path, starts, laps, fuel).value;
      FirstAllZSound(nodes, path, starts, laps + 1, fuel - 1);
      NotYet(nodes, path, starts, laps, c);
    }
  }

  /** The reference finds the first such lap when it comes within the fuel. */
  lemma {:induction false} FirstAllZComplete(nodes: map<string, Node>, path: string, starts: seq<string>,
                                             laps: nat, fuel: nat, n: nat)
    requires |path| > 0 && |starts| > 0
    requires laps < n <= laps + fuel && AllZAfter(nodes, path, starts, n)
    requires forall m :: laps < m < n ==> AllOk(nodes, path, starts, m) && !AllZAfter(nodes, path, starts, m)
    ensures FirstAllZ(nodes, path, starts, laps, fuel) == Some(n)
    decreases fuel
  {
    if laps + 1 < n {
      FirstAllZComplete(nodes, path, starts, laps + 1, fuel - 1, n);
    }
  }

  /** Part 2 is the first lap, at least one, on which every walk stands on
      a key ending in Z; no key ending in A is an error. */
  lemma Part2Sound(nodes: map<string, Node>, starts: seq<string>, path: string, fuel: nat)
    requires StartKeys(nodes, starts) && Part2(nodes, starts, path, fuel).Ok?
    ensures |path| > 0 && |starts| > 0
    ensures var c := Part2(nodes, starts, path, fuel).value;
            1 <= c <= fuel && AllZAfter(nodes, path, starts, c) &&
            forall m :: 0 < m < c ==> AllOk(nodes, path, starts, m) && !AllZAfter(nodes, path, starts, m)
  {
    Walk2Reference(nodes, path, starts, StartStates(starts), 0, fuel);
    FirstAllZSound(nodes, path, starts, 0, fuel);
  }

  /** Part 2 finds that lap when it comes within the fuel. */
  lemma Part2Complete(nodes: map<string, Node>, starts: seq<string>, path: string, fuel: nat, n: nat)
    requires StartKeys(nodes, starts) && |path| > 0 && |starts| > 0 && 1 <= n <= fuel
    requires AllZAfter(nodes, path, starts, n)
    requires forall m :: 0 < m < n ==> AllOk(nodes, path, starts, m) && !AllZAfter(nodes, path, starts, m)
    ensures Part2(nodes, starts, path, fuel) == Ok(n)
  {
    FirstAllZComplete(nodes, path, starts, 0, fuel, n);
    Walk2Reference(nodes, path, starts, StartStates(starts), 0, fuel);
  }
}

=== FILE: ordering.dfy ===
/** Java comparator chains and the stable sort of `List.sort` /
    `Stream.sorted`, over integer sort keys. */
module Ordering {
  import opened Folds

  /** `Integer.compare` / `Long.compare`. */
  function IntCompare(a: int, b: int): (r: int)
    ensures r == -1 || r == 0 || r == 1
    ensures r < 0 <==> a < b
    ensures r == 0 <==> a == b
  {
    if a < b then -1 else if a == b then 0 else 1
  }

  /** A `comparing(..).thenComparing(..)` chain: the first differing key
      decides; a key sequence that runs out first is smaller. */
  function LexCompare(a: seq<int>, b: seq<int>): (r: int)
    ensures r == -1 || r == 0 || r == 1
    ensures r == 0 <==> a == b
  {
    if |a| == 0 && |b| == 0 then 0
    else if |a| == 0 then -1
    else if |b| == 0 then 1
    else if a[0] != b[0] then IntCompare(a[0], b[0])
    else
      var r := LexCompare(a[1..], b[1..]);
      assert r == 0 ==> a == [a[0]] + a[1..] == [b[0]] + b[1..] == b;
      r
  }

  predicate LexLeq(a: seq<int>, b: seq<int>) {
    LexCompare(a, b) <= 0
  }

  /** The sign of a comparison flips when the arguments are swapped. */
  lemma {:induction false} LexCompareAntisymmetric(a: seq<int>, b: seq<int>)
    ensures LexCompare(b, a) == -LexCompare(a, b)
  {
    if |a| > 0 && |b| > 0 && a[0] == b[0] {
      LexCompareAntisymmetric(a[1..], b[1..]);
    }
  }

  lemma {:induction false} LexLeqTransitive(a: seq<int>, b: seq<int>, c: seq<int>)
    requires LexLeq(a, b) && LexLeq(b, c)
    ensures LexLeq(a, c)
  {
    if |a| > 0 && |b| > 0 && |c| > 0 && a[0] == b[0] == c[0] {
      LexLeqTransitive(a[1..], b[1..], c[1..]);
    }
  }

  lemma LexLeqTotal(a: seq<int>, b: seq<int>)
    ensures LexLeq(a, b) || LexLeq(b, a)
  {
    LexCompareAntisymmetric(a, b);
  }

  /** Every key negated: the key of a `reversed()` comparator. */
  function Negate(a: seq<int>): (r: seq<int>)
    ensures |r| == |a|
    ensures forall i :: 0 <= i < |a| ==> r[i] == -a[i]
  {
    if |a| == 0 then [] else [-a[0]] + Negate(a[1..])
  }

  /** Comparing negated keys of equal length compares the originals the
      other way round. */
  lemma {:induction false} LexCompareNegate(a: seq<int>, b: seq<int>)
    requires |a| == |b|
    ensures LexCompare(Negate(a), Negate(b)) == LexCompare(b, a)
  {
    if |a| > 0 {
      assert Negate(a)[1..] == Negate(a[1..]) && Negate(b)[1..] == Negate(b[1..]);
      LexCompareNegate(a[1..], b[1..]);
    }
  }

  predicate SortedBy<T>(s: seq<T>, key: T -> seq<int>) {
    forall i, j :: 0 <= i < j < |s| ==> LexLeq(key(s[i]), key(s[j]))
  }

  /** Places `x` after every element whose key is not greater than its own,
      so equal keys keep their order of arrival. */
  function InsertBy<T>(x: T, s: seq<T>, key: T -> seq<int>): (r: seq<T>)
    ensures multiset(r) == multiset(s) + multiset{x}
    ensures |r| == |s| + 1
    ensures SortedBy(s, key) ==> SortedBy(r, key)
  {
    if |s| == 0 then [x]
    else if LexCompare(key(x), key(s[0])) < 0 then
      var r := [x] + s;
      assert SortedBy(s, key) ==> SortedBy(r, key) by {
        if SortedBy(s, key) {
          InsertFrontSorted(x, s, key);
        }
      }
      r
    else
      var rest := InsertBy(x, s[1..], key);
      var r := [s[0]] + rest;
      assert s == [s[0]] + s[1..];
      assert SortedBy(s, key) ==> SortedBy(r, key) by {
        if SortedBy(s, key) {
          SortedTail(s, key);
          InsertAfterSorted(x, s, rest, key);
        }
      }
      r
  }

  lemma SortedTail<T>(s: seq<T>, key: T -> seq<int>)
    requires |s| > 0 && SortedBy(s, key)
    ensures SortedBy(s[1..], key)
  {
    forall i, j | 0 <= i < j < |s| - 1
      ensures LexLeq(key(s[1..][i]), key(s[1..][j]))
    {
      assert s[1..][i] == s[i + 1] && s[1..][j] == s[j + 1];
    }
  }

  /** An element whose key is below the head's goes in front. */
  lemma InsertFrontSorted<T>(x: T, s: seq<T>, key: T -> seq<int>)
    requires |s| > 0 && LexCompare(key(x), key(s[0])) < 0 && SortedBy(s, key)
    ensures SortedBy([x] + s, key)
  {
    var r := [x] + s;
    forall i, j | 0 <= i < j < |r|
      ensures LexLeq(key(r[i]), key(r[j]))
    {
      if i == 0 && j > 1 {
        LexLeqTransitive(key(x), key(s[0]), key(s[j - 1]));
      } else if i > 0 {
        assert r[i] == s[i - 1] && r[j] == s[j - 1];
      }
    }
  }

  /** An element whose key is not below the head's goes after it. */
  lemma InsertAfterSorted<T>(x: T, s: seq<T>, rest: seq<T>, key: T -> seq<int>)
    requires |s| > 0 && LexCompare(key(x), key(s[0])) >= 0 && SortedBy(s, key)
    requires multiset(rest) == multiset(s[1..]) + multiset{x} && SortedBy(rest, key)
    ensures SortedBy([s[0]] + rest, key)
  {
    var r := [s[0]] + rest;
    LexLeqTotal(key(x), key(s[0]));
    forall j | 0 <= j < |rest|
      ensures LexLeq(key(s[0]), key(rest[j]))
    {
      assert rest[j] in multiset(rest);
      if rest[j] != x {
        assert rest[j] in multiset(s[1..]);
        var k :| 0 <= k < |s[1..]| && s[1..][k] == rest[j];
        assert s[k + 1] == rest[j];
      }
    }
    forall i, j | 0 <= i < j < |r|
      ensures LexLeq(key(r[i]), key(r[j]))
    {
      if i == 0 {
        assert r[j] == rest[j - 1];
      } else {
        assert r[i] == rest[i - 1] && r[j] == rest[j - 1];
      }
    }
  }

  /** The elements of `s` whose key is `k`, in their order in `s`. */
  function WithKey<T>(s: seq<T>, key: T -> seq<int>, k: seq<int>): seq<T> {
    if |s| == 0 then []
    else (if key(s[0]) == k then [s[0]] else []) + WithKey(s[1..], key, k)
  }

  lemma {:induction false} WithKeyAppend<T>(a: seq<T>, b: seq<T>, key: T -> seq<int>, k: seq<int>)
    ensures WithKey(a + b, key, k) == WithKey(a, key, k) + WithKey(b, key, k)
  {
    if |a| == 0 {
      assert a + b == b;
    } else {
      var h := if key(a[0]) == k then [a[0]] else [];
      assert (a + b)[0] == a[0] && (a + b)[1..] == a[1..] + b;
      assert WithKey(a + b, key, k) == h + WithKey(a[1..] + b, key, k);
      WithKeyAppend(a[1..], b, key, k);
      assert WithKey(a, key, k) == h + WithKey(a[1..], key, k);
    }
  }

  lemma {:induction false} WithKeyNone<T>(s: seq<T>, key: T -> seq<int>, k: seq<int>)
    requires forall i :: 0 <= i < |s| ==> key(s[i]) != k
    ensures WithKey(s, key, k) == []
  {
    if |s| > 0 {
      WithKeyNone(s[1..], key, k);
    }
  }

  /** Inserting into a sorted sequence puts `x` after every element with
      the same key. */
  lemma {:induction false} InsertByStable<T>(x: T, s: seq<T>, key: T -> seq<int>, k: seq<int>)
    requires SortedBy(s, key)
    ensures WithKey(InsertBy(x, s, key), key, k) == WithKey(s, key, k) + (if key(x) == k then [x] else [])
  {
    if |s| == 0 {
    } else if LexCompare(key(x), key(s[0])) < 0 {
      var r := [x] + s;
      assert InsertBy(x, s, key) == r;
      assert r[0] == x && r[1..] == s;
      if key(x) == k {
        forall i | 0 <= i < |s|
          ensures key(s[i]) != k
        {
          LexCompareAntisymmetric(key(x), key(s[0]));
        }
        WithKeyNone(s, key, k);
        assert WithKey(r, key, k) == [x];
      } else {
        assert WithKey(r, key, k) == WithKey(s, key, k);
      }
    } else {
      var rest := InsertBy(x, s[1..], key);
      var r := [s[0]] + rest;
      var h := if key(s[0]) == k then [s[0]] else [];
      assert InsertBy(x, s, key) == r;
      assert r[0] == s[0] && r[1..] == rest;
      var t := if key(x) == k then [x] else [];
      SortedTail(s, key);
      InsertByStable(x, s[1..], key, k);
      assert WithKey(r, key, k) == h + (WithKey(s[1..], key, k) + t) by {
        assert WithKey(r, key, k) == h + WithKey(rest, key, k);
      }
      assert WithKey(s, key, k) == h + WithKey(s[1..], key, k);
      ConcatAssoc(h, WithKey(s[1..], key, k), t);
    }
  }

  /** One insertion step of the sort keeps every key's elements in input
      order. */
  lemma SortByStableStep<T>(init: seq<T>, last: T, sorted: seq<T>, r: seq<T>, key: T -> seq<int>)
    requires SortedBy(sorted, key) && r == InsertBy(last, sorted, key)
    requires forall k :: WithKey(sorted, key, k) == WithKey(init, key, k)
    ensures forall k :: WithKey(r, key, k) == WithKey(init + [last], key, k)
  {
    forall k
      ensures WithKey(r, key, k) == WithKey(init + [last], key, k)
    {
      InsertByStable(last, sorted, key, k);
      WithKeyAppend(init, [last], key, k);
    }
  }

  /** Stable insertion sort by ascending key: a permutation, sorted, and
      for every key the elements carrying it keep their input order. */
  function SortBy<T>(s: seq<T>, key: T -> seq<int>): (r: seq<T>)
    ensures multiset(r) == multiset(s)
    ensures |r| == |s|
    ensures SortedBy(r, key)
    ensures forall k :: WithKey(r, key, k) == WithKey(s, key, k)
  {
    if |s| == 0 then []
    else
      var init := s[..|s| - 1];
      var last := s[|s| - 1];
      assert s == init + [last];
      var sorted := SortBy(init, key);
      var r := InsertBy(last, sorted, key);
      SortByStableStep(init, last, sorted, r, key);
      r
  }
}

=== FILE: points.dfy ===
/** `grid.TwoDimIntPoint` and `grid.ThreeDimIntPoint`: integer records with a
    lexicographic `compareTo`. */
module Points {
  import opened Ordering

  datatype Point2 = Point2(x: int, y: int) {
    function GetX(): int { x }
    function GetY(): int { y }
    /** A two-dimensional point reports depth 0. */
    function GetZ(): int { 0 }
  }

  datatype Point3 = Point3(x: int, y: int, z: int) {
    function GetX(): int { x }
    function GetY(): int { y }
    function GetZ(): int { z }
  }

  /** `comparingInt(x).thenComparingInt(y)`. */
  function Compare2(a: Point2, b: Point2): (r: int)
    ensures r == -1 || r == 0 || r == 1
    ensures r == 0 <==> a == b
    ensures r == LexCompare([a.x, a.y], [b.x, b.y])
  {
    if a.x != b.x then IntCompare(a.x, b.x) else IntCompare(a.y, b.y)
  }

  /** `comparingInt(x).thenComparingInt(y).thenComparingInt(z)`. */
  function Compare3(a: Point3, b: Point3): (r: int)
    ensures r == -1 || r == 0 || r == 1
    ensures r == 0 <==> a == b
    ensures r == LexCompare([a.x, a.y, a.z], [b.x, b.y, b.z])
  {
    if a.x != b.x then IntCompare(a.x, b.x)
    else if a.y != b.y then IntCompare(a.y, b.y)
    else
      assert [a.x, a.y, a.z][1..] == [a.y, a.z] && [b.x, b.y, b.z][1..] == [b.y, b.z];
      assert [a.y, a.z][1..] == [a.z] && [b.y, b.z][1..] == [b.z];
      assert [a.z][1..] == [] && [b.z][1..] == [];
      assert LexCompare([a.z], [b.z]) == IntCompare(a.z, b.z);
      assert LexCompare([a.y, a.z], [b.y, b.z]) == IntCompare(a.z, b.z);
      IntCompare(a.z, b.z)
  }

  /** `a` sorts before `b` exactly when its x is smaller, or the x values tie
      and its y is smaller. */
  lemma Compare2Lexicographic(a: Point2, b: Point2)
    ensures Compare2(a, b) < 0 <==> a.x < b.x || (a.x == b.x && a.y < b.y)
  {
  }

  lemma Compare2Antisymmetric(a: Point2, b: Point2)
    ensures Compare2(b, a) == -Compare2(a, b)
  {
    LexCompareAntisymmetric([a.x, a.y], [b.x, b.y]);
  }

  lemma Compare2Transitive(a: Point2, b: Point2, c: Point2)
    requires Compare2(a, b) <= 0 && Compare2(b, c) <= 0
    ensures Compare2(a, c) <= 0
  {
    LexLeqTransitive([a.x, a.y], [b.x, b.y], [c.x, c.y]);
  }

  lemma Compare3Lexicographic(a: Point3, b: Point3)
    ensures Compare3(a, b) < 0 <==>
      a.x < b.x || (a.x == b.x && (a.y < b.y || (a.y == b.y && a.z < b.z)))
  {
  }

  lemma Compare3Antisymmetric(a: Point3, b: Point3)
    ensures Compare3(b, a) == -Compare3(a, b)
  {
    LexCompareAntisymmetric([a.x, a.y, a.z], [b.x, b.y, b.z]);
  }

  lemma Compare3Transitive(a: Point3, b: Point3, c: Point3)
    requires Compare3(a, b) <= 0 && Compare3(b, c) <= 0
    ensures Compare3(a, c) <= 0
  {
    LexLeqTransitive([a.x, a.y, a.z], [b.x, b.y, b.z], [c.x, c.y, c.z]);
  }

  /** Strictly increasing under `compareTo`: the order `sorted()` hands out
      a set of points in. */
  predicate Ascending2(s: seq<Point2>) {
    forall i, j :: 0 <= i < j < |s| ==> Compare2(s[i], s[j]) < 0
  }

  /** The least point of a non-empty set. */
  ghost function Min2(w: set<Point2>): (m: Point2)
    requires w != {}
    ensures m in w && forall q :: q in w ==> Compare2(m, q) <= 0
    decreases |w|
  {
    var x :| x in w;
    if w == {x} then x
    else
      var m' := Min2(w - {x});
      if Compare2(x, m') <= 0 then
        BelowLeast2(w, x, m');
        x
      else
        Compare2Antisymmetric(x, m');
        m'
  }

  /** A point below the least of the others is below all of them. */
  lemma BelowLeast2(w: set<Point2>, x: Point2, m: Point2)
    requires x in w && Compare2(x, m) <= 0
    requires forall q :: q in w - {x} ==> Compare2(m, q) <= 0
    ensures forall q :: q in w ==> Compare2(x, q) <= 0
  {
    forall q | q in w
      ensures Compare2(x, q) <= 0
    {
      if q != x { Compare2Transitive(x, m, q); }
    }
  }

  /** `stream().sorted()` of a set of points. */
  ghost function Sorted2(w: set<Point2>): (s: seq<Point2>)
    ensures Ascending2(s)
    ensures forall p :: p in s <==> p in w
    decreases |w|
  {
    if w == {} then []
    else
      var m := Min2(w);
      var rest := Sorted2(w - {m});
      LeastFirst2(w, m, rest);
      [m] + rest
  }

  /** The least point followed by the others in ascending order is the
      whole set in ascending order. */
  lemma LeastFirst2(w: set<Point2>, m: Point2, rest: seq<Point2>)
    requires m in w && forall q :: q in w ==> Compare2(m, q) <= 0
    requires Ascending2(rest) && forall p :: p in rest <==> p in w - {m}
    ensures Ascending2([m] + rest)
    ensures forall p :: p in [m] + rest <==> p in w
  {
    var s := [m] + rest;
    forall i, j | 0 <= i < j < |s| ensures Compare2(s[i], s[j]) < 0 {
      assert s[j] == rest[j - 1];
      if i > 0 {
        assert s[i] == rest[i - 1];
      } else {
        assert rest[j - 1] in rest;
      }
    }
  }

  /** Two ascending enumerations of the same points start alike. */
  lemma AscendingHead2(s: seq<Point2>, t: seq<Point2>)
    requires Ascending2(s) && Ascending2(t) && |s| > 0 && |t| > 0
    requires forall p :: p in s <==> p in t
    ensures s[0] == t[0]
  {
    assert s[0] in s && t[0] in t;
    var k :| 0 <= k < |t| && t[k] == s[0];
    var m :| 0 <= m < |s| && s[m] == t[0];
    Compare2Antisymmetric(s[0], t[0]);
    assert k == 0 || m == 0;
  }

  /** Dropping the common first point keeps the elements equal. */
  lemma AscendingTail2(s: seq<Point2>, t: seq<Point2>)
    requires Ascending2(s) && Ascending2(t) && |s| > 0 && |t| > 0 && s[0] == t[0]
    requires forall p :: p in s <==> p in t
    ensures forall p :: p in s[1..] <==> p in t[1..]
  {
    forall p
      ensures p in s[1..] ==> p in t[1..]
      ensures p in t[1..] ==> p in s[1..]
    {
      if p in s[1..] {
        var i :| 1 <= i < |s| && s[i] == p;
        assert p != s[0] && p in t;
        var j :| 0 <= j < |t| && t[j] == p;
        assert t[j] == t[1..][j - 1];
      }
      if p in t[1..] {
        var i :| 1 <= i < |t| && t[i] == p;
        assert p != t[0] && p in s;
        var j :| 0 <= j < |s| && s[j] == p;
        assert s[j] == s[1..][j - 1];
      }
    }
  }

  /** A set has only one ascending enumeration. */
  lemma {:induction false} AscendingUnique2(s: seq<Point2>, t: seq<Point2>)
    requires Ascending2(s) && Ascending2(t)
    requires forall p :: p in s <==> p in t
    ensures s == t
  {
    assert |s| > 0 ==> s[0] in s;
    assert |t| > 0 ==> t[0] in t;
    if |s| > 0 && |t| > 0 {
      AscendingHead2(s, t);
      AscendingTail2(s, t);
      AscendingUnique2(s[1..], t[1..]);
      assert s == [s[0]] + s[1..] && t == [t[0]] + t[1..];
    }
  }
}

=== FILE: schematic.dfy ===
/** `Day03`: the engine schematic. The lines become a grid of one-character
    cells; each row, read left to right, falls into runs of digit cells (the
    `WideNumber`s); the runs touching a symbol are part numbers, and a `*`
    touching exactly two of them is a gear. Adjacency (`isOrthogonal`, whose
    `minus` is not part of this model) is the parameter `adj`, applied with
    its arguments in the source's order. */
module Schematic {
  import opened Wrappers
  import opened Points
  import opened Grids
  import opened Decimal
  import opened Folds

  // ---------------------------------------------------------------- grid

  /** `line.split("")`: one string per character; the empty line splits
      into the single empty string. */
  function Pieces(line: string): (r: seq<string>)
    ensures |line| == 0 ==> r == [""]
    ensures |line| > 0 ==> |r| == |line| && forall x :: 0 <= x < |line| ==> r[x] == [line[x]]
  {
    if |line| <= 1 then [line]
    else
      var rest := Pieces(line[1..]);
      assert forall x :: 1 <= x < |line| ==> rest[x - 1] == [line[x]];
      [[line[0]]] + rest
  }

  function Flatten(pieces: seq<string>): string {
    if |pieces| == 0 then "" else pieces[0] + Flatten(pieces[1..])
  }

  /** The pieces put back together are the line. */
  lemma {:induction false} PiecesFlatten(line: string)
    ensures Flatten(Pieces(line)) == line
  {
    if |line| > 1 {
      var ps := Pieces(line);
      assert ps == [[line[0]]] + Pieces(line[1..]);
      assert Flatten(ps) == ps[0] + Flatten(ps[1..]);
      PiecesFlatten(line[1..]);
      assert line == [line[0]] + line[1..];
    }
  }

  /** Piece x of line y paired with the point (x, y). */
  function RowPairs(line: string, y: int): seq<(Point2, string)> {
    seq(|Pieces(line)|, x requires 0 <= x < |Pieces(line)| => (Point2(x, y), Pieces(line)[x]))
  }

  /** `getGrid`: piece x of line y is stored at (x, y). The collector puts
      every pair; their keys are distinct, so the order of the puts makes no
      difference, and here the rows go in one after another. */
  function GetGrid(lines: seq<string>): (g: Grid2<string>)
    ensures GridInv2(g)
    ensures forall p :: p in g.cells <==> 0 <= p.y < |lines| && 0 <= p.x < |Pieces(lines[p.y])|
    ensures forall p :: p in g.cells ==> g.cells[p] == Pieces(lines[p.y])[p.x]
  {
    if |lines| == 0 then Empty2()
    else
      var y := |lines| - 1;
      var prev := GetGrid(lines[..y]);
      var g := PutAll2(prev, RowPairs(lines[y], y));
      PutRow(prev, lines[..y], lines, g);
      g
  }

  /** Putting the last line's pairs into the grid of the lines before it. */
  lemma PutRow(prev: Grid2<string>, init: seq<string>, lines: seq<string>, g: Grid2<string>)
    requires |lines| > 0 && init == lines[..|lines| - 1]
    requires forall p :: p in prev.cells <==> 0 <= p.y < |init| && 0 <= p.x < |Pieces(init[p.y])|
    requires forall p :: p in prev.cells ==> prev.cells[p] == Pieces(init[p.y])[p.x]
    requires g == PutAll2(prev, RowPairs(lines[|lines| - 1], |lines| - 1))
    ensures forall p :: p in g.cells <==> 0 <= p.y < |lines| && 0 <= p.x < |Pieces(lines[p.y])|
    ensures forall p :: p in g.cells ==> g.cells[p] == Pieces(lines[p.y])[p.x]
  {
    var y := |lines| - 1;
    forall p
      ensures p in g.cells <==> 0 <= p.y < |lines| && 0 <= p.x < |Pieces(lines[p.y])|
      ensures p in g.cells ==> g.cells[p] == Pieces(lines[p.y])[p.x]
    {
      if p.y == y && 0 <= p.x < |Pieces(lines[y])| {
        PutRowHere(prev, lines[y], y, g, p.x);
      } else {
        PutRowOthers(prev, lines[y], y, g, p);
        if 0 <= p.y < y {
          assert init[p.y] == lines[p.y];
        }
      }
    }
  }

  /** A piece of the new row lands at its point. */
  lemma PutRowHere(prev: Grid2<string>, line: string, y: int, g: Grid2<string>, x: int)
    requires g == PutAll2(prev, RowPairs(line, y)) && 0 <= x < |Pieces(line)|
    ensures Get2(g, Point2(x, y)) == Some(Pieces(line)[x])
  {
    var pairs := RowPairs(line, y);
    PutAll2Distinct(prev, pairs);
    assert pairs[x].0 == Point2(x, y);
  }

  /** A point off the new row keeps what it held. */
  lemma PutRowOthers(prev: Grid2<string>, line: string, y: int, g: Grid2<string>, q: Point2)
    requires g == PutAll2(prev, RowPairs(line, y)) && !(q.y == y && 0 <= q.x < |Pieces(line)|)
    ensures Get2(g, q) == Get2(prev, q)
  {
    var pairs := RowPairs(line, y);
    assert forall i :: 0 <= i < |pairs| ==> pairs[i].0 == Point2(i, y);
    PutAll2Distinct(prev, pairs);
    assert forall i :: 0 <= i < |pairs| ==> pairs[i].0 != q;
  }

  // ---------------------------------------------------------------- char points

  /** `matches("\\d")`: exactly one ASCII digit. */
  predicate DigitText(v: string) {
    |v| == 1 && IsDigit(v[0])
  }

  /** `getCharPoints`: the cells whose text is neither one digit nor ".". */
  function CharPoints(g: Grid2<string>): set<Point2> {
    set p | p in g.cells && !DigitText(g.cells[p]) && g.cells[p] != "."
  }

  /** A char point is a character of the input that is neither a digit nor
      a dot; an empty line contributes its one empty cell as well. */
  lemma CharPointsOfLines(lines: seq<string>)
    ensures forall p :: p in CharPoints(GetGrid(lines)) <==>
      0 <= p.y < |lines| &&
      ((0 <= p.x < |lines[p.y]| && !IsDigit(lines[p.y][p.x]) && lines[p.y][p.x] != '.') ||
       (lines[p.y] == "" && p.x == 0))
  {
  }

  // ---------------------------------------------------------------- one row

  /** The accumulator of `ConsecutiveNumberCollector` run over a row in
      order, starting from group id `idx`: a non-digit cell bumps the id and
      is dropped; a digit cell is recorded with the current id. */
  function Scan(ps: seq<Point2>, digit: Point2 -> bool, idx: int): set<(int, Point2)>
    decreases |ps|
  {
    if |ps| == 0 then {}
    else if !digit(ps[0]) then Scan(ps[1..], digit, idx + 1)
    else {(idx, ps[0])} + Scan(ps[1..], digit, idx)
  }

  /** The points recorded under one id. */
  function Group(entries: set<(int, Point2)>, id: int): set<Point2> {
    set e | e in entries && e.0 == id :: e.1
  }

  /** The finisher: one `WideNumber` per id. */
  function Finish(entries: set<(int, Point2)>): set<set<Point2>> {
    set e | e in entries :: Group(entries, e.0)
  }

  /** The collector applied to one row, sorted. */
  function RowNumbers(ps: seq<Point2>, digit: Point2 -> bool): set<set<Point2>> {
    Finish(Scan(ps, digit, 0))
  }

  /** The number of non-digit cells among the first `k`. */
  function Bumps(ps: seq<Point2>, digit: Point2 -> bool, k: nat): nat
    requires k <= |ps|
  {
    if k == 0 then 0 else Bumps(ps, digit, k - 1) + (if digit(ps[k - 1]) then 0 else 1)
  }

  /** A run of digit cells that cannot be extended either way. */
  predicate MaximalRun(ps: seq<Point2>, digit: Point2 -> bool, lo: int, hi: int) {
    && 0 <= lo < hi <= |ps|
    && (forall k :: lo <= k < hi ==> digit(ps[k]))
    && (lo == 0 || !digit(ps[lo - 1]))
    && (hi == |ps| || !digit(ps[hi]))
  }

  function RunSet(ps: seq<Point2>, lo: int, hi: int): set<Point2>
    requires 0 <= lo <= hi <= |ps|
  {
    set k | lo <= k < hi :: ps[k]
  }

  /** Counting from the second cell on. */
  lemma {:induction false} BumpsTail(ps: seq<Point2>, digit: Point2 -> bool, k: nat)
    requires 0 < |ps| && k < |ps|
    ensures Bumps(ps, digit, k + 1) == (if digit(ps[0]) then 0 else 1) + Bumps(ps[1..], digit, k)
  {
    if k > 0 {
      BumpsTail(ps, digit, k - 1);
      assert ps[k] == ps[1..][k - 1];
    }
  }

  /** The count stands still across a stretch exactly when the stretch is
      all digits. */
  lemma {:induction false} BumpsFlat(ps: seq<Point2>, digit: Point2 -> bool, m: nat, k: nat)
    requires m <= k <= |ps|
    ensures Bumps(ps, digit, m) <= Bumps(ps, digit, k)
    ensures Bumps(ps, digit, m) == Bumps(ps, digit, k) <==> forall j :: m <= j < k ==> digit(ps[j])
    decreases k
  {
    if m < k {
      BumpsFlat(ps, digit, m, k - 1);
    }
  }

  /** Each digit cell is recorded with the number of non-digit cells before
      it added to the starting id. */
  lemma {:induction false} ScanComplete(ps: seq<Point2>, digit: Point2 -> bool, idx: int, k: nat)
    requires k < |ps| && digit(ps[k])
    ensures (idx + Bumps(ps, digit, k), ps[k]) in Scan(ps, digit, idx)
    decreases |ps|
  {
    var rest := ps[1..];
    var idx' := if digit(ps[0]) then idx else idx + 1;
    if k > 0 {
      ScanComplete(rest, digit, idx', k - 1);
      BumpsTail(ps, digit, k - 1);
      assert ps[k] == rest[k - 1];
    }
  }

  /** Nothing else is recorded. */
  lemma {:induction false} ScanSound(ps: seq<Point2>, digit: Point2 -> bool, idx: int, e: (int, Point2))
    requires e in Scan(ps, digit, idx)
    ensures exists k :: 0 <= k < |ps| && digit(ps[k]) && e == (idx + Bumps(ps, digit, k), ps[k])
    decreases |ps|
  {
    var rest := ps[1..];
    var idx' := if digit(ps[0]) then idx else idx + 1;
    if digit(ps[0]) && e == (idx, ps[0]) {
      assert Bumps(ps, digit, 0) == 0;
    } else {
      assert e in Scan(rest, digit, idx');
      ScanSound(rest, digit, idx', e);
      var k :| 0 <= k < |rest| && digit(rest[k]) && e == (idx' + Bumps(rest, digit, k), rest[k]);
      BumpsTail(ps, digit, k);
      assert ps[k + 1] == rest[k];
    }
  }

  /** The first cell of the digit run through cell `k`. */
  function RunStart(ps: seq<Point2>, digit: Point2 -> bool, k: nat): (lo: nat)
    requires k < |ps| && digit(ps[k])
    ensures lo <= k && (forall j :: lo <= j <= k ==> digit(ps[j])) && (lo == 0 || !digit(ps[lo - 1]))
  {
    if k > 0 && digit(ps[k - 1]) then RunStart(ps, digit, k - 1) else k
  }

  /** One past the last cell of the digit run through cell `k`. */
  function RunEnd(ps: seq<Point2>, digit: Point2 -> bool, k: nat): (hi: nat)
    requires k < |ps| && digit(ps[k])
    ensures k < hi <= |ps| && (forall j :: k <= j < hi ==> digit(ps[j])) && (hi == |ps| || !digit(ps[hi]))
    decreases |ps| - k
  {
    if k + 1 < |ps| && digit(ps[k + 1]) then RunEnd(ps, digit, k + 1) else k + 1
  }

  /** A digit cell shares its id with exactly the cells of its maximal run. */
  lemma SameId(ps: seq<Point2>, digit: Point2 -> bool, lo: nat, hi: nat, k: nat, m: nat)
    requires MaximalRun(ps, digit, lo, hi) && lo <= k < hi
    requires m < |ps| && digit(ps[m])
    ensures Bumps(ps, digit, m) == Bumps(ps, digit, k) <==> lo <= m < hi
  {
    if m <= k {
      BumpsFlat(ps, digit, m, k);
      if m < lo { assert !digit(ps[lo - 1]); }
    } else {
      BumpsFlat(ps, digit, k, m);
      if m >= hi { assert !digit(ps[hi]); }
    }
    if lo <= m < hi {
      BumpsFlat(ps, digit, lo, m);
      BumpsFlat(ps, digit, lo, k);
    }
  }

  /** The group of a cell of a maximal run is the run. */
  lemma GroupOfRun(ps: seq<Point2>, digit: Point2 -> bool, lo: nat, hi: nat, k: nat)
    requires MaximalRun(ps, digit, lo, hi) && lo <= k < hi
    ensures Group(Scan(ps, digit, 0), Bumps(ps, digit, k)) == RunSet(ps, lo, hi)
  {
    forall p
      ensures p in Group(Scan(ps, digit, 0), Bumps(ps, digit, k)) <==> p in RunSet(ps, lo, hi)
    {
      if p in Group(Scan(ps, digit, 0), Bumps(ps, digit, k)) {
        GroupInRun(ps, digit, lo, hi, k, p);
      }
      if p in RunSet(ps, lo, hi) {
        RunInGroup(ps, digit, lo, hi, k, p);
      }
    }
  }

  lemma GroupInRun(ps: seq<Point2>, digit: Point2 -> bool, lo: nat, hi: nat, k: nat, p: Point2)
    requires MaximalRun(ps, digit, lo, hi) && lo <= k < hi
    requires p in Group(Scan(ps, digit, 0), Bumps(ps, digit, k))
    ensures p in RunSet(ps, lo, hi)
  {
    var e :| e in Scan(ps, digit, 0) && e.0 == Bumps(ps, digit, k) && e.1 == p;
    ScanSound(ps, digit, 0, e);
    var m :| 0 <= m < |ps| && digit(ps[m]) && e == (Bumps(ps, digit, m), ps[m]);
    SameId(ps, digit, lo, hi, k, m);
  }

  lemma RunInGroup(ps: seq<Point2>, digit: Point2 -> bool, lo: nat, hi: nat, k: nat, p: Point2)
    requires MaximalRun(ps, digit, lo, hi) && lo <= k < hi
    requires p in RunSet(ps, lo, hi)
    ensures p in Group(Scan(ps, digit, 0), Bumps(ps, digit, k))
  {
    var m :| lo <= m < hi && ps[m] == p;
    SameId(ps, digit, lo, hi, k, m);
    ScanComplete(ps, digit, 0, m);
    assert (Bumps(ps, digit, m), p) in Scan(ps, digit, 0);
  }

  /** `RunEnd` finds the end of the maximal run it starts in. */
  lemma {:induction false} RunEndOfRun(ps: seq<Point2>, digit: Point2 -> bool, lo: nat, hi: nat, k: nat)
    requires MaximalRun(ps, digit, lo, hi) && lo <= k < hi
    ensures RunEnd(ps, digit, k) == hi
    decreases hi - k
  {
    if k + 1 < hi {
      RunEndOfRun(ps, digit, lo, hi, k + 1);
    }
  }

  /** The collector splits a sorted row into exactly its maximal runs of
      digit cells. */
  lemma RowNumbersAreRuns(ps: seq<Point2>, digit: Point2 -> bool)
    ensures forall w :: w in RowNumbers(ps, digit) <==>
      exists lo, hi :: MaximalRun(ps, digit, lo, hi) && w == RunSet(ps, lo, hi)
  {
    var entries := Scan(ps, digit, 0);
    forall w | w in RowNumbers(ps, digit)
      ensures exists lo, hi :: MaximalRun(ps, digit, lo, hi) && w == RunSet(ps, lo, hi)
    {
      var e :| e in entries && w == Group(entries, e.0);
      ScanSound(ps, digit, 0, e);
      var k :| 0 <= k < |ps| && digit(ps[k]) && e == (Bumps(ps, digit, k), ps[k]);
      var lo, hi := RunStart(ps, digit, k), RunEnd(ps, digit, k);
      assert MaximalRun(ps, digit, lo, hi);
      GroupOfRun(ps, digit, lo, hi, k);
    }
    forall lo: nat, hi: nat | MaximalRun(ps, digit, lo, hi)
      ensures RunSet(ps, lo, hi) in RowNumbers(ps, digit)
    {
      GroupOfRun(ps, digit, lo, hi, lo);
      ScanComplete(ps, digit, 0, lo);
    }
  }

  // ---------------------------------------------------------------- all rows

  function RowKeys(g: Grid2<string>, y: int): set<Point2> {
    set p | p in g.cells && p.y == y
  }

  function Ys(g: Grid2<string>): set<int> {
    set p | p in g.cells :: p.y
  }

  /** `grid.get(point).matches("\\d")`. */
  function DigitAt(g: Grid2<string>): Point2 -> bool {
    p => p in g.cells && DigitText(g.cells[p])
  }

  /** `groupWideNumbers`: the keys grouped by row, each row sorted and
      collected, and all the rows' numbers gathered into one set. */
  ghost function GroupWideNumbers(g: Grid2<string>): set<set<Point2>> {
    set y, w | y in Ys(g) && w in RowNumbers(Sorted2(RowKeys(g, y)), DigitAt(g)) :: w
  }

  /** The points (lo, y) … (hi - 1, y), left to right. */
  function Span(y: int, lo: int, hi: int): (s: seq<Point2>)
    requires lo <= hi
    ensures |s| == hi - lo && forall i :: 0 <= i < |s| ==> s[i] == Point2(lo + i, y)
  {
    seq(hi - lo, i requires 0 <= i < hi - lo => Point2(lo + i, y))
  }

  /** The points of the characters lo … hi - 1 of line y. */
  function RunPoints(y: int, lo: int, hi: int): set<Point2> {
    set x | lo <= x < hi :: Point2(x, y)
  }

  /** Characters lo … hi - 1 of the line are digits, and neither neighbour
      is. */
  predicate DigitRun(line: string, lo: int, hi: int) {
    && 0 <= lo < hi <= |line|
    && (forall x :: lo <= x < hi ==> IsDigit(line[x]))
    && (lo == 0 || !IsDigit(line[lo - 1]))
    && (hi == |line| || !IsDigit(line[hi]))
  }

  /** Row y of the grid, sorted, is its points from left to right. */
  lemma SortedRow(lines: seq<string>, y: int)
    requires 0 <= y < |lines|
    ensures Sorted2(RowKeys(GetGrid(lines), y)) == Span(y, 0, |Pieces(lines[y])|)
  {
    var s := Span(y, 0, |Pieces(lines[y])|);
    var g := GetGrid(lines);
    forall i, j | 0 <= i < j < |s|
      ensures Compare2(s[i], s[j]) < 0
    {
      Compare2Lexicographic(s[i], s[j]);
    }
    forall p
      ensures p in Sorted2(RowKeys(g, y)) <==> p in s
    {
      if p in RowKeys(g, y) {
        assert s[p.x] == p;
      }
    }
    AscendingUnique2(Sorted2(RowKeys(GetGrid(lines), y)), s);
  }

  /** Reading the cells of a row is reading the characters of its line. */
  lemma RowDigits(lines: seq<string>, y: int, x: int)
    requires 0 <= y < |lines| && 0 <= x < |Pieces(lines[y])|
    ensures DigitAt(GetGrid(lines))(Point2(x, y)) <==> x < |lines[y]| && IsDigit(lines[y][x])
  {
  }

  /** A row whose cells are digits where its line has digits has the same
      maximal runs as the line. */
  lemma RunsAgree(ps: seq<Point2>, digit: Point2 -> bool, line: string, lo: int, hi: int)
    requires |ps| == |Pieces(line)|
    requires forall x :: 0 <= x < |ps| ==> (digit(ps[x]) <==> x < |line| && IsDigit(line[x]))
    ensures MaximalRun(ps, digit, lo, hi) <==> DigitRun(line, lo, hi)
  {
    if MaximalRun(ps, digit, lo, hi) {
      assert digit(ps[hi - 1]);
      assert |line| > 0 && |ps| == |line|;
      forall x | lo <= x < hi
        ensures IsDigit(line[x])
      {
        assert digit(ps[x]);
      }
      if lo > 0 { assert !digit(ps[lo - 1]); }
      if hi < |line| { assert !digit(ps[hi]); }
    }
    if DigitRun(line, lo, hi) {
      assert |ps| == |line|;
      forall x | lo <= x < hi
        ensures digit(ps[x])
      {
        assert IsDigit(line[x]);
      }
      if lo > 0 { assert !IsDigit(line[lo - 1]); }
      if hi < |line| { assert !IsDigit(line[hi]); }
    }
  }

  /** A stretch of a row is the set of its points. */
  lemma RunSetSpan(y: int, n: int, lo: int, hi: int)
    requires 0 <= lo <= hi <= n
    ensures RunSet(Span(y, 0, n), lo, hi) == RunPoints(y, lo, hi)
  {
    var ps := Span(y, 0, n);
    forall p | p in RunPoints(y, lo, hi)
      ensures p in RunSet(ps, lo, hi)
    {
      assert ps[p.x] == p;
    }
  }

  /** The maximal runs of the grid row are the digit runs of the line. */
  lemma RowRuns(lines: seq<string>, y: int, lo: int, hi: int)
    requires 0 <= y < |lines|
    ensures MaximalRun(Span(y, 0, |Pieces(lines[y])|), DigitAt(GetGrid(lines)), lo, hi) <==> DigitRun(lines[y], lo, hi)
    ensures 0 <= lo <= hi <= |Pieces(lines[y])| ==> RunSet(Span(y, 0, |Pieces(lines[y])|), lo, hi) == RunPoints(y, lo, hi)
  {
    var ps := Span(y, 0, |Pieces(lines[y])|);
    forall x | 0 <= x < |ps|
      ensures DigitAt(GetGrid(lines))(ps[x]) <==> x < |lines[y]| && IsDigit(lines[y][x])
    {
      RowDigits(lines, y, x);
    }
    RunsAgree(ps, DigitAt(GetGrid(lines)), lines[y], lo, hi);
    if 0 <= lo <= hi <= |ps| {
      RunSetSpan(y, |ps|, lo, hi);
    }
  }

  /** w is the set of points of some maximal digit run of the lines. */
  ghost predicate IsDigitRun(lines: seq<string>, w: set<Point2>) {
    exists y, lo, hi :: 0 <= y < |lines| && DigitRun(lines[y], lo, hi) && w == RunPoints(y, lo, hi)
  }

  /** `groupWideNumbers` yields exactly the maximal digit runs of each line,
      as the points they occupy. */
  lemma WideNumbersAreRuns(lines: seq<string>)
    ensures forall w :: w in GroupWideNumbers(GetGrid(lines)) <==> IsDigitRun(lines, w)
  {
    var g := GetGrid(lines);
    forall w | w in GroupWideNumbers(g)
      ensures IsDigitRun(lines, w)
    {
      var y :| y in Ys(g) && w in RowNumbers(Sorted2(RowKeys(g, y)), DigitAt(g));
      var p :| p in g.cells && p.y == y;
      SortedRow(lines, y);
      var ps := Span(y, 0, |Pieces(lines[y])|);
      RowNumbersAreRuns(ps, DigitAt(g));
      var lo, hi :| MaximalRun(ps, DigitAt(g), lo, hi) && w == RunSet(ps, lo, hi);
      RowRuns(lines, y, lo, hi);
      assert 0 <= y < |lines| && DigitRun(lines[y], lo, hi) && w == RunPoints(y, lo, hi);
    }
    forall w | IsDigitRun(lines, w)
      ensures w in GroupWideNumbers(g)
    {
      var y, lo, hi :| 0 <= y < |lines| && DigitRun(lines[y], lo, hi) && w == RunPoints(y, lo, hi);
      assert Point2(0, y) in g.cells;
      SortedRow(lines, y);
      var ps := Span(y, 0, |Pieces(lines[y])|);
      RowNumbersAreRuns(ps, DigitAt(g));
      RowRuns(lines, y, lo, hi);
      assert RunSet(ps, lo, hi) in RowNumbers(ps, DigitAt(g));
    }
  }

  // ---------------------------------------------------------------- values

  /** What `grid::get` hands to `joining()`: a missing key reads "null". */
  function CellText(g: Grid2<string>, p: Point2): string {
    match Get2(g, p)
    case Some(v) => v
    case None => "null"
  }

  function Texts(g: Grid2<string>, ps: seq<Point2>): string {
    if |ps| == 0 then "" else CellText(g, ps[0]) + Texts(g, ps[1..])
  }

  /** `WideNumber.getValue`: the texts of the points in ascending order,
      joined and parsed as a decimal integer. */
  ghost function GetValue(g: Grid2<string>, w: set<Point2>): Option<int> {
    ParseInt(Texts(g, Sorted2(w)))
  }

  /** Cells holding the characters of a stretch read back as the stretch. */
  lemma {:induction false} TextsOfSpan(g: Grid2<string>, line: string, y: int, lo: int, hi: int)
    requires 0 <= lo <= hi <= |line|
    requires forall x :: lo <= x < hi ==> CellText(g, Point2(x, y)) == [line[x]]
    ensures Texts(g, Span(y, lo, hi)) == line[lo..hi]
    decreases hi - lo
  {
    if lo < hi {
      TextsOfSpan(g, line, y, lo + 1, hi);
      var s, t := Span(y, lo, hi), Span(y, lo + 1, hi);
      assert forall i :: 0 <= i < |t| ==> s[1..][i] == t[i];
      assert s[1..] == t;
      assert line[lo..hi] == [line[lo]] + line[lo + 1..hi];
    }
  }

  /** The grid's cells hold the characters of the lines. */
  lemma GridText(lines: seq<string>, y: int)
    requires 0 <= y < |lines|
    ensures forall x :: 0 <= x < |lines[y]| ==> CellText(GetGrid(lines), Point2(x, y)) == [lines[y][x]]
  {
  }

  /** A run of digits is worth the decimal number its characters spell. */
  lemma RunValue(lines: seq<string>, y: int, lo: int, hi: int)
    requires 0 <= y < |lines| && 0 <= lo < hi <= |lines[y]|
    requires forall x :: lo <= x < hi ==> IsDigit(lines[y][x])
    ensures AllDigits(lines[y][lo..hi])
    ensures GetValue(GetGrid(lines), RunPoints(y, lo, hi)) == Some(ParseDigits(lines[y][lo..hi]))
  {
    var g := GetGrid(lines);
    var text := lines[y][lo..hi];
    assert AllDigits(text) by {
      forall i | 0 <= i < |text| ensures IsDigit(text[i]) {
        assert text[i] == lines[y][lo + i];
      }
    }
    assert Texts(g, Sorted2(RunPoints(y, lo, hi))) == text by {
      SortedRun(y, lo, hi);
      GridText(lines, y);
      TextsOfSpan(g, lines[y], y, lo, hi);
    }
    ParseAllDigits(text);
  }

  /** The points of a stretch of a row, sorted, run left to right. */
  lemma SortedRun(y: int, lo: int, hi: int)
    requires lo <= hi
    ensures Sorted2(RunPoints(y, lo, hi)) == Span(y, lo, hi)
  {
    var s := Span(y, lo, hi);
    forall i, j | 0 <= i < j < |s|
      ensures Compare2(s[i], s[j]) < 0
    {
      Compare2Lexicographic(s[i], s[j]);
    }
    forall p
      ensures p in s <==> p in RunPoints(y, lo, hi)
    {
      if p in RunPoints(y, lo, hi) {
        assert s[p.x - lo] == p;
      }
    }
    AscendingUnique2(Sorted2(RunPoints(y, lo, hi)), s);
  }

  /** A sum over a set of numbers that throws if any `getValue` does. */
  ghost function SumValues(g: Grid2<string>, ws: set<set<Point2>>): Option<int> {
    if forall w :: w in ws ==> GetValue(g, w).Some? then
      Some(SumSet(ws, w => if GetValue(g, w).Some? then GetValue(g, w).value else 0))
    else None
  }

  // ---------------------------------------------------------------- part 1

  /** `getPartNumbers`: the wide numbers with a cell adjacent to a char
      point (`point.isOrthogonal(charPoint)`). */
  function PartNumbers(wns: set<set<Point2>>, charPoints: set<Point2>, adj: (Point2, Point2) -> bool): set<set<Point2>> {
    set w | w in wns && Touches(w, charPoints, adj)
  }

  /** Some cell of w is adjacent to one of the char points. */
  predicate Touches(w: set<Point2>, charPoints: set<Point2>, adj: (Point2, Point2) -> bool) {
    exists p, c :: p in w && c in charPoints && adj(p, c)
  }

  /** The part numbers of the schematic. */
  ghost function Parts(lines: seq<string>, adj: (Point2, Point2) -> bool): set<set<Point2>> {
    var g := GetGrid(lines);
    PartNumbers(GroupWideNumbers(g), CharPoints(g), adj)
  }

  /** `part1`: the sum of the part numbers' values. */
  ghost function Part1(lines: seq<string>, adj: (Point2, Point2) -> bool): Option<int> {
    SumValues(GetGrid(lines), Parts(lines, adj))
  }

  /** Every wide number of the schematic has a value. */
  lemma WideNumbersValued(lines: seq<string>, w: set<Point2>)
    requires w in GroupWideNumbers(GetGrid(lines))
    ensures GetValue(GetGrid(lines), w).Some?
  {
    WideNumbersAreRuns(lines);
    var y, lo, hi :| 0 <= y < |lines| && DigitRun(lines[y], lo, hi) && w == RunPoints(y, lo, hi);
    RunValue(lines, y, lo, hi);
  }

  /** Part numbers are the digit runs one of whose cells is adjacent to a
      char point. */
  lemma PartsAreRuns(lines: seq<string>, adj: (Point2, Point2) -> bool)
    ensures forall w :: w in Parts(lines, adj) <==>
      IsDigitRun(lines, w) && Touches(w, CharPoints(GetGrid(lines)), adj)
  {
    WideNumbersAreRuns(lines);
  }

  /** Part 1 never throws: it is the sum of the part numbers' values. */
  lemma Part1Defined(lines: seq<string>, adj: (Point2, Point2) -> bool)
    ensures Part1(lines, adj).Some?
  {
    var g := GetGrid(lines);
    forall w | w in Parts(lines, adj)
      ensures GetValue(g, w).Some?
    {
      WideNumbersValued(lines, w);
    }
  }

  // ---------------------------------------------------------------- part 2

  /** The char points whose text is "*". */
  function GearPoints(g: Grid2<string>): set<Point2> {
    set p | p in CharPoints(g) && p in g.cells && g.cells[p] == "*"
  }

  /** Gear points are exactly the `*` characters of the input. */
  lemma GearPointsOfLines(lines: seq<string>)
    ensures forall p :: p in GearPoints(GetGrid(lines)) <==>
      0 <= p.y < |lines| && 0 <= p.x < |lines[p.y]| && lines[p.y][p.x] == '*'
  {
    CharPointsOfLines(lines);
  }

  /** The part numbers with a cell adjacent to the gear
      (`gear.isOrthogonal(point)`). */
  function AdjacentParts(parts: set<set<Point2>>, adj: (Point2, Point2) -> bool, gear: Point2): set<set<Point2>> {
    set w | w in parts && exists p :: p in w && adj(gear, p)
  }

  /** A gear's ratio: nothing unless exactly two part numbers touch it, and
      then the product of their values. */
  ghost function GearRatio(g: Grid2<string>, parts: set<set<Point2>>, adj: (Point2, Point2) -> bool, gear: Point2): (r: Option<int>)
    ensures |AdjacentParts(parts, adj, gear)| != 2 ==> r == Some(0)
    ensures |AdjacentParts(parts, adj, gear)| == 2 ==>
      exists u, v :: u != v && AdjacentParts(parts, adj, gear) == {u, v} &&
        r == (if GetValue(g, u).Some? && GetValue(g, v).Some? then Some(GetValue(g, u).value * GetValue(g, v).value) else None)
  {
    var a := AdjacentParts(parts, adj, gear);
    if |a| != 2 then Some(0)
    else
      var u := Pick(a);
      assert |a - {u}| == 1;
      var v := Pick(a - {u});
      assert |a - {u, v}| == 0;
      assert a == {u, v};
      if GetValue(g, u).Some? && GetValue(g, v).Some? then Some(GetValue(g, u).value * GetValue(g, v).value) else None
  }

  /** `part2`: the sum of the gear ratios. */
  ghost function Part2(lines: seq<string>, adj: (Point2, Point2) -> bool): Option<int> {
    var g := GetGrid(lines);
    var parts := Parts(lines, adj);
    var gears := GearPoints(g);
    if forall gear :: gear in gears ==> GearRatio(g, parts, adj, gear).Some? then
      Some(SumSet(gears, gear => if GearRatio(g, parts, adj, gear).Some? then GearRatio(g, parts, adj, gear).value else 0))
    else None
  }

  /** A gear's ratio is defined when its part numbers all have values. */
  lemma GearRatioDefined(g: Grid2<string>, parts: set<set<Point2>>, adj: (Point2, Point2) -> bool, gear: Point2)
    requires forall w :: w in parts ==> GetValue(g, w).Some?
    ensures GearRatio(g, parts, adj, gear).Some?
  {
    var a := AdjacentParts(parts, adj, gear);
    if |a| == 2 {
      var u := Pick(a);
      assert |a - {u}| == 1;
      var v := Pick(a - {u});
      assert u in parts && v in parts;
    }
  }

  /** Part 2 never throws: every part number touching a gear has a value. */
  lemma Part2Defined(lines: seq<string>, adj: (Point2, Point2) -> bool)
    ensures Part2(lines, adj).Some?
  {
    var g := GetGrid(lines);
    var parts := Parts(lines, adj);
    forall w | w in parts
      ensures GetValue(g, w).Some?
    {
      WideNumbersValued(lines, w);
    }
    forall gear | gear in GearPoints(g)
      ensures GearRatio(g, parts, adj, gear).Some?
    {
      GearRatioDefined(g, parts, adj, gear);
    }
  }
}

=== FILE: scratchcards.dfy ===
/** Day 4: scratchcards. A card's matches are the numbers you have that are
    also winning numbers. Part 1 scores each card by doubling; part 2 lets each
    card win copies of the cards that follow it and totals the copies. */
module Scratchcards {
  import opened Wrappers
  import opened Folds

  datatype Card = Card(id: int, winners: set<int>, numbers: set<int>)

  /** `numbers.stream().filter(winners::contains).count()`. */
  function Matches(c: Card): (m: nat)
    ensures m == |c.numbers * c.winners|
    ensures m <= |c.numbers| && m <= |c.winners|
  {
    var hits := set n | n in c.numbers && n in c.winners;
    assert hits == c.numbers * c.winners;
    assert hits <= c.numbers && hits <= c.winners;
    SubsetCard(hits, c.numbers);
    SubsetCard(hits, c.winners);
    |hits|
  }

  lemma SubsetCard(a: set<int>, b: set<int>)
    requires a <= b
    ensures |a| <= |b|
  {
    assert b == a + (b - a);
  }

  function Pow2(n: nat): (p: nat)
    ensures p >= 1
  {
    if n == 0 then 1 else 2 * Pow2(n - 1)
  }

  /** `(int) Math.pow(2, count - 1)`: the cast truncates one half to 0. */
  function Score(m: nat): (s: nat)
    ensures s == Pow2(m) / 2
  {
    if m == 0 then 0 else Pow2(m - 1)
  }

  /** The first match is worth one point and every further match doubles
      the score. */
  lemma ScoreDoubles(m: nat)
    ensures Score(1) == 1
    ensures m >= 1 ==> Score(m + 1) == 2 * Score(m)
  {
  }

  /** What one card is worth. */
  function CardScore(c: Card): int {
    Score(Matches(c))
  }

  /** Part 1: the total score of all cards. */
  function Part1(cards: seq<Card>): (total: nat)
    ensures total == SumOf(cards, CardScore)
    ensures forall i :: 0 <= i < |cards| ==> total >= Score(Matches(cards[i]))
  {
    if |cards| == 0 then 0
    else
      var n := |cards| - 1;
      var init := cards[..n];
      var total := Part1(init) + Score(Matches(cards[n]));
      SumOfRemove(cards, n, CardScore);
      assert cards[..n] + cards[n + 1..] == init;
      assert forall i :: 0 <= i < |init| ==> cards[i] == init[i];
      total
  }

  /** Scores add up card by card. */
  lemma {:induction false} Part1Append(a: seq<Card>, b: seq<Card>)
    ensures Part1(a + b) == Part1(a) + Part1(b)
    decreases |b|
  {
    if |b| > 0 {
      var b' := b[..|b| - 1];
      assert (a + b)[..|a + b| - 1] == a + b';
      Part1Append(a, b');
    } else {
      assert a + b == a;
    }
  }

  // ------------------------------------------------------------ part 2

  function Ids(cards: seq<Card>): (ids: set<int>)
    ensures forall i :: 0 <= i < |cards| ==> cards[i].id in ids
  {
    set i | 0 <= i < |cards| :: cards[i].id
  }

  /** The first loop of part 2: each card in turn puts one copy of its id. */
  function SeedCopies(cards: seq<Card>): (copies: map<int, int>)
    ensures copies.Keys == Ids(cards)
    ensures forall k :: k in copies ==> copies[k] == 1
  {
    if |cards| == 0 then map[]
    else
      var init := cards[..|cards| - 1];
      assert Ids(cards) == Ids(init) + {cards[|cards| - 1].id} by {
        assert forall i :: 0 <= i < |init| ==> cards[i] == init[i];
      }
      SeedCopies(init)[cards[|cards| - 1].id := 1]
  }

  /** The largest card id; an empty list throws from `orElseThrow`. */
  function MaxId(cards: seq<Card>): (r: Option<int>)
    ensures r.Some? <==> |cards| > 0
    ensures r.Some? ==> r.value in Ids(cards) && forall k :: k in Ids(cards) ==> k <= r.value
  {
    if |cards| == 0 then None
    else
      var init := cards[..|cards| - 1];
      var last := cards[|cards| - 1].id;
      assert Ids(cards) == Ids(init) + {last} by {
        assert forall i :: 0 <= i < |init| ==> cards[i] == init[i];
      }
      match MaxId(init)
      case None => Some(last)
      case Some(m) => Some(if m >= last then m else last)
  }

  /** The `rangeClosed(i, hi)` loop: each id in turn gains the copies of card
      `id`; an id missing from the map is a NullPointerException. */
  function AddCopies(copies: map<int, int>, id: int, i: int, hi: int): (r: Result<map<int, int>>)
    requires id < i
    ensures r.Ok? <==> i > hi || (id in copies && forall k :: i <= k <= hi ==> k in copies)
    ensures r.Ok? ==> r.value.Keys == copies.Keys
    ensures r.Ok? ==> forall k {:trigger r.value[k]} :: k in copies ==>
      r.value[k] == if i <= k <= hi then copies[k] + copies[id] else copies[k]
    decreases hi - i
  {
    if i > hi then Ok(copies)
    else if i !in copies || id !in copies then Err("no copy count")
    else
      var next := copies[i := copies[i] + copies[id]];
      assert next.Keys == copies.Keys;
      AddCopies(next, id, i + 1, hi)
  }

  /** The last id card `c` wins a copy of. */
  function LastTarget(c: Card, maxId: int): int {
    if c.id + Matches(c) <= maxId then c.id + Matches(c) else maxId
  }

  /** The body of the second loop: a card with `k > 0` matches and an id
      below `maxId` adds its own copy count to the next `k` ids, stopping at
      `maxId`. Its own count and every other id keep their value. */
  function ProcessCard(copies: map<int, int>, c: Card, maxId: int): (r: Result<map<int, int>>)
    ensures r.Ok? <==>
      (forall k :: c.id < k <= LastTarget(c, maxId) ==> k in copies) &&
      (c.id < LastTarget(c, maxId) ==> c.id in copies)
    ensures r.Ok? ==> r.value.Keys == copies.Keys
    ensures r.Ok? ==> forall k {:trigger r.value[k]} :: k in copies ==>
      r.value[k] == if c.id < k <= LastTarget(c, maxId) then copies[k] + copies[c.id] else copies[k]
  {
    if c.id < maxId && Matches(c) > 0 then AddCopies(copies, c.id, c.id + 1, LastTarget(c, maxId))
    else Ok(copies)
  }

  /** The second loop over the cards in list order. */
  function Cascade(copies: map<int, int>, cards: seq<Card>, maxId: int): (r: Result<map<int, int>>)
    ensures r.Ok? ==> r.value.Keys == copies.Keys
    ensures r.Ok? && (forall k :: k in copies ==> copies[k] >= 1) ==>
      forall k {:trigger r.value[k]} :: k in copies ==> r.value[k] >= copies[k] && r.value[k] >= 1
    ensures r.Ok? ==> forall k :: k in copies && k > maxId ==> r.value[k] == copies[k]
  {
    if |cards| == 0 then Ok(copies)
    else
      match ProcessCard(copies, cards[0], maxId)
      case Err(e) => Err(e)
      case Ok(next) => Cascade(next, cards[1..], maxId)
  }

  /** The ids of the cards, each once, in order of first appearance. */
  function DistinctIds(cards: seq<Card>): (ids: seq<int>)
    ensures forall i, j :: 0 <= i < j < |ids| ==> ids[i] != ids[j]
    ensures forall k :: k in ids <==> k in Ids(cards)
  {
    if |cards| == 0 then []
    else
      var init := cards[..|cards| - 1];
      var last := cards[|cards| - 1].id;
      assert Ids(cards) == Ids(init) + {last} by {
        assert forall i :: 0 <= i < |init| ==> cards[i] == init[i];
      }
      if last in DistinctIds(init) then DistinctIds(init) else DistinctIds(init) + [last]
  }

  function SumOver(m: map<int, int>, ks: seq<int>): int
    requires forall i :: 0 <= i < |ks| ==> ks[i] in m
  {
    if |ks| == 0 then 0 else SumOver(m, ks[..|ks| - 1]) + m[ks[|ks| - 1]]
  }

  /** Part 2: the total number of cards once every copy is counted; the sum
      runs over the map's values, one per distinct id. */
  function Part2(cards: seq<Card>): (r: Result<int>)
    ensures |cards| == 0 ==> r.Err?
    ensures r.Ok? ==> r.value >= |DistinctIds(cards)|
  {
    match MaxId(cards)
    case None => Err("no cards")
    case Some(maxId) =>
      match Cascade(SeedCopies(cards), cards, maxId)
      case Err(e) => Err(e)
      case Ok(copies) =>
        var ids := DistinctIds(cards);
        SumOverAtLeast(copies, ids);
        Ok(SumOver(copies, ids))
  }

  lemma {:induction false} SumOverAtLeast(m: map<int, int>, ks: seq<int>)
    requires forall i :: 0 <= i < |ks| ==> ks[i] in m && m[ks[i]] >= 1
    ensures SumOver(m, ks) >= |ks|
  {
    if |ks| > 0 {
      SumOverAtLeast(m, ks[..|ks| - 1]);
    }
  }

  /** Contiguous ids never make part 2 throw: every id a card can win lies
      between the smallest and the largest id. */
  lemma Part2ContiguousOk(cards: seq<Card>)
    requires |cards| > 0
    requires forall i, k :: 0 <= i < |cards| && cards[i].id <= k <= MaxId(cards).value ==> k in Ids(cards)
    ensures Part2(cards).Ok?
  {
    CascadeOk(SeedCopies(cards), cards, MaxId(cards).value);
  }

  lemma {:induction false} CascadeOk(copies: map<int, int>, cards: seq<Card>, maxId: int)
    requires forall i, k :: 0 <= i < |cards| && cards[i].id <= k <= maxId ==> k in copies
    ensures Cascade(copies, cards, maxId).Ok?
  {
    if |cards| > 0 {
      assert forall k :: cards[0].id <= k <= maxId ==> k in copies;
      var next := ProcessCard(copies, cards[0], maxId).value;
      assert forall i :: 0 <= i < |cards| - 1 ==> cards[1..][i] == cards[i + 1];
      CascadeOk(next, cards[1..], maxId);
    }
  }
}

/** The puzzle's own description of the copy cascade, and the proof that the
    program's loop computes it on consecutively numbered cards. */
module ScratchcardsReference {
  import opened Wrappers
  import opened Scratchcards


  /** The cards are numbered consecutively in list order, as the puzzle
      input is. */
  predicate Consecutive(cards: seq<Card>) {
    forall i :: 0 <= i < |cards| ==> cards[i].id == cards[0].id + i
  }

  /** Card `i` wins a copy of card `j`. */
  predicate WinsCopy(cards: seq<Card>, i: nat, j: nat)
    requires i < |cards| && j < |cards|
  {
    cards[i].id < cards[j].id <= cards[i].id + Matches(cards[i])
  }

  /** The puzzle's own count of instances of card `j`: the original plus one
      for each instance of an earlier card that wins it. */
  function Copies(cards: seq<Card>, j: nat): nat
    requires j < |cards|
    decreases j, 1, 0
  {
    1 + WonCopies(cards, j, j)
  }

  /** Copies of card `j` won by the cards before index `n`. */
  function WonCopies(cards: seq<Card>, n: nat, j: nat): nat
    requires n <= j < |cards|
    decreases j, 0, n
  {
    if n == 0 then 0
    else WonCopies(cards, n - 1, j) + (if WinsCopy(cards, n - 1, j) then Copies(cards, n - 1) else 0)
  }

  function TotalCopies(cards: seq<Card>, n: nat): nat
    requires n <= |cards|
  {
    if n == 0 then 0 else TotalCopies(cards, n - 1) + Copies(cards, n - 1)
  }

  function Min(a: nat, b: nat): nat {
    if a <= b then a else b
  }

  /** Every id a card of a consecutively numbered list can win is present. */
  lemma ProcessOk(cards: seq<Card>, n: nat, mid: map<int, int>)
    requires |cards| > 0 && Consecutive(cards) && n < |cards|
    requires forall j :: 0 <= j < |cards| ==> cards[j].id in mid
    ensures ProcessCard(mid, cards[n], cards[0].id + |cards| - 1).Ok?
  {
    var maxId := cards[0].id + |cards| - 1;
    var c := cards[n];
    forall k | c.id < k <= LastTarget(c, maxId) ensures k in mid {
      assert cards[k - cards[0].id].id == k;
    }
  }

  /** One card's count after card `n` is processed. */
  lemma StepValue(cards: seq<Card>, n: nat, j: nat, before: int, after: int)
    requires n < |cards| && j < |cards|
    requires before == 1 + WonCopies(cards, Min(n, j), j)
    requires WinsCopy(cards, n, j) ==> n < j
    requires after == if WinsCopy(cards, n, j) then before + Copies(cards, n) else before
    ensures after == 1 + WonCopies(cards, Min(n + 1, j), j)
  {
  }

  /** The copy counts once the first `n` cards are processed: card `j` holds
      its original plus the copies won by those of the first `n` that come
      before it. */
  predicate CountsAfter(cards: seq<Card>, n: nat, copies: map<int, int>) {
    && (forall j :: 0 <= j < |cards| ==> cards[j].id in copies)
    && forall j {:trigger copies[cards[j].id]} :: 0 <= j < |cards| ==>
      copies[cards[j].id] == 1 + WonCopies(cards, Min(n, j), j)
  }

  /** Processing card `n` hands its final count to the cards it wins. */
  lemma ProcessStep(cards: seq<Card>, n: nat, mid: map<int, int>)
    requires |cards| > 0 && Consecutive(cards) && n < |cards|
    requires CountsAfter(cards, n, mid)
    ensures ProcessCard(mid, cards[n], cards[0].id + |cards| - 1).Ok?
    ensures CountsAfter(cards, n + 1, ProcessCard(mid, cards[n], cards[0].id + |cards| - 1).value)
  {
    var maxId := cards[0].id + |cards| - 1;
    var c := cards[n];
    ProcessOk(cards, n, mid);
    var r := ProcessCard(mid, c, maxId).value;
    assert mid[c.id] == Copies(cards, n);
    forall j | 0 <= j < |cards|
      ensures r[cards[j].id] == 1 + WonCopies(cards, Min(n + 1, j), j)
    {
      var k := cards[j].id;
      assert k in mid;
      assert (c.id < k <= LastTarget(c, maxId)) == WinsCopy(cards, n, j);
      StepValue(cards, n, j, mid[k], r[k]);
    }
  }

  /** On consecutively numbered cards, the ids before card n are all
      smaller than its id. */
  lemma IdsBelow(cards: seq<Card>, n: nat)
    requires Consecutive(cards) && n < |cards|
    ensures forall k :: k in Ids(cards[..n]) ==> k < cards[n].id
  {
    forall k | k in Ids(cards[..n]) ensures k < cards[n].id {
      var i :| 0 <= i < n && cards[..n][i].id == k;
      assert cards[..n][i] == cards[i];
    }
  }

  /** Adding up the final counts over the ids in list order. */
  lemma {:induction false} SumCounts(cards: seq<Card>, m: map<int, int>, n: nat)
    requires Consecutive(cards) && n <= |cards|
    requires forall j :: 0 <= j < |cards| ==> cards[j].id in m && m[cards[j].id] == Copies(cards, j)
    ensures forall i :: 0 <= i < |DistinctIds(cards[..n])| ==> DistinctIds(cards[..n])[i] in m
    ensures SumOver(m, DistinctIds(cards[..n])) == TotalCopies(cards, n)
  {
    var ids := DistinctIds(cards[..n]);
    forall i | 0 <= i < |ids| ensures ids[i] in m {
      assert ids[i] in Ids(cards[..n]);
      var j :| 0 <= j < n && cards[..n][j].id == ids[i];
      assert cards[..n][j] == cards[j];
    }
    if n > 0 {
      SumCounts(cards, m, n - 1);
      DistinctStep(cards, n);
      SumOverLast(m, DistinctIds(cards[..n - 1]), cards[n - 1].id);
    } else {
      assert DistinctIds(cards[..n]) == [];
    }
  }

  /** Each further card of a consecutively numbered list adds its id. */
  lemma DistinctStep(cards: seq<Card>, n: nat)
    requires Consecutive(cards) && 0 < n <= |cards|
    ensures DistinctIds(cards[..n]) == DistinctIds(cards[..n - 1]) + [cards[n - 1].id]
  {
    var c := cards[..n];
    assert c[..n - 1] == cards[..n - 1] && c[n - 1] == cards[n - 1];
    IdsBelow(cards, n - 1);
  }

  lemma SumOverLast(m: map<int, int>, ks: seq<int>, k: int)
    requires (forall i :: 0 <= i < |ks| ==> ks[i] in m) && k in m
    ensures SumOver(m, ks + [k]) == SumOver(m, ks) + m[k]
  {
    assert (ks + [k])[..|ks|] == ks;
  }
}

/** The program's loop computes the puzzle's counts on consecutively
    numbered cards. */
module ScratchcardsProof {
  import opened Wrappers
  import opened Scratchcards
  import opened ScratchcardsReference

  /** Before the loop every card has one copy, which is what the puzzle
      counts when no card has been processed. */
  lemma SeedCounts(cards: seq<Card>, seed: map<int, int>)
    requires seed.Keys == Ids(cards) && forall k :: k in seed ==> seed[k] == 1
    ensures CountsAfter(cards, 0, seed)
  {
    forall j | 0 <= j < |cards| ensures cards[j].id in seed && seed[cards[j].id] == 1 + WonCopies(cards, Min(0, j), j) {
      assert cards[j].id in Ids(cards);
    }
  }

  /** From the counts after `n` cards, the loop over the remaining cards
      `rest` reaches the counts after every card. */
  lemma {:induction false} CountsFrom(cards: seq<Card>, n: nat, maxId: int, copies: map<int, int>, rest: seq<Card>)
    returns (final: map<int, int>)
    requires |cards| > 0 && Consecutive(cards) && maxId == cards[0].id + |cards| - 1
    requires n <= |cards| && rest == cards[n..] && CountsAfter(cards, n, copies)
    ensures Cascade(copies, rest, maxId) == Ok(final)
    ensures CountsAfter(cards, |cards|, final)
    decreases |cards| - n
  {
    if n == |cards| {
      final := copies;
    } else {
      ProcessStep(cards, n, copies);
      var next := ProcessCard(copies, cards[n], maxId).value;
      assert rest[0] == cards[n] && rest[1..] == cards[n + 1..];
      final := CountsFrom(cards, n + 1, maxId, next, rest[1..]);
    }
  }

  /** The whole loop, from counts that are right before any card is
      processed. */
  lemma CascadeFromSeed(cards: seq<Card>, seed: map<int, int>, maxId: int) returns (final: map<int, int>)
    requires |cards| > 0 && Consecutive(cards) && maxId == cards[0].id + |cards| - 1
    requires CountsAfter(cards, 0, seed)
    ensures Cascade(seed, cards, maxId) == Ok(final)
    ensures CountsAfter(cards, |cards|, final)
  {
    assert cards == cards[0..];
    final := CountsFrom(cards, 0, maxId, seed, cards);
  }

  /** Once every card is processed, each card's count is its puzzle count. */
  lemma FinalCounts(cards: seq<Card>, m: map<int, int>)
    requires CountsAfter(cards, |cards|, m)
    ensures forall j :: 0 <= j < |cards| ==> cards[j].id in m && m[cards[j].id] == Copies(cards, j)
  {
    forall j | 0 <= j < |cards| ensures cards[j].id in m && m[cards[j].id] == Copies(cards, j) {
      assert Min(|cards|, j) == j;
    }
  }

  /** The loop leaves every consecutively numbered card with its puzzle
      count. */
  lemma CascadeCounts(cards: seq<Card>, seed: map<int, int>, maxId: int) returns (final: map<int, int>)
    requires |cards| > 0 && Consecutive(cards) && maxId == cards[0].id + |cards| - 1
    requires seed.Keys == Ids(cards) && forall k :: k in seed ==> seed[k] == 1
    ensures Cascade(seed, cards, maxId) == Ok(final)
    ensures forall j :: 0 <= j < |cards| ==> cards[j].id in final && final[cards[j].id] == Copies(cards, j)
  {
    SeedCounts(cards, seed);
    final := CascadeFromSeed(cards, seed, maxId);
    FinalCounts(cards, final);
  }

  /** The loop's counts added up over the distinct ids are the puzzle's
      total. */
  lemma CascadeTotal(cards: seq<Card>, seed: map<int, int>, maxId: int) returns (final: map<int, int>)
    requires |cards| > 0 && Consecutive(cards) && maxId == cards[0].id + |cards| - 1
    requires seed.Keys == Ids(cards) && forall k :: k in seed ==> seed[k] == 1
    ensures Cascade(seed, cards, maxId) == Ok(final)
    ensures forall i :: 0 <= i < |DistinctIds(cards)| ==> DistinctIds(cards)[i] in final
    ensures SumOver(final, DistinctIds(cards)) == TotalCopies(cards, |cards|)
  {
    final := CascadeCounts(cards, seed, maxId);
    SumAll(cards, final);
  }

  /** The largest id of consecutively numbered cards is the last one. */
  lemma MaxIdConsecutive(cards: seq<Card>, maxId: int)
    requires |cards| > 0 && Consecutive(cards) && maxId == cards[0].id + |cards| - 1
    ensures MaxId(cards) == Some(maxId)
  {
    var m := MaxId(cards).value;
    var i :| 0 <= i < |cards| && cards[i].id == m;
    assert cards[|cards| - 1].id in Ids(cards);
  }

  /** The final counts added up over every id are the puzzle's total. */
  lemma SumAll(cards: seq<Card>, m: map<int, int>)
    requires Consecutive(cards)
    requires forall j :: 0 <= j < |cards| ==> cards[j].id in m && m[cards[j].id] == Copies(cards, j)
    ensures forall i :: 0 <= i < |DistinctIds(cards)| ==> DistinctIds(cards)[i] in m
    ensures SumOver(m, DistinctIds(cards)) == TotalCopies(cards, |cards|)
  {
    assert cards[..|cards|] == cards;
    SumCounts(cards, m, |cards|);
  }

  /** Part 2 adds up what the loop leaves in the map. */
  lemma Part2Of(cards: seq<Card>, maxId: int, m: map<int, int>)
    requires MaxId(cards) == Some(maxId) && Cascade(SeedCopies(cards), cards, maxId) == Ok(m)
    ensures forall i :: 0 <= i < |DistinctIds(cards)| ==> DistinctIds(cards)[i] in m
    ensures Part2(cards) == Ok(SumOver(m, DistinctIds(cards)))
  {
  }

  /** On consecutively numbered cards, part 2 is the puzzle's total number
      of cards. */
  lemma Part2Reference(cards: seq<Card>)
    requires |cards| > 0 && Consecutive(cards)
    ensures Part2(cards) == Ok(TotalCopies(cards, |cards|))
  {
    Part2Total(cards, cards[0].id + |cards| - 1);
  }

  lemma Part2Total(cards: seq<Card>, maxId: int)
    requires |cards| > 0 && Consecutive(cards) && maxId == cards[0].id + |cards| - 1
    ensures Part2(cards) == Ok(TotalCopies(cards, |cards|))
  {
    MaxIdConsecutive(cards, maxId);
    var m := CascadeTotal(cards, SeedCopies(cards), maxId);
    Part2Of(cards, maxId, m);
  }
}

=== FILE: trebuchet.dfy ===
/** Trebuchet calibration (`Day1`): the value of a line is its first and
    last digit read as a two-digit number. The easier reading knows only
    digit characters; the harder one also reads the words one to nine,
    overlapping words included. */
module Trebuchet {
  import opened Wrappers
  import opened Decimal
  import opened Folds

  /** The digit words, "one" at index 0. */
  const Words: seq<string> := ["one", "two", "three", "four", "five", "six", "seven", "eight", "nine"]

  /** Each digit word with the digit it spells. */
  const Lookup: map<string, string> :=
    map["one" := "1", "two" := "2", "three" := "3", "four" := "4", "five" := "5",
        "six" := "6", "seven" := "7", "eight" := "8", "nine" := "9"]

  /** A word stands for its digit; anything else stands for itself. */
  function GoodLookup(s: string): string {
    if s in Lookup then Lookup[s] else s
  }

  /** Every word spells its position plus one. */
  lemma LookupSpells(k: nat)
    requires k < |Words|
    ensures Words[k] in Lookup && Lookup[Words[k]] == [DigitChar(k + 1)]
  {
  }

  /** `s` continues with `w` at position `p`. */
  predicate StartsAt(s: string, p: nat, w: string) {
    p + |w| <= |s| && s[p..p + |w|] == w
  }

  /** The first word of `ws` that `s` continues with at `p`. */
  function WordAt(s: string, p: nat, ws: seq<string>): (r: Option<string>)
    ensures r.Some? ==> r.value in ws && StartsAt(s, p, r.value)
    ensures r.None? ==> forall k :: 0 <= k < |ws| ==> !StartsAt(s, p, ws[k])
  {
    if |ws| == 0 then None
    else if StartsAt(s, p, ws[0]) then Some(ws[0])
    else WordAt(s, p, ws[1..])
  }

  /** No digit word is a prefix of another, so at most one word starts at
      any position. */
  lemma WordsPrefixFree(i: nat, j: nat)
    requires i < |Words| && j < |Words| && i != j
    ensures !(Words[i] <= Words[j])
  {
    var heads := ["on", "tw", "th", "fo", "fi", "si", "se", "ei", "ni"];
    assert forall k :: 0 <= k < |Words| ==> |Words[k]| >= 3 && Words[k][..2] == heads[k];
    assert Words[i][..2] != Words[j][..2];
    PrefixHead(Words[i], Words[j], 2);
  }

  lemma PrefixHead(a: string, b: string, n: nat)
    ensures a <= b && n <= |a| ==> a[..n] == b[..n]
  {
  }

  /** The token the pattern `\d|one|two|...|nine` matches starting exactly
      at `p`: a digit character or a digit word. */
  function TokenAt(s: string, p: nat): (r: Option<string>)
    requires p < |s|
    ensures r.Some? <==> IsDigit(s[p]) || exists k :: 0 <= k < |Words| && StartsAt(s, p, Words[k])
  {
    if IsDigit(s[p]) then Some([s[p]]) else WordAt(s, p, Words)
  }

  /** The word alternatives may be tried in any order: the word that starts
      at `p` is the token there. */
  lemma TokenOrderFree(s: string, p: nat, k: nat)
    requires p < |s| && k < |Words| && StartsAt(s, p, Words[k])
    ensures TokenAt(s, p) == Some(Words[k])
  {
    assert Words[k][0] == s[p];
    assert !IsDigit(s[p]);
    var w := WordAt(s, p, Words).value;
    var j :| 0 <= j < |Words| && Words[j] == w;
    if j != k {
      if |Words[j]| <= |Words[k]| {
        assert Words[k][..|Words[j]|] == s[p..p + |Words[j]|];
        WordsPrefixFree(j, k);
      } else {
        assert Words[j][..|Words[k]|] == s[p..p + |Words[k]|];
        WordsPrefixFree(k, j);
      }
    }
  }

  /** A token is one digit, or a word that stands for one digit from 1. */
  lemma TokenIsDigit(s: string, p: nat)
    requires p < |s| && TokenAt(s, p).Some?
    ensures |GoodLookup(TokenAt(s, p).value)| == 1 && IsDigit(GoodLookup(TokenAt(s, p).value)[0])
  {
    if !IsDigit(s[p]) {
      var w := TokenAt(s, p).value;
      var k :| 0 <= k < |Words| && Words[k] == w;
      LookupSpells(k);
    }
  }

  /** `Matcher.find` from position `i`: the leftmost token at or after `i`,
      with its position. */
  function FirstToken(s: string, i: nat): (r: Option<(nat, string)>)
    ensures r.Some? ==> i <= r.value.0 < |s| && TokenAt(s, r.value.0) == Some(r.value.1)
    ensures r.Some? ==> forall k :: i <= k < r.value.0 ==> TokenAt(s, k).None?
    ensures r.None? ==> forall k :: i <= k < |s| ==> TokenAt(s, k).None?
    decreases |s| - i
  {
    if i >= |s| then None
    else if TokenAt(s, i).Some? then Some((i, TokenAt(s, i).value))
    else FirstToken(s, i + 1)
  }

  /** The harder mode's list: for every start `k` from `i` on, the first
      token of the text from `k`, when there is one. */
  function Found(s: string, i: nat): (r: seq<string>)
    decreases |s| - i
  {
    if i >= |s| then []
    else (if FirstToken(s, i).Some? then [FirstToken(s, i).value.1] else []) + Found(s, i + 1)
  }

  /** The list is empty exactly when no token starts at or after `i`. */
  lemma {:induction false} FoundEmpty(s: string, i: nat)
    ensures |Found(s, i)| == 0 <==> FirstToken(s, i).None?
    decreases |s| - i
  {
    if i < |s| && FirstToken(s, i).None? {
      FoundEmpty(s, i + 1);
    }
  }

  /** The list starts with the leftmost token. */
  lemma FoundFirst(s: string, i: nat)
    requires FirstToken(s, i).Some?
    ensures |Found(s, i)| > 0 && Found(s, i)[0] == FirstToken(s, i).value.1
  {
  }

  /** The list ends with the token at the rightmost position holding one. */
  lemma {:induction false} FoundLast(s: string, i: nat, q: nat, t: string)
    requires i <= q < |s| && TokenAt(s, q) == Some(t)
    requires forall k :: q < k < |s| ==> TokenAt(s, k).None?
    ensures |Found(s, i)| > 0 && Found(s, i)[|Found(s, i)| - 1] == t
    decreases |s| - i
  {
    if i < q {
      FoundLast(s, i + 1, q, t);
      var rest := Found(s, i + 1);
      var f := Found(s, i);
      assert f == (if FirstToken(s, i).Some? then [FirstToken(s, i).value.1] else []) + rest;
      assert f[|f| - 1] == rest[|rest| - 1];
    } else {
      assert FirstToken(s, q + 1).None?;
      FoundEmpty(s, q + 1);
      assert Found(s, q) == [t] + Found(s, q + 1);
    }
  }

  /** Easier mode's tokens: the digit characters, in order. */
  function DigitsOf(s: string): (r: seq<string>)
    ensures forall k :: 0 <= k < |r| ==> |r[k]| == 1
  {
    if |s| == 0 then []
    else (if IsDigit(s[0]) then [[s[0]]] else []) + DigitsOf(s[1..])
  }

  /** Easier mode: the first digit character followed by the last; a line
      without digits fails on the empty list. */
  function Easier(line: string): (r: Result<string>)
    ensures r.Ok? <==> exists k :: 0 <= k < |line| && IsDigit(line[k])
  {
    var nums := DigitsOf(line);
    DigitsOfEmpty(line);
    if |nums| == 0 then Err("IndexOutOfBoundsException")
    else Ok(nums[0] + nums[|nums| - 1])
  }

  /** Harder mode: the first and the last token found, words replaced by
      their digits; a line without tokens fails on the empty list. */
  function Harder(line: string): (r: Result<string>)
    ensures r.Ok? <==> exists k :: 0 <= k < |line| && TokenAt(line, k).Some?
  {
    var nums := Found(line, 0);
    FoundEmpty(line, 0);
    if |nums| == 0 then Err("IndexOutOfBoundsException")
    else Ok(GoodLookup(nums[0]) + GoodLookup(nums[|nums| - 1]))
  }

  /** A line has no digit tokens exactly when it has no digit characters. */
  lemma {:induction false} DigitsOfEmpty(s: string)
    ensures |DigitsOf(s)| == 0 <==> forall k :: 0 <= k < |s| ==> !IsDigit(s[k])
  {
    if |s| > 0 {
      DigitsOfEmpty(s[1..]);
      assert forall k :: 1 <= k < |s| ==> s[k] == s[1..][k - 1];
    }
  }

  /** The first digit token is the leftmost digit character. */
  lemma {:induction false} DigitsOfFirst(s: string, p: nat)
    requires p < |s| && IsDigit(s[p]) && forall k :: 0 <= k < p ==> !IsDigit(s[k])
    ensures |DigitsOf(s)| > 0 && DigitsOf(s)[0] == [s[p]]
  {
    if p > 0 {
      assert !IsDigit(s[0]);
      forall k | 0 <= k < p - 1 ensures !IsDigit(s[1..][k]) {
        assert s[1..][k] == s[k + 1];
      }
      DigitsOfFirst(s[1..], p - 1);
    }
  }

  /** The last digit token is the rightmost digit character. */
  lemma {:induction false} DigitsOfLast(s: string, q: nat)
    requires q < |s| && IsDigit(s[q]) && forall k :: q < k < |s| ==> !IsDigit(s[k])
    ensures |DigitsOf(s)| > 0 && DigitsOf(s)[|DigitsOf(s)| - 1] == [s[q]]
  {
    var head := if IsDigit(s[0]) then [[s[0]]] else [];
    var rest := DigitsOf(s[1..]);
    assert DigitsOf(s) == head + rest;
    if q > 0 {
      forall k | q - 1 < k < |s| - 1 ensures !IsDigit(s[1..][k]) {
        assert s[1..][k] == s[k + 1];
      }
      DigitsOfLast(s[1..], q - 1);
      assert s[1..][q - 1] == s[q];
    } else {
      forall k | 0 <= k < |s| - 1 ensures !IsDigit(s[1..][k]) {
        assert s[1..][k] == s[k + 1];
      }
      DigitsOfEmpty(s[1..]);
    }
  }

  /** Easier mode reads the first and the last digit character. */
  lemma EasierFirstLast(line: string, p: nat, q: nat)
    requires p <= q < |line| && IsDigit(line[p]) && IsDigit(line[q])
    requires forall k :: 0 <= k < p ==> !IsDigit(line[k])
    requires forall k :: q < k < |line| ==> !IsDigit(line[k])
    ensures Easier(line) == Ok([line[p], line[q]])
  {
    DigitsOfFirst(line, p);
    DigitsOfLast(line, q);
    assert [line[p]] + [line[q]] == [line[p], line[q]];
  }

  /** A line with a single digit reads it twice. */
  lemma EasierSingleDigit(line: string, p: nat)
    requires p < |line| && IsDigit(line[p])
    requires forall k :: 0 <= k < |line| && k != p ==> !IsDigit(line[k])
    ensures Easier(line) == Ok([line[p], line[p]])
  {
    EasierFirstLast(line, p, p);
  }

  /** Without a digit the easier mode fails. */
  lemma EasierNoDigit(line: string)
    requires forall k :: 0 <= k < |line| ==> !IsDigit(line[k])
    ensures Easier(line).Err?
  {
    DigitsOfEmpty(line);
  }

  /** Harder mode reads the token at the leftmost position holding one and
      the token at the rightmost. */
  lemma HarderFirstLast(line: string, p: nat, q: nat)
    requires p <= q < |line| && TokenAt(line, p).Some? && TokenAt(line, q).Some?
    requires forall k :: 0 <= k < p ==> TokenAt(line, k).None?
    requires forall k :: q < k < |line| ==> TokenAt(line, k).None?
    ensures Harder(line) == Ok(GoodLookup(TokenAt(line, p).value) + GoodLookup(TokenAt(line, q).value))
  {
    var first, last := TokenAt(line, p).value, TokenAt(line, q).value;
    assert FirstToken(line, 0).Some? && FirstToken(line, 0).value.0 == p;
    FoundFirst(line, 0);
    FoundLast(line, 0, q, last);
    var nums := Found(line, 0);
    assert nums[0] == first && nums[|nums| - 1] == last;
  }

  /** Without a token the harder mode fails. */
  lemma HarderNoToken(line: string)
    requires forall k :: 0 <= k < |line| ==> TokenAt(line, k).None?
    ensures Harder(line).Err?
  {
    FoundEmpty(line, 0);
  }

  /** Overlapping words both count: "twone" reads 2 then 1. */
  lemma HarderOverlap(s: string)
    requires s == "twone"
    ensures Harder(s) == Ok("21")
  {
    TwoneTokens(s);
    HarderFirstLast(s, 0, 2);
    TwoneDigits();
  }

  /** "two" then "one" read as the digits "21". */
  lemma TwoneDigits()
    ensures GoodLookup(Words[1]) + GoodLookup(Words[0]) == "21"
  {
    assert GoodLookup(Words[1]) == "2" by { LookupSpells(1); }
    assert GoodLookup(Words[0]) == "1" by { LookupSpells(0); }
    assert "2" + "1" == "21";
  }

  /** The tokens of "twone": "two" at 0 and "one" at 2, and nothing else. */
  lemma TwoneTokens(s: string)
    requires s == "twone"
    ensures TokenAt(s, 0) == Some(Words[1]) && TokenAt(s, 2) == Some(Words[0])
    ensures TokenAt(s, 1).None? && forall k :: 2 < k < |s| ==> TokenAt(s, k).None?
  {
    assert StartsAt(s, 0, Words[1]);
    TokenOrderFree(s, 0, 1);
    assert StartsAt(s, 2, Words[0]);
    TokenOrderFree(s, 2, 0);
    NoWordStartsWith(s, 1);
    forall k | 2 < k < |s| ensures TokenAt(s, k).None? {
      NoWordFits(s, k);
    }
  }

  lemma StartsAtHead(s: string, p: nat, w: string)
    ensures StartsAt(s, p, w) && |w| > 0 ==> s[p] == w[0]
  {
    if StartsAt(s, p, w) && |w| > 0 {
      assert s[p..p + |w|][0] == s[p];
    }
  }

  /** No token starts at a letter that begins no digit word. */
  lemma NoWordStartsWith(s: string, p: nat)
    requires p < |s| && s[p] !in {'o', 't', 'f', 's', 'e', 'n'} && !IsDigit(s[p])
    ensures TokenAt(s, p).None?
  {
    forall k | 0 <= k < |Words|
      ensures !StartsAt(s, p, Words[k])
    {
      assert Words[k][0] in {'o', 't', 'f', 's', 'e', 'n'};
      StartsAtHead(s, p, Words[k]);
    }
  }

  /** No token starts at a non-digit fewer than three characters from the
      end. */
  lemma NoWordFits(s: string, p: nat)
    requires p < |s| < p + 3 && !IsDigit(s[p])
    ensures TokenAt(s, p).None?
  {
    assert forall k :: 0 <= k < |Words| ==> |Words[k]| >= 3;
  }

  /** `Integer.valueOf` of each reading, summed; a failing line fails the
      sum. */
  function DoPart(input: seq<string>, parser: string -> Result<string>): (r: Result<int>)
    ensures r.Ok? ==> forall i :: 0 <= i < |input| ==> parser(input[i]).Ok?
  {
    if |input| == 0 then Ok(0)
    else
      match parser(input[0])
      case Err(m) => Err(m)
      case Ok(text) =>
        match ParseInt(text)
        case None => Err("NumberFormatException")
        case Some(v) =>
          match DoPart(input[1..], parser)
          case Err(m) => Err(m)
          case Ok(rest) =>
            assert forall i :: 1 <= i < |input| ==> input[i] == input[1..][i - 1];
            Ok(v + rest)
  }

  /** The calibration value of two digit characters. */
  function TwoDigitValue(a: char, b: char): int
    requires IsDigit(a) && IsDigit(b)
  {
    10 * DigitValue(a) + DigitValue(b)
  }

  /** A two-character digit text is worth ten times its first digit plus
      its second. */
  lemma ParseTwoDigits(a: char, b: char)
    requires IsDigit(a) && IsDigit(b)
    ensures ParseInt([a, b]) == Some(TwoDigitValue(a, b))
  {
    assert [a, b][..1] == [a];
    assert ParseDigits([a, b]) == 10 * ParseDigits([a]) + DigitValue(b);
    assert [a][..0] == [];
  }

  /** Every reading that succeeds is two digits. */
  predicate ReadsTwoDigits(parser: string -> Result<string>, line: string) {
    parser(line).Ok? ==> |parser(line).value| == 2 && IsDigit(parser(line).value[0]) && IsDigit(parser(line).value[1])
  }

  /** The value of each line under `parser`, zero when it fails. */
  function LineValue(parser: string -> Result<string>, line: string): int {
    if parser(line).Ok? && |parser(line).value| == 2 && IsDigit(parser(line).value[0]) && IsDigit(parser(line).value[1])
    then TwoDigitValue(parser(line).value[0], parser(line).value[1]) else 0
  }

  /** When every line reads two digits the result is the sum of the
      calibration values. */
  lemma {:induction false} DoPartSum(input: seq<string>, parser: string -> Result<string>)
    requires forall i :: 0 <= i < |input| ==> parser(input[i]).Ok? && ReadsTwoDigits(parser, input[i])
    ensures DoPart(input, parser) == Ok(SumOf(input, line => LineValue(parser, line)))
  {
    if |input| > 0 {
      var text := parser(input[0]).value;
      ParseTwoDigits(text[0], text[1]);
      assert text == [text[0], text[1]];
      DoPartSum(input[1..], parser);
    }
  }

  /** Both modes read two digits whenever they succeed. */
  lemma ModesReadTwoDigits(line: string)
    ensures ReadsTwoDigits(Easier, line)
    ensures ReadsTwoDigits(Harder, line)
  {
    var nums := DigitsOf(line);
    if |nums| > 0 {
      DigitsOfDigits(line);
    }
    var found := Found(line, 0);
    if |found| > 0 {
      FoundDigits(line, 0);
      TokenWords(found[0]);
      TokenWords(found[|found| - 1]);
    }
  }

  /** The digits of a line are digit characters. */
  lemma {:induction false} DigitsOfDigits(s: string)
    ensures forall k :: 0 <= k < |DigitsOf(s)| ==> IsDigit(DigitsOf(s)[k][0])
  {
    if |s| > 0 {
      DigitsOfDigits(s[1..]);
    }
  }

  /** A found token is a digit character or a digit word. */
  predicate IsToken(t: string) {
    (|t| == 1 && IsDigit(t[0])) || t in Words
  }

  lemma {:induction false} FoundDigits(s: string, i: nat)
    ensures forall k :: 0 <= k < |Found(s, i)| ==> IsToken(Found(s, i)[k])
    decreases |s| - i
  {
    if i < |s| {
      FoundDigits(s, i + 1);
      if FirstToken(s, i).Some? {
        var p := FirstToken(s, i).value.0;
        if !IsDigit(s[p]) {
          assert WordAt(s, p, Words).Some?;
        }
      }
    }
  }

  /** A token stands for one digit. */
  lemma TokenWords(t: string)
    requires IsToken(t)
    ensures |GoodLookup(t)| == 1 && IsDigit(GoodLookup(t)[0])
  {
    if t in Words {
      var k :| 0 <= k < |Words| && Words[k] == t;
      LookupSpells(k);
    } else {
      assert t !in Lookup;
    }
  }
}

=== FILE: wrappers.dfy ===
/** Failure-carrying results shared by every puzzle model. A Java method that
    returns null or throws is modelled by the `None` / `Err` alternative. */
module Wrappers {

  datatype Option<+T> = None | Some(value: T) {

    predicate IsFailure() {
      None?
    }

    function PropagateFailure<U>(): Option<U>
      requires None?
    {
      None
    }

    function Extract(): T
      requires Some?
    {
      value
    }
  }

  /** `Err` carries a short description of the exception the source raises. */
  datatype Result<+T> = Ok(value: T) | Err(msg: string) {

    predicate IsFailure() {
      Err?
    }

    function PropagateFailure<U>(): Result<U>
      requires Err?
    {
      Err(msg)
    }

    function Extract(): T
      requires Ok?
    {
      value
    }
  }

  /** A stream mapped element by element, where the first exception stops
      it: every result, or the first failure. */
  function Traverse<A, B>(xs: seq<A>, f: A -> Result<B>): (r: Result<seq<B>>)
    ensures r.Ok? <==> forall i :: 0 <= i < |xs| ==> f(xs[i]).Ok?
    ensures r.Ok? ==> |r.value| == |xs| && forall i :: 0 <= i < |xs| ==> r.value[i] == f(xs[i]).value
    ensures r.Err? ==> exists i :: 0 <= i < |xs| && f(xs[i]) == Err(r.msg) &&
                                   forall j :: 0 <= j < i ==> f(xs[j]).Ok?
  {
    if |xs| == 0 then Ok([])
    else
      match f(xs[0])
      case Err(m) => Err(m)
      case Ok(y) =>
        match Traverse(xs[1..], f)
        case Err(m) =>
          assert forall i :: 1 <= i < |xs| ==> xs[i] == xs[1..][i - 1];
          Err(m)
        case Ok(ys) =>
          assert forall i :: 1 <= i < |xs| ==> xs[i] == xs[1..][i - 1];
          Ok([y] + ys)
  }
}
